=== FILE: README.md ===
# willow, modelled in Dafny

willow (`ww`) is a command-line manager for git worktrees. Each repository is
cloned bare into `~/.willow/repos/<name>.git`. Its branches are checked out
as worktrees under `~/.willow/worktrees/<name>/`. The commands `clone`, `new`,
`rm`, `ls`, `pwd`, `run`, `prune`, `init` and `config` create, find, list,
run commands in and remove those worktrees. Configuration comes in three
tiers (global, shared, local), merged field by field over built-in defaults.

This project models the command logic of those files and proves properties
of it:

- the configuration tiers and their merge (`internal/config/config.go`);
- the git wrapper (`internal/git/git.go`);
- the command actions under `internal/cli/`.

The outside world is data:

- **`Backend.Env`** holds the home and working directories, symlink
  resolution, which paths exist, which configuration files load, the
  repos-directory listing, the worktree listing of each bare repo, and the
  lines typed at prompts.
- **`reply`** is an oracle giving the answer (success, output) to every git
  call, hook, `run` command, directory creation and config save.
- **`Step`** is what every command returns: its outcome (a `Result`) together
  with the calls it made, in order. Properties such as "rm never removes a
  worktree whose teardown hooks failed" or "prune calls `git worktree prune`
  only when the user agreed" are statements about that trace.

Modules follow the source layout:

| module | file |
|---|---|
| `Outcomes` | error kinds |
| `GoStrings`, `Strconv`, `FilePath` | the Go library behaviour the code relies on |
| `Config` | `internal/config/config.go` |
| `Worktrees` | the worktree record and the bare-entry filter |
| `Backend` | the environment |
| `Git` | `internal/git/git.go` |
| `Repo` | `internal/cli/repo.go` and `requireWillowRepo` |
| `Matcher` | `internal/cli/pwd.go` |
| `RunCmd`, `CloneCmd`, `PruneCmd`, `RmCmd`, `NewCmd`, `LsCmd`, `ConfigCmd` | the `internal/cli/` file of the same name |
| `HookLists`, `InitCmd` | `internal/cli/init.go` |

Three places where the source files disagree with each other are modelled
as follows:

- **The worktree listing.** `internal/worktree/worktree.go` is a placeholder
  in this snapshot: it has no `IsBare` field and returns an empty list. Its
  callers filter on `IsBare`. The model follows the callers: the listing of
  each bare directory is an input, with `isBare` on each entry.
- **`postCheckoutHook`.** The `Config` struct in `internal/config/config.go`
  has no `PostCheckoutHook` field, but `internal/cli/config.go` reads and
  writes one. The model keeps it as a plain string field that `config set`
  and `config get` handle and that the tier merge does not touch, as
  `merge` lists no such field.
- **`repoNameFromDir`.** It is declared twice in package `cli`, in
  `internal/cli/new.go:17-19` and `internal/cli/repo.go:26-28`, so the
  package as it stands would not compile. The two bodies are identical, and
  the model defines it once, as `Repo.RepoNameFromDir`.

## Model

| member | source | states |
|---|---|---|
| Strconv.Itoa | internal/cli/ls.go:196-202 | the `%d` rendering: digits whose value is n for n >= 0, a minus sign followed by the digits of -n otherwise, with no leading zero except for 0 itself |
| Strconv.Atoi | internal/cli/pwd.go:80-82 | a parse succeeds only on text starting with a digit or sign and only within the int64 range; every in-range run of digits parses to its value |
| Strconv.ItoaRoundTrip | internal/cli/pwd.go:80 | parsing the decimal rendering of any int64 gives the number back |
| Strconv.ItoaInjective | internal/cli/pwd.go:71 | distinct int64 numbers have distinct decimal renderings, so the picker's labels never collide |
| GoStrings.TrimSpace | internal/git/git.go:34 | the result has no white space at either end and is no longer than the input; it is empty exactly when the input is all white space; an already trimmed input is returned unchanged |
| GoStrings.TrimSpaceAround | internal/git/git.go:34 | the result is the input with a run of white space cut from the front and another from the back, and nothing else changed |
| GoStrings.TrimSpaceOfPadded | internal/cli/pwd.go:80 | white space typed before a trimmed non-empty word is stripped and the word kept |
| GoStrings.TrimPrefix | internal/git/git.go:62 | with the prefix present, prefix + result is the input; otherwise the input is returned |
| GoStrings.TrimSuffix | internal/cli/repo.go:27 | with the suffix present, result + suffix is the input; otherwise the input is returned |
| GoStrings.LastIndexOf | internal/cli/clone.go:100 | None exactly when the character is absent; otherwise an index holding the character with no occurrence after it |
| GoStrings.Split | internal/cli/init.go:122 | at least one piece; no piece contains the separator; joining the pieces with the separator gives the input back |
| GoStrings.SplitJoin | internal/cli/init.go:122 | splitting a join of separator-free pieces gives the pieces back, so split and join are inverse |
| GoStrings.SplitConcat | internal/cli/init.go:122 | splitting at one separator splits the two sides independently: the pieces of the whole are the pieces of the left side followed by those of the right |
| GoStrings.RemoveAll | internal/cli/new.go:116 | the result has no slash and keeps every other character with its multiplicity; an input without slashes is unchanged |
| GoStrings.RemoveAllAppend | internal/cli/new.go:116 | removal works piece by piece, so the kept characters stay in their original order |
| GoStrings.Base | internal/cli/clone.go:103 | `path.Base`: "." for the empty path, "/" for all slashes, otherwise the last slash-free element: a suffix of the path with trailing slashes removed, preceded there by a slash unless it is the whole of it |
| GoStrings.BaseOfChild | internal/cli/repo.go:27 | the base of dir + "/" + w is w for every slash-free non-empty w |
| GoStrings.ToLower | internal/cli/rm.go:132 | same length, each character lowered on its own |
| GoStrings.ByteLen | internal/cli/ls.go:165-170 | Go's `len` counts UTF-8 bytes: between one and four per character |
| FilePath.Clean | internal/git/git.go:42-46 | `filepath.Clean`: never empty; rooted exactly when the input is; the result is clean (".", "/", or slash-joined elements with no "", "." or cancellable "..", no ".." at the root); a clean path is returned unchanged |
| FilePath.CleanDotChild | internal/git/git.go:42-46 | a clean absolute directory with "/." appended cleans back to the directory |
| Worktrees.NonBare | internal/cli/pwd.go:42-47 | keeps exactly the non-bare entries, never more than the input |
| Worktrees.NonBareAppend | internal/cli/run.go:47-53 | filtering a concatenation concatenates the filtered parts, so the filter keeps the listing's order |
| Worktrees.NonBareOfCheckouts | internal/cli/ls.go:70-75 | a listing without a bare entry passes the filter unchanged |
| Worktrees.CountCheckouts | internal/cli/ls.go:126-131 | the counting loop's result is the length of the filtered listing |
| Backend.ListWorktrees | internal/cli/rm.go:59-62 | the listing succeeds exactly when the bare directory has one, and returns it |
| Git.Run | internal/git/git.go:16-35 | one git call is made; Ok exactly when git succeeded, and then the value is git's output with surrounding white space trimmed (`TrimSpace`); a failure carries the arguments and git's output; the result is empty exactly when the call failed or printed only white space |
| Git.Abs | internal/git/git.go:42-46 | `filepath.Abs`: an absolute path gives `Clean(p)`, a relative one `Clean(cwd + "/" + p)`; the result is clean and non-empty, an absolute clean path is kept, and the result is absolute when the path or the working directory is |
| Git.AbsOfDot | internal/git/git.go:42-46 | inside the bare repository, git's "." becomes the working directory itself |
| Git.BareRepoDir | internal/git/git.go:37-47 | one `rev-parse --git-common-dir` call; fails with "not inside a git repository" exactly when git fails; otherwise Abs of git's trimmed output, non-empty and absolute when the working directory is |
| Git.WorktreeRoot | internal/git/git.go:49-55 | one `rev-parse --show-toplevel` call; fails with "not inside a git worktree" exactly when git fails; otherwise git's trimmed output |
| Git.DefaultBranch | internal/git/git.go:57-63 | the symbolic ref of HEAD with a leading `refs/heads/` removed when present, or git's error |
| Git.IsDirty | internal/git/git.go:65-71 | dirty exactly when `status --porcelain` printed something other than white space; an error exactly when git failed |
| Git.HasUnpushedCommits | internal/git/git.go:73-80 | never an error; a failing `rev-list` (no upstream) counts as unpushed; otherwise unpushed exactly when the count is not "0" |
| Repo.ResolveBareRepo | internal/cli/repo.go:12-22 | one `rev-parse --git-common-dir` call; fails exactly when git fails |
| Repo.RepoNameFromDir | internal/cli/repo.go:26-28 | the base name of the bare directory: with `.git` appended it gives the base back when the base ends in `.git`, and it is the base itself otherwise |
| Repo.RepoNameOfBareDir | internal/cli/repo.go:26-28 | the name recovered from `~/.willow/repos/<name>.git` is `<name>` |
| Repo.DetectDefaultBranch | internal/cli/repo.go:30-36 | fails exactly when `symbolic-ref HEAD` fails; otherwise `refs/heads/` + result is the trimmed ref when it has that prefix, and the ref itself when not |
| Repo.RequireWillowRepo | internal/cli/app.go:14-23 | Ok exactly when git knows the bare directory and it lies under the repos directory; then the value is that directory, otherwise "not inside a willow-managed repo" |
| Config.DefaultConfig | internal/config/config.go:27-34 | fetch and autoSetupRemote default to true and no other field is set |
| Config.Merge | internal/config/config.go:144-163 | every merged field takes the overlay's value when the overlay sets it and keeps the base's value otherwise; postCheckoutHook always keeps the base's value |
| Config.MergeUnsetIsIdentity | internal/config/config.go:144-163 | overlaying a configuration that sets nothing changes nothing |
| Config.MergeIdempotent | internal/config/config.go:144-163 | overlaying the same tier twice is the same as once |
| Config.MergeAssociative | internal/config/config.go:144-163 | merging tiers one by one equals merging the pre-merged upper tiers |
| Config.MergeAllLastWins | internal/config/config.go:106-126 | after merging tiers in order, each merged field has the value of the last tier that sets it, or the default when none does |
| Config.IsWillowRepo | internal/config/config.go:65-74 | the resolved bare directory lies under the resolved repos directory plus a separator, so it is strictly longer than, hence different from, the repos directory |
| Config.WillowDirs | internal/config/config.go:36-47 | the repos and worktrees directories are distinct children of `~/.willow`, named "repos" and "worktrees" |
| Config.ConfigFileNames | internal/config/config.go:49-62 | the global and shared files are named config.json and the local file willow.json, each inside its own directory |
| Config.ChildIsWillowRepo | internal/config/config.go:65-74 | every path of the form `<repos dir>/<name>` is a willow repo when no symlinks apply |
| Config.RepoNames | internal/config/config.go:85-91 | every listed name is a directory entry ending in `.git`, with that suffix removed |
| Config.RepoNamesComplete | internal/config/config.go:85-91 | every `.git` directory entry contributes its name, so the scan misses none |
| Config.RepoNamesSnoc | internal/config/config.go:85-91 | the scan keeps directory order: one more entry appends at most its own name |
| Config.ListRepos | internal/config/config.go:77-92 | a missing repos directory lists nothing without error; an unreadable one is the only error; otherwise the repo names of the entries |
| Config.ResolveRepo | internal/config/config.go:95-102 | success means `<repos dir>/<name>.git` exists and is a directory, and that path is returned; otherwise "repo not found" |
| Config.LoadFile | internal/config/config.go:128-141 | a configuration exactly when the file is present (a missing and an unparsable file fail alike), and then that file's configuration |
| Config.Load | internal/config/config.go:106-126 | the defaults merged with the global, shared (when a worktree root is known) and local (when a bare directory is known) files that load, in that order; fetch and autoSetupRemote are always set |
| Config.LoadIsMergeAll | internal/config/config.go:106-126 | Load's three guarded steps, taken one by one, equal one left-to-right merge over the tiers that loaded |
| Config.LoadWithoutFiles | internal/config/config.go:106-126 | with no configuration file present, Load gives the defaults |
| ConfigCmd.FieldKey | internal/cli/config.go:16-24 | every field's key is one of the seven documented keys |
| ConfigCmd.KeyField | internal/cli/config.go:16-24 | a key names a field exactly when it is one of the documented keys, and that field's key is the key again |
| ConfigCmd.KeyFieldOfFieldKey | internal/cli/config.go:16-24 | keys and fields correspond one to one |
| ConfigCmd.IsValidKey | internal/cli/config.go:295-302 | a key is valid exactly when it names a field |
| ConfigCmd.ParseBool | internal/cli/config.go:304-313 | true exactly for true/1/yes and false exactly for false/0/no, in any case; anything else is rejected |
| ConfigCmd.ParseBoolString | internal/cli/config.go:253-260 | the `%t` text that `config get` prints parses back to the same boolean |
| ConfigCmd.GetDefaultValue | internal/cli/config.go:220-229 | "true" for the two defaults keys, empty for every other key |
| ConfigCmd.DefaultValueIsDefaultConfig | internal/cli/config.go:220-229 | the default shown by `config --list` is what the default configuration holds |
| ConfigCmd.GetFieldValue | internal/cli/config.go:231-263 | a value is reported exactly when the key names a field the configuration sets, and it is that field's printed form; otherwise empty |
| ConfigCmd.ParseValue | internal/cli/config.go:273-288 | only the two boolean keys can reject a value, exactly when it is not a boolean word; the parsed value fits the field |
| ConfigCmd.SetFieldValue | internal/cli/config.go:265-293 | an unknown key is an error; a known key fails exactly when its value does not parse; on success that field holds the parsed value and every other field is unchanged |
| ConfigCmd.SetOfGetIsIdentity | internal/cli/config.go:231-293 | setting a key to the value `config get` prints for it leaves the configuration unchanged, for every printable value |
| ConfigCmd.GetOfSet | internal/cli/config.go:231-293 | after a successful set, get prints what was set: the same boolean, the hook list re-joined with ", ", or the string itself |
| ConfigCmd.Lookup | internal/cli/config.go:84-89 | git's bare directory, or resolveRepoFromCwd's when git fails, and the worktree root or empty; two git calls |
| ConfigCmd.Tiers | internal/cli/config.go:97-118 | global first, then shared and local only when their directory is known; each tier carries what its file loads; the loaded tiers are exactly those Load merges |
| ConfigCmd.Attribution | internal/cli/config.go:120-132 | the starting value when no tier sets the key; the last tier's value and name when the last tier sets it |
| ConfigCmd.AttributionLastSetter | internal/cli/config.go:120-132 | whichever tier is the last to set the key supplies the value and the source, whatever the earlier tiers say |
| ConfigCmd.RowSource | internal/cli/config.go:120-135 | a printed row shows the value and name of the last tier that sets its key |
| ConfigCmd.AttributionIsMerge | internal/cli/config.go:120-132 | the value `config --list` attributes equals the value of the merged configuration, for every merged key |
| ConfigCmd.RowIsMerge | internal/cli/config.go:120-132 | a printed row, started from the built-in default, shows the value the defaults-then-tiers merge gives its key |
| ConfigCmd.ListRows | internal/cli/config.go:120-135 | one row per documented key, in order, each holding that key's attributed value and source |
| ConfigCmd.Attribute | internal/cli/config.go:121-132 | the inner loop ends with the value and source of the last tier setting the key, or the default |
| ConfigCmd.ConfigList | internal/cli/config.go:84-137 | never fails; one row per documented key, in order, each the attributed row of that key over the tiers of the looked-up directories; only the two lookup calls are made |
| ConfigCmd.ConfigGet | internal/cli/config.go:139-154 | an unknown key fails without any call; otherwise the printed value is the merged configuration's value of the field |
| ConfigCmd.ListAgreesWithGet | internal/cli/config.go:84-154 | for every merged key, `config --list` shows the same value that `config get` prints |
| ConfigCmd.TargetPath | internal/cli/config.go:161-170 | --global targets the global file without any call; otherwise the local file of the willow repo, or the "use --global" error outside one |
| ConfigCmd.ConfigSet | internal/cli/config.go:156-187 | an unknown key fails with no call; a target error is returned; a value that cannot be set fails without saving; otherwise the set result of the target file's configuration (empty when it does not load) is saved as the last call, and the set succeeds exactly when that save does |
| ConfigCmd.SetAt | internal/cli/config.go:172-186 | with the target path known: a value that cannot be set fails with no call; otherwise exactly one save of the set configuration, and success exactly when it saves, with that configuration |
| ConfigCmd.LocalSetIsVisible | internal/cli/config.go:156-187 | after a successful local set of a merged key, `config get` of that key prints the value saved |
| ConfigCmd.GetAfterLocalWrite | internal/cli/config.go:139-154 | a local file that sets a merged key decides what `config get` prints for it |
| ConfigCmd.LastTierWins | internal/config/config.go:119-123 | a field the local file sets has the local value in the merged configuration, whatever global and shared say |
| ConfigCmd.ConfigEdit | internal/cli/config.go:189-218 | a target error is returned unchanged; a missing file is first created with an empty configuration, and a failed creation stops before the editor; the editor is then started on the file as the last call; success exactly when the file exists or is created and the editor exits cleanly |
| ConfigCmd.EditAt | internal/cli/config.go:206-217 | with the target path known: a missing file is created with an empty configuration first, and a failed creation stops with "failed to create config"; the editor runs last; success exactly when the file exists or is created and the editor exits cleanly, else the editor's failure |
| ConfigCmd.EditorName | internal/cli/config.go:190-193 | $EDITOR when set, a non-empty fallback otherwise |
| ConfigCmd.Dispatch | internal/cli/config.go:60-79 | --list wins, then --edit; with a key, set when a value is given and get when not; otherwise list |
| HookLists.KeptCommands | internal/cli/init.go:122-127 | every kept piece is a trimmed non-empty command, at most one per piece |
| HookLists.KeptCommandsOne | internal/cli/init.go:122-127 | a single piece is dropped exactly when it is blank, and kept trimmed otherwise |
| HookLists.KeptCommandsAppend | internal/cli/init.go:122-127 | the filter works piece by piece, so kept commands stay in the order typed |
| HookLists.KeptNothing | internal/cli/init.go:122-129 | nothing is kept exactly when every piece is blank |
| HookLists.SplitCommands | internal/cli/init.go:120-129 | no list exactly when every comma-separated piece is blank; otherwise the trimmed non-blank pieces, in order, all trimmed non-empty commands |
| HookLists.SplitCommandsOfBlank | internal/cli/init.go:120-129 | a blank answer gives no list (Go's nil) |
| HookLists.SplitCommandsOfJoin | internal/cli/init.go:120-129 | splitting a ", "-joined list of comma-free trimmed commands gives the list back, so `init` and `config get` round-trip hook lists |
| InitCmd.Prompt | internal/cli/init.go:104-118 | the trimmed answer when it is not blank; the default at end of input or on a blank answer |
| InitCmd.ListDefault | internal/cli/init.go:78-81 | no default is offered for an absent or empty list; an offered default splits back to the stored list |
| InitCmd.ListAnswer | internal/cli/init.go:82-84 | an empty answer leaves the list unset; a set list holds only trimmed non-empty commands |
| InitCmd.InitTarget | internal/cli/init.go:38-54 | --global writes the global file without any git call; otherwise the bare directory must be known, and the file is the shared file of the worktree root with --shared or the local file otherwise |
| InitCmd.Answers | internal/cli/init.go:56-92 | the new configuration sets no defaults; a non-blank answer is taken trimmed (split into commands for the hook lists); a blank one keeps the existing base branch (or the detected one), prefix and stored hook lists, and leaves an absent or empty list unset |
| InitCmd.Detect | internal/cli/init.go:62-67 | the default branch is asked for only when a bare directory is known |
| InitCmd.Init | internal/cli/init.go:34-96 | after the target is found, the filled configuration is saved to the target path as the last call, and the outcome is that save's |
| InitCmd.GlobalInitSkipsGit | internal/cli/init.go:38-39 | `init --global` makes no git call: its only call is the save of the global file |
| InitCmd.AcceptingDefaultsKeeps | internal/cli/init.go:69-92 | accepting every default re-saves the existing base branch, prefix and hook lists |
| LsCmd.FormatAge | internal/cli/ls.go:191-204 | "now" exactly under a minute; otherwise the number of whole minutes, hours, days or weeks, in the largest unit that fits, truncated |
| LsCmd.ColumnWidth | internal/cli/ls.go:162-171 | the width fits the header and every cell, and is the header's width or some cell's |
| LsCmd.PrintTable | internal/cli/ls.go:154-181 | no table exactly for no worktrees; otherwise every row, with the branch and path columns as wide as their widest cell or header |
| LsCmd.ListView | internal/cli/ls.go:64-92 | fails exactly when the listing fails; shows the non-bare worktrees as paths, as JSON or as a table whose column widths are the larger of the header and the longest cell |
| LsCmd.RepoCounts | internal/cli/ls.go:116-134 | a row for exactly the repos that resolve and list, each with its count of non-bare worktrees |
| LsCmd.CountRows | internal/cli/ls.go:116-134 | the loop that skips repos that fail to resolve or list yields exactly those rows |
| LsCmd.RepoList | internal/cli/ls.go:94-136 | a listing error is wrapped; no repos gives the "no repos" message; otherwise the count rows with a name column exactly as wide as "REPO" or the longest name, whichever is larger |
| LsCmd.Dispatch | internal/cli/ls.go:43-59 | a named repo is resolved without git; otherwise the current willow repo when there is one, and all repos when not |
| LsCmd.Ls | internal/cli/ls.go:39-60 | without a repo to show, the repo list as RepoList states it; with one, that repo's view as ListView states it |
| Matcher.FirstExact | internal/cli/pwd.go:122-127 | the first worktree whose branch equals the target, or None when none does |
| Matcher.Candidates | internal/cli/pwd.go:129-135 | exactly the worktrees whose branch contains the target or whose path ends in "/" + target |
| Matcher.Described | internal/cli/pwd.go:143-146 | the ambiguity message lists each candidate's branch and path, in order |
| Matcher.FindWorktree | internal/cli/pwd.go:121-149 | an exact branch match wins; otherwise the single candidate; "no worktree found" for none and "ambiguous" with every candidate for several; a found worktree is from the list |
| Matcher.FindWorktreeIgnoresUnrelated | internal/cli/pwd.go:121-149 | adding a worktree that neither matches nor is a candidate never changes the lookup |
| Matcher.FirstExactIgnoresUnrelated | internal/cli/pwd.go:122-127 | adding a worktree on another branch never changes which worktree matches exactly |
| Matcher.PickWorktree | internal/cli/pwd.go:65-87 | "no worktrees found" for an empty list; "aborted" at end of input; success exactly when the trimmed line is a number from 1 to the count, and then the path of that worktree; "invalid selection" otherwise |
| Matcher.Chosen | internal/cli/pwd.go:43-60 | the printed path belongs to a checkout of the listing: without a target, exactly the picker's answer; with one, Ok exactly when the matcher finds a worktree, that worktree's path, and otherwise the matcher's error |
| Matcher.PickByNumber | internal/cli/pwd.go:65-87 | typing k (even after white space) picks the k-th worktree, for every k from 1 to the count |
| Matcher.Pwd | internal/cli/pwd.go:27-61 | only the repo lookup call is made; outside a willow repo, its error; a failed listing, its error; otherwise exactly what Chosen gives for the listing, so a printed path is a non-bare worktree of the current willow repo |
| NewCmd.RunHooks | internal/cli/new.go:21-33 | hooks run in order in the directory; the run stops at the first failing hook, which the error names; success exactly when every hook succeeds |
| NewCmd.ApplyPrefix | internal/cli/new.go:88-91 | with a prefix, the branch is placed under prefix + "/" unless it already is; without one it is unchanged |
| NewCmd.ApplyPrefixIdempotent | internal/cli/new.go:88-91 | applying the prefix twice is the same as once |
| NewCmd.WorktreePath | internal/cli/new.go:116-117 | the worktree lies in its repo's folder under the worktrees directory, one level down: the part below that folder has no slash |
| NewCmd.WorktreePathBase | internal/cli/new.go:116-117 | the worktree directory's own name is the branch with its slashes removed |
| NewCmd.ResolveBase | internal/cli/new.go:93-103 | --base wins, then the configured base branch, both without any call; otherwise the default branch, with a "use --base" error when it cannot be found |
| NewCmd.Prepare | internal/cli/new.go:72-103 | needs a branch argument and a bare directory; the plan holds the merged configuration, the prefixed branch, the resolved base and the worktree path |
| NewCmd.CreateCall | internal/cli/new.go:119-133 | `worktree add <path>` in the bare repo; with --existing only the branch follows, otherwise `-b <branch> origin/<base>` |
| NewCmd.Execute | internal/cli/new.go:105-114 | when fetching, `fetch origin <base>` comes first and its failure stops everything; success returns the worktree path |
| NewCmd.AddWorktree | internal/cli/new.go:119-133 | the worktree is created first; its failure stops everything; otherwise configuration and hooks follow |
| NewCmd.Configure | internal/cli/new.go:135-148 | push.autoSetupRemote is set first when configured, and its failure stops everything; setup hooks run only when configured, last, in the new worktree; an error after that is the failing hook's |
| NewCmd.New | internal/cli/new.go:66-159 | an empty branch fails without any call; otherwise the preparation's calls then the execution's; a success returns the worktree path built from the repo name and the prefixed branch |
| PruneCmd.Decide | internal/cli/prune.go:38-60 | the preview is the only call; prune exactly when the preview succeeded, printed something, this is no dry run, and --yes was given or the prompt was confirmed |
| PruneCmd.Prune | internal/cli/prune.go:26-68 | outside a willow repo, nothing after the lookup; `worktree prune -v` is called as the last call exactly when decided, and its failure is reported |
| PruneCmd.PrunesOnlyWhenAgreed | internal/cli/prune.go:44-64 | the prune call appears in the trace exactly when the repo lookup succeeded and the decision was to prune |
| PruneCmd.DryRunPrunesNothing | internal/cli/prune.go:51-53 | a dry run never calls `worktree prune` |
| RmCmd.Confirm | internal/cli/rm.go:128-136 | yes exactly when a line was read and its trimmed text is y or yes in any letter case; no at end of input |
| RmCmd.YesInAnyCase | internal/cli/rm.go:132-133 | lower-casing then comparing with "y" or "yes" accepts exactly the case variants of y and yes |
| RmCmd.Locate | internal/cli/rm.go:48-67 | an empty target fails without any call; otherwise the worktree the matcher finds in the whole listing of the willow repo; only harmless calls |
| RmCmd.Check | internal/cli/rm.go:69-100 | --force skips every check and prompt; otherwise the dirty and unpushed queries run (an error in the first stops), and the outcome is --yes or the answer at the prompt; only harmless calls |
| RmCmd.Teardown | internal/cli/rm.go:102-110 | the worktree-root query comes first; then, when the merged configuration has teardown hooks, exactly the calls and result of running them in order in the worktree's directory (stopping at the first failure); otherwise nothing else runs |
| RmCmd.Remove | internal/cli/rm.go:102-120 | a teardown failure stops before the removal; otherwise `worktree remove --force` runs, and `branch -D` follows only when the removal succeeded and --keep-branch is off; success exactly when teardown and removal succeed |
| RmCmd.TeardownFailureKeepsWorktree | internal/cli/rm.go:105-114 | when a teardown hook fails, the worktree is never removed |
| RmCmd.Rm | internal/cli/rm.go:43-124 | locate, then check, then remove; a declined prompt ends with Ok(false) and no further call |
| RmCmd.DeclineChangesNothing | internal/cli/rm.go:89-99 | declining the prompt leaves a trace of harmless queries only: no hook, removal or branch deletion |
| RmCmd.ForceIgnoresInput | internal/cli/rm.go:69-72 | with --force the outcome and trace do not depend on what is typed |
| RunCmd.Separator | internal/cli/run.go:60-64 | the position of the first "--", or the length when there is none |
| RunCmd.Scan | internal/cli/run.go:56-70 | the command is everything after the first "--" (none without one); --all is set exactly when it appears before it |
| RunCmd.ScanTarget | internal/cli/run.go:60-70 | the target is the last argument before "--" that is not --all, and stays as it was when there is none |
| RunCmd.ParseRunArgs | internal/cli/run.go:55-70 | the parse from empty starting values: command after "--", --all seen before it, target the last other argument or empty |
| RunCmd.NoSeparatorNoCommand | internal/cli/run.go:60-74 | without a "--" before the last argument, there is no command |
| RunCmd.ExecIn | internal/cli/run.go:105-112 | one run of the command in the directory; success exactly when it exits cleanly |
| RunCmd.Failures | internal/cli/run.go:76-88 | at most one reported branch per worktree |
| RunCmd.FailuresMembers | internal/cli/run.go:76-87 | a branch is reported failed exactly when the command failed in some worktree on that branch |
| RunCmd.FailuresAppend | internal/cli/run.go:76-87 | failures are collected worktree by worktree, in listing order |
| RunCmd.FailuresEverywhere | internal/cli/run.go:76-88 | every branch is reported exactly when the command failed in every worktree |
| RunCmd.FailuresEmpty | internal/cli/run.go:85-88 | no branch is reported exactly when the command succeeded everywhere |
| RunCmd.RunAll | internal/cli/run.go:76-89 | the command runs once in every worktree, in order, even after failures; success exactly when all succeed; otherwise the failed branches and the total |
| RunCmd.RunAllVisitsEvery | internal/cli/run.go:78-80 | `run --all` reaches every listed worktree |
| RunCmd.Run | internal/cli/run.go:26-101 | no arguments is a usage error with no call; outside a willow repo, nothing after the lookup; a missing command or target is a usage error; --all runs in every non-bare worktree and fails with the failed branches out of the total exactly when some run failed; otherwise it runs in the one the matcher finds |
| RunCmd.RunOneTarget | internal/cli/run.go:91-100 | the worktree a single run targets is a non-bare entry of the listing |
| CloneCmd.RepoNameFromURL | internal/cli/clone.go:99-105 | the derived name is "/" or has no slash |
| CloneCmd.CloneName | internal/cli/clone.go:40-43 | a given name wins; otherwise the name RepoNameFromURL derives from the URL, which is "/" or slash-free |
| CloneCmd.RepoNameOfHttpsURL | internal/cli/clone_test.go:11-22 | an https URL ending in `/<name>` or `/<name>.git` gives `<name>` |
| CloneCmd.RepoNameOfSshURL | internal/cli/clone_test.go:16-21 | an scp-style URL `host:path/<name>[.git]` gives `<name>` |
| CloneCmd.RepoNameOfBareName | internal/cli/clone_test.go:30-32 | a bare name with no ':' or '/', with or without `.git`, names itself |
| CloneCmd.RunSteps | internal/cli/clone.go:52-75 | the steps run in order and stop at the first failure, whose message is wrapped around its cause; success exactly when all succeed |
| CloneCmd.Setup | internal/cli/clone.go:52-75 | five steps; the third is the bare clone into `repos/<name>.git`, and the last two run in that directory |
| CloneCmd.Checkout | internal/cli/clone.go:77-87 | a default-branch failure stops before the worktree; otherwise `worktree add` follows and success returns `worktrees/<name>/<branch>` |
| CloneCmd.Clone | internal/cli/clone.go:30-93 | an empty URL or an existing bare directory fails with no call; otherwise setup, then checkout, stopping at the first failure |
| CloneCmd.ClonedRepoIsWillowRepo | internal/cli/clone.go:45-50 | when no symlinks apply, a successful clone leaves a bare repo that the other commands accept as a willow repo and whose name reads back as the clone name |
| CloneCmd.CloneFollowsPlan | internal/cli/clone.go:52-87 | whatever fails, the calls made are a prefix of the seven-call plan |
| CloneCmd.CloneSucceeds | internal/cli/clone.go:35-92 | when every call succeeds, the clone makes exactly the planned calls and returns the new worktree's path |

## Left out

- Process execution, file I/O, JSON encoding and decoding, and `os.Getwd` are
  inputs of `Backend.Env` or calls answered by its oracle; the model does not
  follow what they do outside the program.
- Path joins are "/" concatenation. `filepath.Join`'s cleaning (`..`, doubled
  slashes) is modelled only where `filepath.Abs` applies it, through
  `FilePath.Clean`; the configuration, clone and worktree paths are joined
  without it.
- The home directory is the `home` input; a failing `os.UserHomeDir` is not
  modelled.
- Git.Abs: a failing `os.Getwd` is not modelled, and the working directory is
  taken as given (a non-empty path in practice).
- InitCmd.Answers: each prompt reads one line of the input. The source makes a
  new buffered scanner per prompt (internal/cli/init.go:110), which can read
  ahead and lose lines when input is piped; that loss is not modelled.
- RunCmd.Failures: the contract bounds the length only; which branches are
  reported, and in what order, is stated by `RunCmd.FailuresMembers`,
  `RunCmd.FailuresAppend` and `RunCmd.FailuresEverywhere`.
- `git worktree list --porcelain` parsing is not part of this model: the
  listing of each bare directory is an input.
- Terminal output, colours, verbose tracing and `internal/ui/ui.go` are not
  modelled; error texts appear as error constructors, not as formatted
  strings.
- The hint `resolveBareRepo` prints, `completeWorktrees`, `completeRepos`,
  shell integration (`shellinit.go`, `go.go`) and `cmd/willow/main.go` are
  not part of this model.
- `resolveRepoFromCwd` is not among the files modelled; its answer is the
  `cwdRepo` input.
- Worktree ages in `ls`: the modification time and `time.Since` are not
  modelled. The table leaves the age column out.
- LsCmd.FormatAge: the source truncates float64 quotients (`d.Minutes()`,
  `d.Hours()`, `d.Hours()/(24*7)`); the model divides integer nanoseconds.
  The two agree except where float64 rounding carries a value just below a
  unit boundary up to it: for k of 25 or more, a duration a little under k
  weeks (1 ns under, at 25 weeks) prints "kw" in Go and "(k-1)w" here. Float64 rounding is
  not modelled.
- RmCmd.Confirm: `strings.ToLower` is modelled on ASCII letters only; other
  Unicode case mappings are left out.
- RmCmd.Rm: the answer typed at the prompt is a parameter. rm asks at most
  one question, so one line suffices.
- ConfigCmd.ConfigEdit: the editor's own behaviour is left out. The model
  covers the file's creation, the editor's start, and its exit status as
  the result.
- ConfigCmd.ConfigGet: the printed value of `postCheckoutHook` is not stated,
  since no tier merge carries that field.
- `config.Save`'s directory creation and JSON formatting are one
  `SaveConfig` call.
- CloneCmd.RepoNameFromURL: the contract states only the shape of the name;
  its value is stated by the HTTPS, SSH and bare-name lemmas, which cover
  every URL form in the test table, not for arbitrary strings.

=== FILE: backend.dfy ===
/** The world a willow command runs against, given as data.

    Every git invocation, hook, `run` command, directory creation and config
    save is a `Call`; the answer to each is read off the oracle `reply`, and
    a command returns the calls it made, in order, beside its outcome. The
    remaining inputs are queries whose answers the model takes as given: the
    home and working directories, symlink resolution, which paths exist,
    which configuration files load, the repos-directory listing, the
    worktree listing of each bare directory, and the lines typed at prompts. */
module Backend {
  import opened Outcomes
  import opened Config
  import opened Worktrees

  datatype Call =
    | GitCmd(dir: string, args: seq<string>)          // git, run in dir ("" = the working directory)
    | Shell(dir: string, command: string)             // sh -c command, a setup or teardown hook
    | Exec(dir: string, argv: seq<string>)            // the command of `ww run`
    | MkdirAll(path: string)
    | SaveConfig(path: string, config: Config)

  /** Whether the call succeeded, and what it printed. */
  datatype Reply = Reply(ok: bool, output: string)

  datatype Env = Env(
    home: string,                          // os.UserHomeDir
    cwd: string,                           // os.Getwd, used by filepath.Abs
    links: map<string, string>,            // filepath.EvalSymlinks
    stat: map<string, bool>,               // os.Stat: the existing paths, each with IsDir
    files: map<string, Config>,            // the configuration files that load
    repos: Listing,                        // os.ReadDir of the repos directory
    listings: map<string, seq<Worktree>>,  // worktree.List, per bare directory
    cwdRepo: Option<string>,               // resolveRepoFromCwd
    stdin: seq<string>,                    // lines typed at prompts, in order
    reply: Call -> Reply)

  /** An outcome together with the calls made to reach it. */
  datatype Step<T> = Step(result: Result<T>, trace: seq<Call>)

  /** The value of a command that returns only an error. */
  type Unit = ()

  /** The i-th line of input, or None at end of input. */
  function Line(env: Env, i: nat): Option<string>
  {
    if i < |env.stdin| then Some(env.stdin[i]) else None
  }

  /** worktree.List for a bare directory, wrapped as the commands wrap its failure. */
  function ListWorktrees(env: Env, bareDir: string): (r: Result<seq<Worktree>>)
    ensures r.Ok? <==> bareDir in env.listings
    ensures r.Ok? ==> r.value == env.listings[bareDir]
  {
    if bareDir in env.listings then Ok(env.listings[bareDir])
    else Err(Context("failed to list worktrees", ListFailed))
  }
}

=== FILE: clonecmd.dfy ===
/** internal/cli/clone.go: `ww clone <url> [name]` — a bare clone under the
    repos directory, set up for remote tracking, with a first worktree on
    the default branch. */
module CloneCmd {
  import opened Outcomes
  import opened GoStrings
  import opened Config
  import opened Backend
  import Repo

  /** repoNameFromURL: for an SSH address (a ':' and no "://") the part after
      the last ':', then its last path element, without one ".git". */
  function RepoNameFromURL(url: string): (name: string)
    ensures name == "/" || '/' !in name
  {
    TrimSuffix(Base(PathPart(url)), ".git")
  }

  /** The part of `url` that names the repository's path: after the last ':'
      of an SSH address, otherwise the whole address. */
  function PathPart(url: string): string
  {
    match LastIndexOf(url, ':')
    case Some(i) => if !Contains(url, "://") then url[i + 1..] else url
    case None => url
  }

  /** An HTTPS address `<scheme>://<host>/<path>/<name>[.git]` names `name`. */
  lemma RepoNameOfHttpsURL(site: string, name: string, suffix: string)
    requires Contains(site, "://")
    requires name != "" && '/' !in name
    requires suffix == ".git" || (suffix == "" && !HasSuffix(name, ".git"))
    ensures RepoNameFromURL(site + "/" + name + suffix) == name
  {
    var w := name + suffix;
    var url := site + "/" + w;
    AppendAssoc(site + "/", name, suffix, url, site + "/" + name);
    AppendAssoc(site, "/", w, url, site + "/");
    ContainsAppend(site, "/" + w, "://");
    assert PathPart(url) == url;
    assert '/' !in w by {
      assert '/' !in suffix;
    }
    BaseOfChild(site, w);
    TrimGit(name, suffix);
  }

  /** An SSH address `<user>@<host>:<path>/<name>[.git]` names `name`, and so
      does one with nothing between the ':' and the name. */
  lemma RepoNameOfSshURL(host: string, path: string, name: string, suffix: string)
    requires !Contains(host + ":" + path + name + suffix, "://")
    requires path == "" || HasSuffix(path, "/")
    requires ':' !in path + name
    requires name != "" && '/' !in name
    requires suffix == ".git" || (suffix == "" && !HasSuffix(name, ".git"))
    ensures RepoNameFromURL(host + ":" + path + name + suffix) == name
  {
    var w := name + suffix;
    var tail := path + w;
    SshShape(host, path, name, suffix, tail);
    assert '/' !in w by {
      assert '/' !in suffix;
    }
    SshTail(host, tail);
    BaseAfterDir(path, w);
    TrimGit(name, suffix);
  }

  /** How the pieces of an SSH address regroup around its last ':'. */
  lemma SshShape(host: string, path: string, name: string, suffix: string, tail: string)
    requires tail == path + (name + suffix)
    requires ':' !in path + name
    requires suffix == ".git" || suffix == ""
    ensures host + ":" + path + name + suffix == host + ":" + tail
    ensures ':' !in tail
  {
    AppendAssoc(path, name, suffix, tail, path + name);
    AppendAssoc(host + ":", path, name + suffix, host + ":" + tail, host + ":" + path);
    AppendAssoc(host + ":" + path, name, suffix, host + ":" + path + (name + suffix), host + ":" + path + name);
    assert ':' !in suffix;
  }

  /** A bare name, with no ':' and no '/', names itself, with or without a
      ".git" suffix. */
  lemma RepoNameOfBareName(name: string, suffix: string)
    requires name != "" && ':' !in name && '/' !in name
    requires suffix == ".git" || (suffix == "" && !HasSuffix(name, ".git"))
    ensures RepoNameFromURL(name + suffix) == name
  {
    var url := name + suffix;
    assert ':' !in url && '/' !in url by {
      assert ':' !in suffix && '/' !in suffix;
    }
    assert PathPart(url) == url;
    TrimGit(name, suffix);
  }

  lemma TrimGit(name: string, suffix: string)
    requires suffix == ".git" || (suffix == "" && !HasSuffix(name, ".git"))
    ensures TrimSuffix(name + suffix, ".git") == name
  {
    if suffix == ".git" {
      assert (name + suffix)[|name + suffix| - 4..] == ".git";
    }
  }

  /** An SSH address: everything after the last ':' is the path. */
  lemma SshTail(host: string, tail: string)
    requires ':' !in tail && !Contains(host + ":" + tail, "://")
    ensures RepoNameFromURL(host + ":" + tail) == TrimSuffix(Base(tail), ".git")
  {
    var url := host + ":" + tail;
    assert url == host + [':'] + tail;
    LastIndexBeforeSuffix(host, tail, ':');
    assert url[|host| + 1..] == tail;
  }

  /** The last element of a directory prefix (empty or ending in '/')
      followed by a slash-free name is the name. */
  lemma BaseAfterDir(path: string, w: string)
    requires path == "" || HasSuffix(path, "/")
    requires w != "" && '/' !in w
    ensures Base(path + w) == w
  {
    if path == "" {
      assert path + w == w;
    } else {
      assert path + w == path[..|path| - 1] + "/" + w;
      BaseOfChild(path[..|path| - 1], w);
    }
  }

  /** What a failed call of the given kind reports. */
  function Cause(env: Env, c: Call): Error
  {
    match c
    case GitCmd(_, args) => GitFailed(args, env.reply(c).output)
    case Shell(_, command) => HookFailed(command)
    case Exec(dir, argv) => ExecFailed(dir, argv)
    case MkdirAll(path) => IoFailed(path)
    case SaveConfig(path, _) => IoFailed(path)
  }

  /** Steps run one after the other, each a call with the message that
      wraps its failure; the first failure ends the run, and nothing done
      before it is undone. */
  function RunSteps(env: Env, steps: seq<(string, Call)>): (s: Step<()>)
    ensures 1 <= |s.trace| <= |steps| || (steps == [] && s.trace == [])
    ensures (forall i :: 0 <= i < |s.trace| ==> s.trace[i] == steps[i].1)
    ensures (forall i :: 0 <= i < |s.trace| - 1 ==> env.reply(steps[i].1).ok)
    ensures (s.result.Ok? <==> |s.trace| == |steps| && forall i :: 0 <= i < |steps| ==> env.reply(steps[i].1).ok)
    ensures ((forall i :: 0 <= i < |steps| ==> env.reply(steps[i].1).ok) ==> s.result.Ok?)
    ensures (s.result.Err? ==>
      var last := |s.trace| - 1;
      && !env.reply(steps[last].1).ok
      && s.result.error == Context(steps[last].0, Cause(env, steps[last].1)))
  {
    if |steps| == 0 then Step(Ok(()), [])
    else
      var (message, c) := steps[0];
      if !env.reply(c).ok then Step(Err(Context(message, Cause(env, c))), [c])
      else
        var rest := RunSteps(env, steps[1..]);
        StepsOkTail(env, steps);
        Step(rest.result, [c] + rest.trace)
  }

  /** Every step succeeds exactly when the first does and every later one
      does. */
  lemma StepsOkTail(env: Env, steps: seq<(string, Call)>)
    requires steps != []
    ensures ((forall i :: 0 <= i < |steps| ==> env.reply(steps[i].1).ok) <==>
      env.reply(steps[0].1).ok && forall i :: 0 <= i < |steps| - 1 ==> env.reply(steps[1..][i].1).ok)
  {
    if forall i :: 0 <= i < |steps| - 1 ==> env.reply(steps[1..][i].1).ok {
      forall i | 1 <= i < |steps| ensures env.reply(steps[i].1).ok {
        assert steps[i] == steps[1..][i - 1];
      }
    }
  }

  /** The bare directory and the worktrees directory of a repo named `name`. */
  function BareDirOf(home: string, name: string): string
  {
    ReposDir(home) + "/" + name + ".git"
  }

  function WorktreesOf(home: string, name: string): string
  {
    WorktreesDir(home) + "/" + name
  }

  /** The steps before the default branch is known. */
  function Setup(home: string, url: string, name: string): (steps: seq<(string, Call)>)
    ensures |steps| == 5
    ensures steps[2].1 == GitCmd("", ["clone", "--bare", url, BareDirOf(home, name)])
    ensures (forall i :: 3 <= i < 5 ==> steps[i].1.GitCmd? && steps[i].1.dir == BareDirOf(home, name))
  {
    var bareDir := BareDirOf(home, name);
    [ ("failed to create repos directory", MkdirAll(ReposDir(home))),
      ("failed to create worktrees directory", MkdirAll(WorktreesOf(home, name))),
      ("failed to clone repository", GitCmd("", ["clone", "--bare", url, bareDir])),
      ("failed to configure fetch refs", GitCmd(bareDir, ["config", "remote.origin.fetch", "+refs/heads/*:refs/remotes/origin/*"])),
      ("failed to fetch from origin", GitCmd(bareDir, ["fetch", "origin"])) ]
  }

  function AddCall(home: string, name: string, branch: string): Call
  {
    GitCmd(BareDirOf(home, name), ["worktree", "add", WorktreesOf(home, name) + "/" + branch, branch])
  }

  /** After the setup: detect the default branch and add its worktree. */
  function Checkout(env: Env, name: string): (s: Step<string>)
    ensures (var detect := Repo.DetectDefaultBranch(env, BareDirOf(env.home, name));
      detect.result.Err? ==> s == Step(Err(Context("failed to detect default branch", detect.result.error)), detect.trace))
    ensures (var detect := Repo.DetectDefaultBranch(env, BareDirOf(env.home, name));
      var add := AddCall(env.home, name, detect.result.ValueOr(""));
      detect.result.Ok? ==>
      && s.trace == detect.trace + [add]
      && (s.result.Ok? <==> env.reply(add).ok)
      && (s.result.Ok? ==> s.result.value == WorktreesOf(env.home, name) + "/" + detect.result.value)
      && (s.result.Err? ==> s.result.error == Context("failed to create initial worktree", Cause(env, add))))
  {
    var detect := Repo.DetectDefaultBranch(env, BareDirOf(env.home, name));
    if detect.result.Err? then
      Step(Err(Context("failed to detect default branch", detect.result.error)), detect.trace)
    else
      var add := AddCall(env.home, name, detect.result.value);
      if !env.reply(add).ok then Step(Err(Context("failed to create initial worktree", Cause(env, add))), detect.trace + [add])
      else Step(Ok(WorktreesOf(env.home, name) + "/" + detect.result.value), detect.trace + [add])
  }

  /** The repo name clone uses: the argument, or the one the URL gives. */
  function CloneName(url: string, nameArg: string): (r: string)
    ensures nameArg != "" ==> r == nameArg
    ensures nameArg == "" ==> r == RepoNameFromURL(url)
    ensures nameArg == "" ==> r == "/" || '/' !in r
  {
    if nameArg == "" then RepoNameFromURL(url) else nameArg
  }

  /** `ww clone`: on success, the path of the first worktree. The calls made
      are always a prefix of the plan: nothing is rolled back. */
  function Clone(env: Env, url: string, nameArg: string): (s: Step<string>)
    ensures url == "" ==> s == Step(Err(Usage("repository URL is required")), [])
    ensures (var name := CloneName(url, nameArg);
      url != "" && BareDirOf(env.home, name) in env.stat ==> s == Step(Err(RepoExists(name, BareDirOf(env.home, name))), []))
    ensures (var name := CloneName(url, nameArg);
      var setup := RunSteps(env, Setup(env.home, url, name));
      url != "" && BareDirOf(env.home, name) !in env.stat ==>
      && (setup.result.Err? ==> s == Step(Err(setup.result.error), setup.trace))
      && (setup.result.Ok? ==> s == Step(Checkout(env, name).result, setup.trace + Checkout(env, name).trace)))
  {
    if url == "" then Step(Err(Usage("repository URL is required")), [])
    else
      var name := CloneName(url, nameArg);
      var bareDir := BareDirOf(env.home, name);
      if bareDir in env.stat then Step(Err(RepoExists(name, bareDir)), [])
      else
        var setup := RunSteps(env, Setup(env.home, url, name));
        if setup.result.Err? then Step(Err(setup.result.error), setup.trace)
        else
          var c := Checkout(env, name);
          Step(c.result, setup.trace + c.trace)
  }

  /** A successful clone leaves a repo the other commands accept: its bare
      directory is a willow repo whose name reads back as the clone's name. */
  lemma ClonedRepoIsWillowRepo(env: Env, url: string, nameArg: string)
    requires Clone(env, url, nameArg).result.Ok?
    requires CloneName(url, nameArg) != "" && '/' !in CloneName(url, nameArg)
    ensures (var name := CloneName(url, nameArg);
      && IsWillowRepo(env.home, map[], BareDirOf(env.home, name))
      && Repo.RepoNameFromDir(BareDirOf(env.home, name)) == name)
  {
    BareDirIsWillowRepo(env.home, CloneName(url, nameArg));
  }

  lemma BareDirIsWillowRepo(home: string, name: string)
    requires name != "" && '/' !in name
    ensures IsWillowRepo(home, map[], BareDirOf(home, name))
    ensures Repo.RepoNameFromDir(BareDirOf(home, name)) == name
  {
    ChildIsWillowRepo(home, name + ".git");
    assert BareDirOf(home, name) == ReposDir(home) + "/" + (name + ".git");
    Repo.RepoNameOfBareDir(home, name);
  }

  /** Every call clone can make, in order, once the default branch is known. */
  function Plan(home: string, url: string, name: string, branch: string): (calls: seq<Call>)
    ensures |calls| == 7
  {
    var steps := Setup(home, url, name);
    [steps[0].1, steps[1].1, steps[2].1, steps[3].1, steps[4].1,
     GitCmd(BareDirOf(home, name), ["symbolic-ref", "HEAD"]), AddCall(home, name, branch)]
  }

  /** Clone makes the planned calls in order and stops at the first failure,
      leaving what it created in place. */
  lemma CloneFollowsPlan(env: Env, url: string, nameArg: string)
    ensures (var name := CloneName(url, nameArg);
      var branch := Repo.DetectDefaultBranch(env, BareDirOf(env.home, name)).result.ValueOr("");
      Clone(env, url, nameArg).trace <= Plan(env.home, url, name, branch))
  {
    var name := CloneName(url, nameArg);
    var branch := Repo.DetectDefaultBranch(env, BareDirOf(env.home, name)).result.ValueOr("");
    var plan := Plan(env.home, url, name, branch);
    if url != "" && BareDirOf(env.home, name) !in env.stat {
      var setup := RunSteps(env, Setup(env.home, url, name));
      SetupFollowsPlan(env, url, name, branch);
      if setup.result.Ok? {
        var c := Checkout(env, name);
        CheckoutFollowsPlan(env, url, name);
        assert Clone(env, url, nameArg).trace == setup.trace + c.trace;
        PrefixJoin(setup.trace, c.trace, plan);
      }
    }
  }

  /** The full first part of a plan followed by a prefix of the rest is a
      prefix of the plan. */
  lemma PrefixJoin(a: seq<Call>, b: seq<Call>, plan: seq<Call>)
    requires |plan| >= 5 && a == plan[..5] && b <= plan[5..]
    ensures a + b <= plan
  {
    assert plan == plan[..5] + plan[5..];
    PrefixAppend(a, b, plan[5..]);
  }

  lemma SetupFollowsPlan(env: Env, url: string, name: string, branch: string)
    ensures RunSteps(env, Setup(env.home, url, name)).trace <= Plan(env.home, url, name, branch)
    ensures RunSteps(env, Setup(env.home, url, name)).result.Ok? ==>
      RunSteps(env, Setup(env.home, url, name)).trace == Plan(env.home, url, name, branch)[..5]
  {
    var steps := Setup(env.home, url, name);
    var setup := RunSteps(env, steps);
    var plan := Plan(env.home, url, name, branch);
    assert forall i :: 0 <= i < |steps| ==> plan[i] == steps[i].1;
    PrefixOfSteps(setup.trace, steps, plan);
  }

  /** Calls made step by step, in the order of a plan that starts with
      those steps, are a prefix of the plan. */
  lemma PrefixOfSteps(trace: seq<Call>, steps: seq<(string, Call)>, plan: seq<Call>)
    requires |trace| <= |steps| <= |plan|
    requires forall i :: 0 <= i < |trace| ==> trace[i] == steps[i].1
    requires forall i :: 0 <= i < |steps| ==> plan[i] == steps[i].1
    ensures trace <= plan
    ensures |trace| == |steps| ==> trace == plan[..|steps|]
  {
  }

  lemma CheckoutFollowsPlan(env: Env, url: string, name: string)
    ensures (var branch := Repo.DetectDefaultBranch(env, BareDirOf(env.home, name)).result.ValueOr("");
      Checkout(env, name).trace <= Plan(env.home, url, name, branch)[5..])
  {
    var bareDir := BareDirOf(env.home, name);
    var detect := Repo.DetectDefaultBranch(env, bareDir);
    var branch := detect.result.ValueOr("");
    var head := GitCmd(bareDir, ["symbolic-ref", "HEAD"]);
    var add := AddCall(env.home, name, branch);
    PlanTail(env.home, url, name, branch);
    assert detect.trace == [head];
    assert Checkout(env, name).trace == [head] || Checkout(env, name).trace == [head] + [add];
    PrefixOfPair(Checkout(env, name).trace, head, add, Plan(env.home, url, name, branch)[5..]);
  }

  lemma PrefixOfPair(t: seq<Call>, x: Call, y: Call, pair: seq<Call>)
    requires pair == [x, y] && (t == [x] || t == [x] + [y])
    ensures t <= pair
  {
  }

  lemma PrefixAppend(a: seq<Call>, b: seq<Call>, c: seq<Call>)
    requires b <= c
    ensures a + b <= a + c
  {
    assert (a + c)[..|a + b|] == a + b;
  }

  /** A clone whose every step succeeds makes exactly the planned calls
      and returns the path of the default branch's worktree. */
  lemma CloneSucceeds(env: Env, url: string, name: string, branch: string)
    requires url != "" && name != "" && BareDirOf(env.home, name) !in env.stat
    requires (forall i :: 0 <= i < 5 ==> env.reply(Setup(env.home, url, name)[i].1).ok)
    requires Repo.DetectDefaultBranch(env, BareDirOf(env.home, name)).result == Ok(branch)
    requires env.reply(AddCall(env.home, name, branch)).ok
    ensures Clone(env, url, name) == Step(Ok(WorktreesOf(env.home, name) + "/" + branch), Plan(env.home, url, name, branch))
  {
    var setup := RunSteps(env, Setup(env.home, url, name));
    CloneAfterSetup(env, url, name);
    var plan := Plan(env.home, url, name, branch);
    SetupFollowsPlan(env, url, name, branch);
    CheckoutSucceeds(env, url, name, branch);
    JoinSteps(Clone(env, url, name), setup.trace, Checkout(env, name), plan, WorktreesOf(env.home, name) + "/" + branch);
  }

  /** A run whose calls are the plan's first five and then the calls of a
      successful remainder is the whole plan with that result. */
  lemma JoinSteps(whole: Step<string>, first: seq<Call>, rest: Step<string>, plan: seq<Call>, v: string)
    requires |plan| >= 5 && first == plan[..5]
    requires rest == Step(Ok(v), plan[5..])
    requires whole == Step(rest.result, first + rest.trace)
    ensures whole == Step(Ok(v), plan)
  {
    assert plan == plan[..5] + plan[5..];
  }

  lemma CloneAfterSetup(env: Env, url: string, name: string)
    requires url != "" && name != "" && BareDirOf(env.home, name) !in env.stat
    requires (forall i :: 0 <= i < 5 ==> env.reply(Setup(env.home, url, name)[i].1).ok)
    ensures RunSteps(env, Setup(env.home, url, name)).result.Ok?
    ensures Clone(env, url, name) ==
      Step(Checkout(env, name).result, RunSteps(env, Setup(env.home, url, name)).trace + Checkout(env, name).trace)
  {
    assert CloneName(url, name) == name;
  }

  lemma CheckoutSucceeds(env: Env, url: string, name: string, branch: string)
    requires Repo.DetectDefaultBranch(env, BareDirOf(env.home, name)).result == Ok(branch)
    requires env.reply(AddCall(env.home, name, branch)).ok
    ensures Checkout(env, name) == Step(Ok(WorktreesOf(env.home, name) + "/" + branch), Plan(env.home, url, name, branch)[5..])
  {
    var bareDir := BareDirOf(env.home, name);
    var head := GitCmd(bareDir, ["symbolic-ref", "HEAD"]);
    var add := AddCall(env.home, name, branch);
    PlanTail(env.home, url, name, branch);
    assert Repo.DetectDefaultBranch(env, bareDir).trace == [head];
    var s := Checkout(env, name);
    assert s.trace == [head] + [add];
    assert s.result == Ok(WorktreesOf(env.home, name) + "/" + branch);
  }

  /** The last two planned calls are the checkout's. */
  lemma PlanTail(home: string, url: string, name: string, branch: string)
    ensures Plan(home, url, name, branch)[5..] ==
      [GitCmd(BareDirOf(home, name), ["symbolic-ref", "HEAD"]), AddCall(home, name, branch)]
  {
  }
}

=== FILE: config.dfy ===
/** internal/config/config.go: the configuration record, its defaults, the
    tier merge, the three-tier Load, and the repository-directory helpers.

    A configuration file is given as the map `files` from a path to the
    record it holds; a path that is missing, unreadable or not valid JSON is
    simply absent from the map (LoadFile fails for all three alike). */
module Config {
  import opened Outcomes
  import opened GoStrings

  /** `*bool` fields: None is nil. */
  datatype Defaults = Defaults(fetch: Option<bool>, autoSetupRemote: Option<bool>)

  /** One configuration tier. Slices are Option: None is a nil slice, Some([])
      an explicit empty list. `postCheckoutHook` is read and written by the
      config command but is not declared on the Go struct; it is kept here as
      a plain string that merge never touches. */
  datatype Config = Config(
    baseBranch: string,
    branchPrefix: string,
    postCheckoutHook: string,
    setup: Option<seq<string>>,
    teardown: Option<seq<string>>,
    defaults: Defaults)

  /** `&config.Config{}`: every field unset. */
  const Empty: Config := Config("", "", "", None, None, Defaults(None, None))

  /** The fields of a Config, named once so that merge rules can quantify over them. */
  datatype Field =
    | BaseBranchField | BranchPrefixField | PostCheckoutHookField
    | SetupField | TeardownField | FetchField | AutoSetupRemoteField

  datatype FieldValue = Text(text: string) | Commands(commands: Option<seq<string>>) | Flag(flag: Option<bool>)

  /** The value of one field, exactly as stored. */
  function Get(c: Config, f: Field): FieldValue
  {
    match f
    case BaseBranchField => Text(c.baseBranch)
    case BranchPrefixField => Text(c.branchPrefix)
    case PostCheckoutHookField => Text(c.postCheckoutHook)
    case SetupField => Commands(c.setup)
    case TeardownField => Commands(c.teardown)
    case FetchField => Flag(c.defaults.fetch)
    case AutoSetupRemoteField => Flag(c.defaults.autoSetupRemote)
  }

  /** Two configurations that agree on every field are equal. */
  lemma Extensionality(a: Config, b: Config)
    requires (forall f :: Get(a, f) == Get(b, f))
    ensures a == b
  {
    assert Get(a, BaseBranchField) == Get(b, BaseBranchField);
    assert Get(a, BranchPrefixField) == Get(b, BranchPrefixField);
    assert Get(a, PostCheckoutHookField) == Get(b, PostCheckoutHookField);
    assert Get(a, SetupField) == Get(b, SetupField);
    assert Get(a, TeardownField) == Get(b, TeardownField);
    assert Get(a, FetchField) == Get(b, FetchField);
    assert Get(a, AutoSetupRemoteField) == Get(b, AutoSetupRemoteField);
  }

  /** Whether a tier says something about a field: a non-empty string, a
      non-nil slice, a non-nil `*bool`. */
  predicate Sets(c: Config, f: Field)
  {
    match Get(c, f)
    case Text(s) => s != ""
    case Commands(l) => l.Some?
    case Flag(b) => b.Some?
  }

  /** merge takes over every field except postCheckoutHook. */
  predicate Merged(f: Field)
  {
    f != PostCheckoutHookField
  }

  /** DefaultConfig: fetch and autoSetupRemote switched on, everything else unset. */
  function DefaultConfig(): (c: Config)
    ensures c.defaults.fetch == Some(true) && c.defaults.autoSetupRemote == Some(true)
    ensures (forall f :: f != FetchField && f != AutoSetupRemoteField ==> !Sets(c, f))
  {
    Empty.(defaults := Defaults(Some(true), Some(true)))
  }

  /** merge(base, overlay): each merged field is the overlay's when the
      overlay sets it and the base's otherwise; an empty string never
      overrides, an explicit empty list and an explicit false do. */
  function Merge(base: Config, overlay: Config): (r: Config)
    ensures (forall f :: Get(r, f) == if Merged(f) && Sets(overlay, f) then Get(overlay, f) else Get(base, f))
  {
    Config(
      if overlay.baseBranch != "" then overlay.baseBranch else base.baseBranch,
      if overlay.branchPrefix != "" then overlay.branchPrefix else base.branchPrefix,
      base.postCheckoutHook,
      if overlay.setup.Some? then overlay.setup else base.setup,
      if overlay.teardown.Some? then overlay.teardown else base.teardown,
      Defaults(
        if overlay.defaults.fetch.Some? then overlay.defaults.fetch else base.defaults.fetch,
        if overlay.defaults.autoSetupRemote.Some? then overlay.defaults.autoSetupRemote
        else base.defaults.autoSetupRemote))
  }

  /** An overlay that sets nothing changes nothing. */
  lemma MergeUnsetIsIdentity(base: Config, overlay: Config)
    requires (forall f :: !Sets(overlay, f))
    ensures Merge(base, overlay) == base
  {
    Extensionality(Merge(base, overlay), base);
  }

  /** Applying the same overlay twice is the same as applying it once. */
  lemma MergeIdempotent(base: Config, overlay: Config)
    ensures Merge(Merge(base, overlay), overlay) == Merge(base, overlay)
  {
    Extensionality(Merge(Merge(base, overlay), overlay), Merge(base, overlay));
  }

  /** Merging tiers one after the other equals merging the later tiers first. */
  lemma MergeAssociative(a: Config, b: Config, c: Config)
    ensures Merge(Merge(a, b), c) == Merge(a, Merge(b, c))
  {
    forall f ensures Get(Merge(Merge(a, b), c), f) == Get(Merge(a, Merge(b, c)), f) {
      assert Sets(Merge(b, c), f) <==> (Merged(f) && (Sets(b, f) || Sets(c, f))) || (!Merged(f) && Sets(b, f));
    }
    Extensionality(Merge(Merge(a, b), c), Merge(a, Merge(b, c)));
  }

  /** Merging a list of tiers onto a base, first tier first. */
  function MergeAll(base: Config, tiers: seq<Config>): Config
    decreases |tiers|
  {
    if |tiers| == 0 then base else MergeAll(Merge(base, tiers[0]), tiers[1..])
  }

  /** Index of the last tier that sets `f`, if any. */
  function LastSetter(tiers: seq<Config>, f: Field): (r: Option<nat>)
    ensures r.Some? ==> r.value < |tiers| && Sets(tiers[r.value], f)
    ensures (r.Some? ==> forall j :: r.value < j < |tiers| ==> !Sets(tiers[j], f))
    ensures (r.None? ==> forall j :: 0 <= j < |tiers| ==> !Sets(tiers[j], f))
    decreases |tiers|
  {
    if |tiers| == 0 then None
    else
      match LastSetter(tiers[1..], f)
      case Some(j) =>
        assert forall k :: j + 1 < k < |tiers| ==> tiers[k] == tiers[1..][k - 1];
        Some(j + 1)
      case None =>
        assert forall k :: 0 < k < |tiers| ==> tiers[k] == tiers[1..][k - 1];
        if Sets(tiers[0], f) then Some(0) else None
  }

  /** The tier cascade: after merging a list of tiers, each merged field holds
      the value of the last tier that sets it, or the base's when none does. */
  lemma {:induction false} MergeAllLastWins(base: Config, tiers: seq<Config>, f: Field)
    ensures (Get(MergeAll(base, tiers), f) ==
      if LastSetter(tiers, f).Some? && Merged(f) then Get(tiers[LastSetter(tiers, f).value], f) else Get(base, f))
    decreases |tiers|
  {
    if |tiers| > 0 {
      MergeAllLastWins(Merge(base, tiers[0]), tiers[1..], f);
      match LastSetter(tiers[1..], f)
      case Some(j) =>
        assert tiers[1..][j] == tiers[j + 1];
      case None =>
    }
  }

  // Paths. filepath.Join is modelled as '/'-concatenation.

  /** ~/.willow, for the home directory `home`. */
  function WillowHome(home: string): string { home + "/" + ".willow" }

  function ReposDir(home: string): string { WillowHome(home) + "/" + "repos" }

  function WorktreesDir(home: string): string { WillowHome(home) + "/" + "worktrees" }

  function GlobalConfigPath(home: string): string { home + "/.config/willow" + "/" + "config.json" }

  function LocalConfigPath(bareDir: string): string { bareDir + "/" + "willow.json" }

  function SharedConfigPath(worktreeRoot: string): string { worktreeRoot + "/.willow" + "/" + "config.json" }

  /** The repos and worktrees directories are distinct children of ~/.willow. */
  lemma WillowDirs(home: string)
    ensures HasPrefix(ReposDir(home), WillowHome(home) + "/") && Base(ReposDir(home)) == "repos"
    ensures HasPrefix(WorktreesDir(home), WillowHome(home) + "/") && Base(WorktreesDir(home)) == "worktrees"
    ensures ReposDir(home) != WorktreesDir(home)
    ensures Base(WillowHome(home)) == ".willow"
  {
    var w := WillowHome(home);
    assert ReposDir(home)[..|w + "/"|] == w + "/";
    assert WorktreesDir(home)[..|w + "/"|] == w + "/";
    assert ReposDir(home)[|w| + 1] != WorktreesDir(home)[|w| + 1];
    BaseOfChild(w, "repos");
    BaseOfChild(w, "worktrees");
    BaseOfChild(home, ".willow");
  }

  /** Each configuration path names its own file. */
  lemma ConfigFileNames(home: string, bareDir: string, worktreeRoot: string)
    ensures Base(GlobalConfigPath(home)) == "config.json"
    ensures Base(LocalConfigPath(bareDir)) == "willow.json"
    ensures Base(SharedConfigPath(worktreeRoot)) == "config.json"
  {
    BaseOfChild(home + "/.config/willow", "config.json");
    BaseOfChild(bareDir, "willow.json");
    BaseOfChild(worktreeRoot + "/.willow", "config.json");
  }


  /** filepath.EvalSymlinks: the resolved path when resolution succeeds,
      otherwise the path unchanged (as IsWillowRepo falls back). */
  function Resolve(links: map<string, string>, p: string): string
  {
    if p in links then links[p] else p
  }

  /** IsWillowRepo: the (resolved) bare directory lies strictly below the
      (resolved) repos directory, so neither the repos directory itself nor
      anything shorter is a willow repo. */
  predicate IsWillowRepo(home: string, links: map<string, string>, bareDir: string)
    ensures IsWillowRepo(home, links, bareDir) ==> |Resolve(links, bareDir)| > |Resolve(links, ReposDir(home))|
    ensures IsWillowRepo(home, links, bareDir) ==> Resolve(links, bareDir) != Resolve(links, ReposDir(home))
  {
    HasPrefix(Resolve(links, bareDir), Resolve(links, ReposDir(home)) + "/")
  }

  /** Every path of the form `<repos>/<name>` is a willow repo. */
  lemma ChildIsWillowRepo(home: string, name: string)
    ensures IsWillowRepo(home, map[], ReposDir(home) + "/" + name)
  {
    var d := ReposDir(home) + "/" + name;
    assert d[..|ReposDir(home) + "/"|] == ReposDir(home) + "/";
  }

  datatype DirEntry = DirEntry(name: string, isDir: bool)

  /** What os.ReadDir(ReposDir()) answered. */
  datatype Listing = Entries(entries: seq<DirEntry>) | NotExist | Unreadable

  predicate IsRepoEntry(e: DirEntry)
  {
    e.isDir && HasSuffix(e.name, ".git")
  }

  /** The repo names among some directory entries, in order. */
  function RepoNames(entries: seq<DirEntry>): (r: seq<string>)
    ensures |r| <= |entries|
    ensures (forall n :: n in r ==> exists i :: 0 <= i < |entries| && IsRepoEntry(entries[i]) && n + ".git" == entries[i].name)
    decreases |entries|
  {
    if |entries| == 0 then []
    else
      var e := entries[|entries| - 1];
      var r := RepoNames(entries[..|entries| - 1]);
      assert forall i :: 0 <= i < |entries| - 1 ==> entries[..|entries| - 1][i] == entries[i];
      if IsRepoEntry(e) then r + [TrimSuffix(e.name, ".git")] else r
  }

  /** RepoNames keeps the listing order: one more entry adds at most one name, at the end. */
  lemma RepoNamesSnoc(entries: seq<DirEntry>, e: DirEntry)
    ensures (RepoNames(entries + [e]) ==
      RepoNames(entries) + (if IsRepoEntry(e) then [TrimSuffix(e.name, ".git")] else []))
  {
    assert (entries + [e])[..|entries|] == entries;
  }

  /** Every `.git` directory contributes its name. */
  lemma {:induction false} RepoNamesComplete(entries: seq<DirEntry>, i: nat)
    requires i < |entries| && IsRepoEntry(entries[i])
    ensures TrimSuffix(entries[i].name, ".git") in RepoNames(entries)
    decreases |entries|
  {
    if i < |entries| - 1 {
      assert entries[..|entries| - 1][i] == entries[i];
      RepoNamesComplete(entries[..|entries| - 1], i);
    }
  }

  /** ListRepos: a missing repos directory is an empty list, another read
      error is an error, otherwise the `.git` directories without the suffix. */
  function ListRepos(home: string, listing: Listing): (r: Result<seq<string>>)
    ensures listing.NotExist? ==> r == Ok([])
    ensures listing.Unreadable? <==> r.Err?
    ensures listing.Entries? ==> r == Ok(RepoNames(listing.entries))
  {
    match listing
    case NotExist => Ok([])
    case Unreadable => Err(IoFailed(ReposDir(home)))
    case Entries(es) => Ok(RepoNames(es))
  }

  /** ResolveRepo: `<repos>/<name>.git` when that path is a directory. */
  function ResolveRepo(home: string, isDir: map<string, bool>, name: string): (r: Result<string>)
    ensures r.Ok? ==> r.value == ReposDir(home) + "/" + name + ".git" && r.value in isDir && isDir[r.value]
    ensures r.Err? ==> r.error == RepoNotFound(name)
  {
    var dir := ReposDir(home) + "/" + name + ".git";
    if dir in isDir && isDir[dir] then Ok(dir) else Err(RepoNotFound(name))
  }

  /** LoadFile: None when the file is missing or does not parse. */
  function LoadFile(files: map<string, Config>, path: string): (r: Option<Config>)
    ensures r.Some? <==> path in files
    ensures r.Some? ==> r.value == files[path]
  {
    if path in files then Some(files[path]) else None
  }

  /** The tiers Load consults, in order, keeping those that loaded. */
  function LoadedTiers(home: string, files: map<string, Config>, bareDir: string, worktreeRoot: string): seq<Config>
  {
    var g := LoadFile(files, GlobalConfigPath(home));
    var s := if worktreeRoot != "" then LoadFile(files, SharedConfigPath(worktreeRoot)) else None;
    var l := if bareDir != "" then LoadFile(files, LocalConfigPath(bareDir)) else None;
    (if g.Some? then [g.value] else []) + (if s.Some? then [s.value] else []) + (if l.Some? then [l.value] else [])
  }

  /** One step of Load: the tier merged over `base` when its file loaded. */
  function MergeLoaded(base: Config, tier: Option<Config>): Config
  {
    if tier.Some? then Merge(base, tier.value) else base
  }

  /** Load: defaults, then global, shared (when a worktree root is known) and
      local (when a bare dir is known), skipping tiers that fail to load. */
  function Load(home: string, files: map<string, Config>, bareDir: string, worktreeRoot: string): (r: Config)
    ensures r == MergeAll(DefaultConfig(), LoadedTiers(home, files, bareDir, worktreeRoot))
    ensures r.defaults.fetch.Some? && r.defaults.autoSetupRemote.Some?
  {
    var c0 := DefaultConfig();
    var c1 := MergeLoaded(c0, LoadFile(files, GlobalConfigPath(home)));
    var c2 := if worktreeRoot == "" then c1 else MergeLoaded(c1, LoadFile(files, SharedConfigPath(worktreeRoot)));
    var c3 := if bareDir == "" then c2 else MergeLoaded(c2, LoadFile(files, LocalConfigPath(bareDir)));
    assert Get(c3, FetchField).flag.Some? && Get(c3, AutoSetupRemoteField).flag.Some?;
    LoadIsMergeAll(home, files, bareDir, worktreeRoot, c1, c2, c3);
    c3
  }

  lemma LoadIsMergeAll(home: string, files: map<string, Config>, bareDir: string, worktreeRoot: string,
                       c1: Config, c2: Config, c3: Config)
    requires c1 == MergeLoaded(DefaultConfig(), LoadFile(files, GlobalConfigPath(home)))
    requires c2 == (if worktreeRoot == "" then c1 else MergeLoaded(c1, LoadFile(files, SharedConfigPath(worktreeRoot))))
    requires c3 == (if bareDir == "" then c2 else MergeLoaded(c2, LoadFile(files, LocalConfigPath(bareDir))))
    ensures c3 == MergeAll(DefaultConfig(), LoadedTiers(home, files, bareDir, worktreeRoot))
  {
    var g := LoadFile(files, GlobalConfigPath(home));
    var s := if worktreeRoot != "" then LoadFile(files, SharedConfigPath(worktreeRoot)) else None;
    var l := if bareDir != "" then LoadFile(files, LocalConfigPath(bareDir)) else None;
    var gs := if g.Some? then [g.value] else [];
    var ss := if s.Some? then [s.value] else [];
    var ls := if l.Some? then [l.value] else [];
    MergeAllAppend(DefaultConfig(), gs, ss);
    MergeAllAppend(DefaultConfig(), gs + ss, ls);
  }

  lemma {:induction false} MergeAllAppend(base: Config, xs: seq<Config>, ys: seq<Config>)
    ensures MergeAll(base, xs + ys) == MergeAll(MergeAll(base, xs), ys)
    decreases |xs|
  {
    if |xs| > 0 {
      assert (xs + ys)[0] == xs[0];
      assert (xs + ys)[1..] == xs[1..] + ys;
      MergeAllAppend(Merge(base, xs[0]), xs[1..], ys);
    } else {
      assert xs + ys == ys;
    }
  }

  /** With no configuration file anywhere, Load is exactly the defaults. */
  lemma LoadWithoutFiles(home: string, bareDir: string, worktreeRoot: string)
    ensures Load(home, map[], bareDir, worktreeRoot) == DefaultConfig()
  {
    assert LoadedTiers(home, map[], bareDir, worktreeRoot) == [];
  }
}

=== FILE: configcmd.dfy ===
/** internal/cli/config.go: `ww config` — listing every key with the tier it
    comes from, reading one merged value, and writing one value into the
    global or local file. */
module ConfigCmd {
  import opened Outcomes
  import opened GoStrings
  import opened Config
  import opened Backend
  import opened HookLists
  import Git
  import Repo

  /** configKeys, in the order `config --list` prints them. */
  const ConfigKeys: seq<string> :=
    ["baseBranch", "branchPrefix", "postCheckoutHook", "setup", "teardown",
     "defaults.fetch", "defaults.autoSetupRemote"]

  /** The key under which each field is read and written. */
  function FieldKey(f: Field): (key: string)
    ensures key in ConfigKeys
  {
    match f
    case BaseBranchField => "baseBranch"
    case BranchPrefixField => "branchPrefix"
    case PostCheckoutHookField => "postCheckoutHook"
    case SetupField => "setup"
    case TeardownField => "teardown"
    case FetchField => "defaults.fetch"
    case AutoSetupRemoteField => "defaults.autoSetupRemote"
  }

  /** The field a key names, if it names one. */
  function KeyField(key: string): (r: Option<Field>)
    ensures r.Some? <==> key in ConfigKeys
    ensures r.Some? ==> FieldKey(r.value) == key
  {
    if key == "baseBranch" then Some(BaseBranchField)
    else if key == "branchPrefix" then Some(BranchPrefixField)
    else if key == "postCheckoutHook" then Some(PostCheckoutHookField)
    else if key == "setup" then Some(SetupField)
    else if key == "teardown" then Some(TeardownField)
    else if key == "defaults.fetch" then Some(FetchField)
    else if key == "defaults.autoSetupRemote" then Some(AutoSetupRemoteField)
    else None
  }

  /** Keys and fields are in one-to-one correspondence. */
  lemma KeyFieldOfFieldKey(f: Field)
    ensures KeyField(FieldKey(f)) == Some(f)
  {
  }

  /** isValidKey: a linear search of configKeys. */
  function IsValidKey(key: string): (b: bool)
    ensures b <==> KeyField(key).Some?
  {
    Listed(ConfigKeys, key)
  }

  function Listed(keys: seq<string>, key: string): (b: bool)
    ensures b <==> key in keys
  {
    |keys| > 0 && (keys[0] == key || Listed(keys[1..], key))
  }

  /** fmt's %t. */
  function BoolString(b: bool): string
  {
    if b then "true" else "false"
  }

  /** parseBool: case-insensitive true/1/yes and false/0/no; anything else fails. */
  function ParseBool(s: string): (r: Option<bool>)
    ensures r == Some(true) <==> ToLower(s) in ["true", "1", "yes"]
    ensures r == Some(false) <==> ToLower(s) in ["false", "0", "no"]
  {
    var l := ToLower(s);
    if l == "true" || l == "1" || l == "yes" then Some(true)
    else if l == "false" || l == "0" || l == "no" then Some(false)
    else None
  }

  /** parseBool reads back what %t prints. */
  lemma ParseBoolString(b: bool)
    ensures ParseBool(BoolString(b)) == Some(b)
  {
    assert ToLower(BoolString(b)) == BoolString(b);
  }

  /** getDefaultValue: what `config --list` shows for a key no tier sets. */
  function GetDefaultValue(key: string): (v: string)
    ensures key == "defaults.fetch" || key == "defaults.autoSetupRemote" ==> v == "true"
    ensures key != "defaults.fetch" && key != "defaults.autoSetupRemote" ==> v == ""
  {
    if key == "defaults.fetch" then "true"
    else if key == "defaults.autoSetupRemote" then "true"
    else ""
  }

  /** How a set field is printed: lists joined with ", ", booleans as %t. */
  function Render(v: FieldValue): string
  {
    match v
    case Text(s) => s
    case Commands(l) => if l.Some? then Join(l.value, ", ") else ""
    case Flag(b) => if b.Some? then BoolString(b.value) else ""
  }

  /** getFieldValue: the printed value of a key, and whether the tier sets it. */
  function GetFieldValue(cfg: Config, key: string): (r: (string, bool))
    ensures r.1 <==> KeyField(key).Some? && Sets(cfg, KeyField(key).value)
    ensures r.1 ==> r.0 == Render(Get(cfg, KeyField(key).value))
    ensures !r.1 ==> r.0 == ""
  {
    if key == "baseBranch" then
      if cfg.baseBranch != "" then (cfg.baseBranch, true) else ("", false)
    else if key == "branchPrefix" then
      if cfg.branchPrefix != "" then (cfg.branchPrefix, true) else ("", false)
    else if key == "postCheckoutHook" then
      if cfg.postCheckoutHook != "" then (cfg.postCheckoutHook, true) else ("", false)
    else if key == "setup" then
      if cfg.setup.Some? then (Join(cfg.setup.value, ", "), true) else ("", false)
    else if key == "teardown" then
      if cfg.teardown.Some? then (Join(cfg.teardown.value, ", "), true) else ("", false)
    else if key == "defaults.fetch" then
      if cfg.defaults.fetch.Some? then (BoolString(cfg.defaults.fetch.value), true) else ("", false)
    else if key == "defaults.autoSetupRemote" then
      if cfg.defaults.autoSetupRemote.Some? then (BoolString(cfg.defaults.autoSetupRemote.value), true) else ("", false)
    else ("", false)
  }

  /** Whether a value has the shape a field holds. */
  predicate OfKind(f: Field, v: FieldValue)
  {
    Get(Empty, f).Text? == v.Text? && Get(Empty, f).Commands? == v.Commands?
  }

  /** The value a command-line string stands for in a field: text as is, a
      list through splitCommands, a flag through parseBool (None when the
      string is not a boolean). */
  function ParseValue(f: Field, value: string): (r: Option<FieldValue>)
    ensures r.Some? ==> OfKind(f, r.value)
    ensures r.None? <==> (f == FetchField || f == AutoSetupRemoteField) && ParseBool(value).None?
  {
    match f
    case SetupField => Some(Commands(SplitCommands(value)))
    case TeardownField => Some(Commands(SplitCommands(value)))
    case FetchField => if ParseBool(value).Some? then Some(Flag(ParseBool(value))) else None
    case AutoSetupRemoteField => if ParseBool(value).Some? then Some(Flag(ParseBool(value))) else None
    case _ => Some(Text(value))
  }

  /** setFieldValue: changes exactly the field the key names, to the parsed
      value; an unknown key or a non-boolean for a boolean key is an error
      and changes nothing. */
  function SetFieldValue(cfg: Config, key: string, value: string): (r: Result<Config>)
    ensures KeyField(key).None? ==> r == Err(UnknownKey(key))
    ensures KeyField(key).Some? ==> (r.Ok? <==> ParseValue(KeyField(key).value, value).Some?)
    ensures KeyField(key).Some? && r.Err? ==> r.error == InvalidValue(key, value)
    ensures r.Ok? ==> KeyField(key).Some? && Get(r.value, KeyField(key).value) == ParseValue(KeyField(key).value, value).value
    ensures (r.Ok? ==> forall f :: f != KeyField(key).value ==> Get(r.value, f) == Get(cfg, f))
  {
    match KeyField(key)
    case None => Err(UnknownKey(key))
    case Some(f) =>
      match ParseValue(f, value)
      case None => Err(InvalidValue(key, value))
      case Some(v) => Ok(Assign(cfg, f, v))
  }

  /** Stores a value of the field's own kind into one field. */
  function Assign(cfg: Config, f: Field, v: FieldValue): (r: Config)
    requires OfKind(f, v)
    ensures Get(r, f) == v
    ensures (forall g :: g != f ==> Get(r, g) == Get(cfg, g))
  {
    match f
    case BaseBranchField => cfg.(baseBranch := v.text)
    case BranchPrefixField => cfg.(branchPrefix := v.text)
    case PostCheckoutHookField => cfg.(postCheckoutHook := v.text)
    case SetupField => cfg.(setup := v.commands)
    case TeardownField => cfg.(teardown := v.commands)
    case FetchField => cfg.(defaults := cfg.defaults.(fetch := v.flag))
    case AutoSetupRemoteField => cfg.(defaults := cfg.defaults.(autoSetupRemote := v.flag))
  }

  /** Whether a set field's printed value parses back: every stored hook
      list is non-empty and made of trimmed, comma-free commands. */
  predicate Printable(v: FieldValue)
  {
    v.Commands? && v.commands.Some? ==>
      |v.commands.value| > 0 && forall i :: 0 <= i < |v.commands.value| ==> IsCommand(v.commands.value[i])
  }

  /** `config get` then `config set` with the printed value leaves the file
      as it was. */
  lemma SetOfGetIsIdentity(cfg: Config, key: string)
    requires GetFieldValue(cfg, key).1
    requires Printable(Get(cfg, KeyField(key).value))
    ensures SetFieldValue(cfg, key, GetFieldValue(cfg, key).0) == Ok(cfg)
  {
    var f := KeyField(key).value;
    var v := GetFieldValue(cfg, key).0;
    match f
    case SetupField => SplitCommandsOfJoin(cfg.setup.value);
    case TeardownField => SplitCommandsOfJoin(cfg.teardown.value);
    case FetchField => ParseBoolString(cfg.defaults.fetch.value);
    case AutoSetupRemoteField => ParseBoolString(cfg.defaults.autoSetupRemote.value);
    case _ =>
    var r := SetFieldValue(cfg, key, v);
    Extensionality(r.value, cfg);
  }

  /** `config set` then `config get` on the same tier: a boolean reads back
      as the boolean that was set; text reads back as written; a list reads
      back as its commands joined with ", ", or unset when none remain. */
  lemma GetOfSet(cfg: Config, key: string, value: string)
    requires SetFieldValue(cfg, key, value).Ok?
    ensures (var g := GetFieldValue(SetFieldValue(cfg, key, value).value, key);
      match KeyField(key).value
      case FetchField => g.1 && ParseBool(g.0) == ParseBool(value)
      case AutoSetupRemoteField => g.1 && ParseBool(g.0) == ParseBool(value)
      case SetupField => g == if SplitCommands(value).Some? then (Join(SplitCommands(value).value, ", "), true) else ("", false)
      case TeardownField => g == if SplitCommands(value).Some? then (Join(SplitCommands(value).value, ", "), true) else ("", false)
      case _ => g == (value, value != ""))
  {
    var f := KeyField(key).value;
    match f
    case FetchField => ParseBoolString(ParseBool(value).value);
    case AutoSetupRemoteField => ParseBoolString(ParseBool(value).value);
    case _ =>
  }

  // The commands.

  /** The bare directory and worktree root `config --list` and `config get`
      read from: git's answers, with resolveRepoFromCwd as the fallback for
      the bare directory; "" where neither knows. */
  function Lookup(env: Env): (s: Step<(string, string)>)
    ensures s.result.Ok?
    ensures s.trace == [GitCmd("", ["rev-parse", "--git-common-dir"]), GitCmd("", ["rev-parse", "--show-toplevel"])]
    ensures Git.BareRepoDir(env, "").result.Ok? ==> s.result.value.0 == Git.BareRepoDir(env, "").result.value
    ensures Git.BareRepoDir(env, "").result.Err? ==> s.result.value.0 == env.cwdRepo.GetOr("")
    ensures s.result.value.1 == Git.WorktreeRoot(env, "").result.ValueOr("")
  {
    Step(Ok((LookupDir(env), LookupRoot(env))), LookupTrace(env))
  }

  /** The worktree root half of Lookup. */
  function LookupRoot(env: Env): (root: string)
    ensures root == Git.WorktreeRoot(env, "").result.ValueOr("")
  {
    Git.WorktreeRoot(env, "").result.ValueOr("")
  }

  /** The two calls Lookup makes. */
  function LookupTrace(env: Env): (calls: seq<Call>)
    ensures calls == [GitCmd("", ["rev-parse", "--git-common-dir"]), GitCmd("", ["rev-parse", "--show-toplevel"])]
  {
    var b := Git.BareRepoDir(env, "").trace;
    var w := Git.WorktreeRoot(env, "").trace;
    TwoCalls(b, w, GitCmd("", ["rev-parse", "--git-common-dir"]), GitCmd("", ["rev-parse", "--show-toplevel"]));
    b + w
  }

  lemma TwoCalls(b: seq<Call>, w: seq<Call>, x: Call, y: Call)
    requires b == [x] && w == [y]
    ensures b + w == [x, y]
  {
  }

  /** The bare directory half of Lookup. */
  function LookupDir(env: Env): (dir: string)
    ensures Git.BareRepoDir(env, "").result.Ok? ==> dir == Git.BareRepoDir(env, "").result.value
    ensures Git.BareRepoDir(env, "").result.Err? ==> dir == env.cwdRepo.GetOr("")
  {
    OrCwdRepo(Git.BareRepoDir(env, "").result, env.cwdRepo)
  }

  /** git's bare directory unless it failed or is empty, then the repo
      resolved from the working directory, then "". */
  function OrCwdRepo(bare: Result<string>, cwdRepo: Option<string>): (dir: string)
    ensures bare.Ok? && bare.value != "" ==> dir == bare.value
    ensures bare.Err? ==> dir == cwdRepo.GetOr("")
  {
    if bare.ValueOr("") == "" then cwdRepo.GetOr("") else bare.value
  }

  /** One tier as `config --list` tracks it: its name, its file, and the
      configuration when the file loaded. */
  datatype Tier = Tier(name: string, path: string, config: Option<Config>)

  /** global, then shared when a worktree root is known, then local when a
      bare directory is known. */
  function Tiers(env: Env, bareDir: string, root: string): (ts: seq<Tier>)
    ensures 1 <= |ts| <= 3 && ts[0].name == "global"
    ensures (ts[|ts| - 1].name == (if bareDir != "" then "local" else if root != "" then "shared" else "global"))
    ensures (forall i :: 0 <= i < |ts| ==> ts[i].config == LoadFile(env.files, ts[i].path))
    ensures Loaded(ts) == LoadedTiers(env.home, env.files, bareDir, root)
  {
    var g := TierWhen(true, "global", GlobalConfigPath(env.home), env.files);
    var s := TierWhen(root != "", "shared", SharedConfigPath(root), env.files);
    var l := TierWhen(bareDir != "", "local", LocalConfigPath(bareDir), env.files);
    TiersLoad(env, bareDir, root, g, s, l);
    g + s + l
  }

  /** The three tiers together load what Load merges, each from its file. */
  lemma TiersLoad(env: Env, bareDir: string, root: string, g: seq<Tier>, s: seq<Tier>, l: seq<Tier>)
    requires g == TierWhen(true, "global", GlobalConfigPath(env.home), env.files)
    requires s == TierWhen(root != "", "shared", SharedConfigPath(root), env.files)
    requires l == TierWhen(bareDir != "", "local", LocalConfigPath(bareDir), env.files)
    ensures FromFiles(env.files, g + s + l)
    ensures Loaded(g + s + l) == LoadedTiers(env.home, env.files, bareDir, root)
  {
    LoadedAppend(g, s);
    LoadedAppend(g + s, l);
    FromFilesAppend(env.files, g, s);
    FromFilesAppend(env.files, g + s, l);
  }

  /** Every tier's configuration is what its file loads to. */
  predicate FromFiles(files: map<string, Config>, ts: seq<Tier>)
  {
    forall i :: 0 <= i < |ts| ==> ts[i].config == LoadFile(files, ts[i].path)
  }

  lemma FromFilesAppend(files: map<string, Config>, xs: seq<Tier>, ys: seq<Tier>)
    requires FromFiles(files, xs) && FromFiles(files, ys)
    ensures FromFiles(files, xs + ys)
  {
    forall i | 0 <= i < |xs + ys|
      ensures (xs + ys)[i].config == LoadFile(files, (xs + ys)[i].path)
    {
      if i >= |xs| { assert (xs + ys)[i] == ys[i - |xs|]; }
    }
  }

  /** The tier `name` at `path` when `present`, and no tier otherwise. */
  function TierWhen(present: bool, name: string, path: string, files: map<string, Config>): (ts: seq<Tier>)
    ensures |ts| == (if present then 1 else 0)
    ensures present ==> ts[0] == Tier(name, path, LoadFile(files, path))
    ensures FromFiles(files, ts)
    ensures (Loaded(ts) == if present && LoadFile(files, path).Some? then [LoadFile(files, path).value] else [])
  {
    var ts := if present then [Tier(name, path, LoadFile(files, path))] else [];
    LoadedAtMostOne(ts);
    ts
  }

  lemma LoadedAtMostOne(ts: seq<Tier>)
    requires |ts| <= 1
    ensures (Loaded(ts) == if |ts| == 1 && ts[0].config.Some? then [ts[0].config.value] else [])
  {
    if |ts| == 1 { assert ts[1..] == []; }
  }

  /** The configurations of the tiers that loaded, in order. */
  function Loaded(ts: seq<Tier>): (cs: seq<Config>)
    ensures |cs| <= |ts|
  {
    if |ts| == 0 then []
    else (if ts[0].config.Some? then [ts[0].config.value] else []) + Loaded(ts[1..])
  }

  lemma {:induction false} LoadedAppend(xs: seq<Tier>, ys: seq<Tier>)
    ensures Loaded(xs + ys) == Loaded(xs) + Loaded(ys)
    decreases |xs|
  {
    if |xs| == 0 {
      assert xs + ys == ys;
    } else {
      var head := if xs[0].config.Some? then [xs[0].config.value] else [];
      assert (xs + ys)[0] == xs[0];
      assert (xs + ys)[1..] == xs[1..] + ys;
      calc {
        Loaded(xs + ys);
        head + Loaded(xs[1..] + ys);
        { LoadedAppend(xs[1..], ys); }
        head + (Loaded(xs[1..]) + Loaded(ys));
        (head + Loaded(xs[1..])) + Loaded(ys);
        Loaded(xs) + Loaded(ys);
      }
    }
  }

  /** Whether a tier loaded and sets the key. */
  predicate TierSets(t: Tier, key: string)
  {
    t.config.Some? && GetFieldValue(t.config.value, key).1
  }

  /** The inner loop of configList: walking the tiers in order, every tier
      that sets the key replaces the value and the source seen so far. */
  function Attribution(ts: seq<Tier>, key: string, acc: (string, string)): (r: (string, string))
    ensures ((forall i :: 0 <= i < |ts| ==> !TierSets(ts[i], key)) ==> r == acc)
    ensures |ts| > 0 && TierSets(ts[|ts| - 1], key) ==>
      r == (GetFieldValue(ts[|ts| - 1].config.value, key).0, ts[|ts| - 1].name)
    decreases |ts|
  {
    if |ts| == 0 then acc
    else
      var next := if TierSets(ts[0], key) then (GetFieldValue(ts[0].config.value, key).0, ts[0].name) else acc;
      assert forall i :: 0 <= i < |ts| - 1 ==> ts[1..][i] == ts[i + 1];
      Attribution(ts[1..], key, next)
  }

  /** The walk ends on the last tier that sets the key, whatever it started
      from and whatever later tiers hold that do not set it. */
  lemma {:induction false} AttributionLastSetter(ts: seq<Tier>, key: string, acc: (string, string), j: nat)
    requires j < |ts| && TierSets(ts[j], key)
    requires forall k :: j < k < |ts| ==> !TierSets(ts[k], key)
    ensures Attribution(ts, key, acc) == (GetFieldValue(ts[j].config.value, key).0, ts[j].name)
    decreases |ts|
  {
    var next := if TierSets(ts[0], key) then (GetFieldValue(ts[0].config.value, key).0, ts[0].name) else acc;
    assert Attribution(ts, key, acc) == Attribution(ts[1..], key, next);
    if j == 0 {
      assert forall i :: 0 <= i < |ts| - 1 ==> !TierSets(ts[1..][i], key) by {
        forall i | 0 <= i < |ts| - 1 ensures !TierSets(ts[1..][i], key) {
          assert ts[1..][i] == ts[i + 1];
        }
      }
    } else {
      assert forall k :: j - 1 < k < |ts| - 1 ==> ts[1..][k] == ts[k + 1];
      AttributionLastSetter(ts[1..], key, next, j - 1);
    }
  }

  /** One printed line of `config --list`. */
  datatype Row = Row(key: string, value: string, source: string)

  function RowOf(ts: seq<Tier>, key: string): (row: Row)
    ensures row.key == key
    ensures (forall i :: 0 <= i < |ts| ==> !TierSets(ts[i], key)) ==> row.value == GetDefaultValue(key) && row.source == "default"
  {
    var a := Attribution(ts, key, (GetDefaultValue(key), "default"));
    Row(key, a.0, a.1)
  }

  /** Every row of `config --list`, one per key in the order of configKeys. */
  function Rows(ts: seq<Tier>): (rows: seq<Row>)
    ensures |rows| == |ConfigKeys|
    ensures (forall i :: 0 <= i < |rows| ==> rows[i] == RowOf(ts, ConfigKeys[i]) && rows[i].key == ConfigKeys[i])
  {
    seq(|ConfigKeys|, i requires 0 <= i < |ConfigKeys| => RowOf(ts, ConfigKeys[i]))
  }

  /** The row of a key names the last tier that sets it, with that tier's
      value. */
  lemma RowSource(ts: seq<Tier>, key: string, j: nat)
    requires j < |ts| && TierSets(ts[j], key)
    requires forall k :: j < k < |ts| ==> !TierSets(ts[k], key)
    ensures RowOf(ts, key) == Row(key, GetFieldValue(ts[j].config.value, key).0, ts[j].name)
  {
    AttributionLastSetter(ts, key, (GetDefaultValue(key), "default"), j);
  }

  /** configList's outer loop: one row per key, in the order of configKeys. */
  method ListRows(ts: seq<Tier>) returns (rows: seq<Row>)
    ensures |rows| == |ConfigKeys|
    ensures (forall i :: 0 <= i < |rows| ==> rows[i] == RowOf(ts, ConfigKeys[i]))
  {
    rows := [];
    var k := 0;
    while k < |ConfigKeys|
      invariant 0 <= k <= |ConfigKeys|
      invariant |rows| == k
      invariant forall i :: 0 <= i < k ==> rows[i] == RowOf(ts, ConfigKeys[i])
    {
      var key := ConfigKeys[k];
      var value, source := Attribute(ts, key);
      RowOfAttribution(ts, key, value, source);
      rows := rows + [Row(key, value, source)];
      k := k + 1;
    }
  }

  lemma RowOfAttribution(ts: seq<Tier>, key: string, value: string, source: string)
    requires (value, source) == Attribution(ts, key, (GetDefaultValue(key), "default"))
    ensures Row(key, value, source) == RowOf(ts, key)
  {
  }

  /** configList's inner loop: start from the default and let every tier
      that sets the key override the value and the source. */
  method Attribute(ts: seq<Tier>, key: string) returns (value: string, source: string)
    ensures (value, source) == Attribution(ts, key, (GetDefaultValue(key), "default"))
  {
    source := "default";
    value := GetDefaultValue(key);
    var j := 0;
    while j < |ts|
      invariant 0 <= j <= |ts|
      invariant Attribution(ts[j..], key, (value, source)) == Attribution(ts, key, (GetDefaultValue(key), "default"))
    {
      AttributionStep(ts, j, key, (value, source));
      if ts[j].config.Some? {
        var (v, ok) := GetFieldValue(ts[j].config.value, key);
        if ok {
          value := v;
          source := ts[j].name;
        }
      }
      j := j + 1;
    }
  }

  /** Consuming one tier of the walk. */
  lemma AttributionStep(ts: seq<Tier>, j: nat, key: string, acc: (string, string))
    requires j < |ts|
    ensures (Attribution(ts[j..], key, acc) ==
      Attribution(ts[j + 1..], key, if TierSets(ts[j], key) then (GetFieldValue(ts[j].config.value, key).0, ts[j].name) else acc))
  {
    assert ts[j..][1..] == ts[j + 1..];
  }

  /** `config --list` (and `config` with no key): every key with its value
      and the tier it comes from. */
  function ConfigList(env: Env): (s: Step<seq<Row>>)
    ensures s.result.Ok? && |s.result.value| == |ConfigKeys|
    ensures (forall i :: 0 <= i < |ConfigKeys| ==> s.result.value[i].key == ConfigKeys[i])
    ensures (forall i :: 0 <= i < |ConfigKeys| ==>
      s.result.value[i] == RowOf(Tiers(env, Lookup(env).result.value.0, Lookup(env).result.value.1), ConfigKeys[i]))
    ensures s.trace == Lookup(env).trace
  {
    var c := Lookup(env);
    var rows := Rows(Tiers(env, c.result.value.0, c.result.value.1));
    Step(Ok(rows), c.trace)
  }

  /** `config get`: the value of a known key in the merged configuration. */
  function ConfigGet(env: Env, key: string): (s: Step<string>)
    ensures !IsValidKey(key) ==> s == Step(Err(UnknownKey(key)), [])
    ensures IsValidKey(key) ==> s.result.Ok? && s.trace == Lookup(env).trace
    ensures IsValidKey(key) && KeyField(key) != Some(PostCheckoutHookField) ==>
      s.result.value == Render(Get(Load(env.home, env.files, Lookup(env).result.value.0, Lookup(env).result.value.1), KeyField(key).value))
  {
    if !IsValidKey(key) then Step(Err(UnknownKey(key)), [])
    else
      var c := Lookup(env);
      var cfg := Load(env.home, env.files, c.result.value.0, c.result.value.1);
      UnsetRendersEmpty(cfg, KeyField(key).value);
      Step(Ok(GetFieldValue(cfg, key).0), c.trace)
  }

  lemma UnsetRendersEmpty(cfg: Config, f: Field)
    ensures !Sets(cfg, f) ==> Render(Get(cfg, f)) == ""
  {
  }

  /** The printed value of a key depends only on the field it names. */
  lemma PrintedValue(cfg: Config, key: string)
    requires KeyField(key).Some?
    ensures (GetFieldValue(cfg, key).0 == if Sets(cfg, KeyField(key).value) then Render(Get(cfg, KeyField(key).value)) else "")
  {
  }

  /** The list walk agrees with the merge: starting from what a base prints,
      the value the walk ends on is what the base merged with the loaded
      tiers prints. */
  lemma {:induction false} AttributionIsMerge(ts: seq<Tier>, key: string, base: Config, acc: (string, string))
    requires KeyField(key).Some? && Merged(KeyField(key).value)
    requires acc.0 == GetFieldValue(base, key).0
    ensures Attribution(ts, key, acc).0 == GetFieldValue(MergeAll(base, Loaded(ts)), key).0
    decreases |ts|
  {
    if |ts| > 0 {
      var f := KeyField(key).value;
      var next := if TierSets(ts[0], key) then (GetFieldValue(ts[0].config.value, key).0, ts[0].name) else acc;
      if ts[0].config.Some? {
        var c := ts[0].config.value;
        assert Loaded(ts) == [c] + Loaded(ts[1..]);
        assert ([c] + Loaded(ts[1..]))[1..] == Loaded(ts[1..]);
        PrintedValue(Merge(base, c), key);
        PrintedValue(base, key);
        PrintedValue(c, key);
        AttributionIsMerge(ts[1..], key, Merge(base, c), next);
      } else {
        assert Loaded(ts) == Loaded(ts[1..]);
        AttributionIsMerge(ts[1..], key, base, next);
      }
    }
  }

  /** What `config --list` shows for a key no tier sets is what the
      defaults print. */
  lemma DefaultValueIsDefaultConfig(key: string)
    requires KeyField(key).Some?
    ensures GetDefaultValue(key) == GetFieldValue(DefaultConfig(), key).0
  {
  }

  /** `config --list` and `config get` agree on every key merge carries. */
  lemma ListAgreesWithGet(env: Env, i: nat)
    requires i < |ConfigKeys| && ConfigKeys[i] != "postCheckoutHook"
    ensures ConfigList(env).result.value[i].value == ConfigGet(env, ConfigKeys[i]).result.value
  {
    var key := ConfigKeys[i];
    MergedKeyAt(i);
    var c := Lookup(env);
    var ts := Tiers(env, c.result.value.0, c.result.value.1);
    RowIsMerge(ts, key);
    assert ConfigList(env).result.value[i] == RowOf(ts, key);
    assert Load(env.home, env.files, c.result.value.0, c.result.value.1) == MergeAll(DefaultConfig(), Loaded(ts));
  }

  lemma MergedKeyAt(i: nat)
    requires i < |ConfigKeys| && ConfigKeys[i] != "postCheckoutHook"
    ensures IsValidKey(ConfigKeys[i]) && KeyField(ConfigKeys[i]).Some? && Merged(KeyField(ConfigKeys[i]).value)
  {
  }

  /** The value a row attributes is the merged value of its key. */
  lemma RowIsMerge(ts: seq<Tier>, key: string)
    requires KeyField(key).Some? && Merged(KeyField(key).value)
    ensures RowOf(ts, key).value == GetFieldValue(MergeAll(DefaultConfig(), Loaded(ts)), key).0
  {
    DefaultValueIsDefaultConfig(key);
    AttributionIsMerge(ts, key, DefaultConfig(), (GetDefaultValue(key), "default"));
  }

  /** The file `config set` and `config edit` write: the global file with
      --global, otherwise the local file of the current willow repo. */
  function TargetPath(env: Env, global: bool): (s: Step<string>)
    ensures global ==> s == Step(Ok(GlobalConfigPath(env.home)), [])
    ensures !global ==> s.trace == Repo.RequireWillowRepo(env).trace
    ensures !global && Repo.RequireWillowRepo(env).result.Err? ==> s.result == Err(NotWillowRepoUseGlobal)
    ensures !global && Repo.RequireWillowRepo(env).result.Ok? ==>
      s.result == Ok(LocalConfigPath(Repo.RequireWillowRepo(env).result.value))
  {
    if global then Step(Ok(GlobalConfigPath(env.home)), [])
    else
      var r := Repo.RequireWillowRepo(env);
      if r.result.Err? then Step(Err(NotWillowRepoUseGlobal), r.trace)
      else Step(Ok(LocalConfigPath(r.result.value)), r.trace)
  }

  /** `config set`: the file's configuration (or an empty one) with one
      field changed, saved back; nothing is saved when the key or the value
      is rejected. */
  function ConfigSet(env: Env, key: string, value: string, global: bool): (s: Step<Config>)
    ensures !IsValidKey(key) ==> s == Step(Err(UnknownKey(key)), [])
    ensures IsValidKey(key) && TargetPath(env, global).result.Err? ==> s == Step(Err(NotWillowRepoUseGlobal), TargetPath(env, global).trace)
    ensures (s.result.Ok? ==>
      var path := TargetPath(env, global).result.value;
      && TargetPath(env, global).result.Ok?
      && SetFieldValue(LoadFile(env.files, path).GetOr(Empty), key, value) == Ok(s.result.value)
      && s.trace == TargetPath(env, global).trace + [SaveConfig(path, s.result.value)])
    ensures ((forall c :: SetFieldValue(c, key, value).Err?) ==> forall i :: 0 <= i < |s.trace| ==> !s.trace[i].SaveConfig?)
    ensures (IsValidKey(key) && TargetPath(env, global).result.Ok? ==>
      var path := TargetPath(env, global).result.value;
      var updated := SetFieldValue(LoadFile(env.files, path).GetOr(Empty), key, value);
      && (updated.Err? ==> s == Step(Err(updated.error), TargetPath(env, global).trace))
      && (updated.Ok? ==> s.trace == TargetPath(env, global).trace + [SaveConfig(path, updated.value)])
      && (updated.Ok? ==> (s.result.Ok? <==> env.reply(SaveConfig(path, updated.value)).ok))
      && (updated.Ok? && s.result.Err? ==> s.result.error == Context("failed to save config", IoFailed(path))))
  {
    if !IsValidKey(key) then Step(Err(UnknownKey(key)), [])
    else
      var t := TargetPath(env, global);
      if t.result.Err? then Step(Err(t.result.error), t.trace)
      else
        var u := SetAt(env, t.result.value, key, value);
        Step(u.result, t.trace + u.trace)
  }

  /** The part of `config set` after the target is known: the file's
      configuration, or an empty one when it does not load, with the field
      set, saved back; a rejected value saves nothing. */
  function SetAt(env: Env, path: string, key: string, value: string): (s: Step<Config>)
    ensures (var updated := SetFieldValue(LoadFile(env.files, path).GetOr(Empty), key, value);
      && (updated.Err? ==> s == Step(Err(updated.error), []))
      && (updated.Ok? ==> s.trace == [SaveConfig(path, updated.value)])
      && (updated.Ok? ==> (s.result.Ok? <==> env.reply(SaveConfig(path, updated.value)).ok))
      && (s.result.Ok? ==> s.result == updated)
      && (updated.Ok? && s.result.Err? ==> s.result.error == Context("failed to save config", IoFailed(path))))
  {
    match SetFieldValue(LoadFile(env.files, path).GetOr(Empty), key, value)
    case Err(e) => Step(Err(e), [])
    case Ok(updated) =>
      var call := SaveConfig(path, updated);
      if env.reply(call).ok then Step(Ok(updated), [call])
      else Step(Err(Context("failed to save config", IoFailed(path))), [call])
  }

  /** After a local `config set` of a merged field to a value that sets it,
      `config get` in the same repository prints that value: the local tier
      is consulted last. */
  lemma LocalSetIsVisible(env: Env, key: string, value: string)
    requires ConfigSet(env, key, value, false).result.Ok?
    requires Merged(KeyField(key).value) && Sets(ConfigSet(env, key, value, false).result.value, KeyField(key).value)
    ensures (var saved := ConfigSet(env, key, value, false).result.value;
      var after := env.(files := env.files[TargetPath(env, false).result.value := saved]);
      ConfigGet(after, key).result == Ok(GetFieldValue(saved, key).0))
  {
    var saved := ConfigSet(env, key, value, false).result.value;
    var bareDir := Repo.RequireWillowRepo(env).result.value;
    assert TargetPath(env, false).result.value == LocalConfigPath(bareDir);
    GetAfterLocalWrite(env, bareDir, saved, key);
  }

  lemma GetAfterLocalWrite(env: Env, bareDir: string, saved: Config, key: string)
    requires Git.BareRepoDir(env, "").result == Ok(bareDir)
    requires KeyField(key).Some? && Merged(KeyField(key).value) && Sets(saved, KeyField(key).value)
    ensures ConfigGet(env.(files := env.files[LocalConfigPath(bareDir) := saved]), key).result == Ok(GetFieldValue(saved, key).0)
  {
    var after := env.(files := env.files[LocalConfigPath(bareDir) := saved]);
    assert Git.BareRepoDir(after, "") == Git.BareRepoDir(env, "");
    var root := Lookup(after).result.value.1;
    assert Lookup(after).result.value.0 == bareDir;
    LastTierWins(env.home, after.files, bareDir, root, KeyField(key).value);
    var cfg := Load(after.home, after.files, bareDir, root);
    PrintedValue(cfg, key);
    PrintedValue(saved, key);
  }

  /** A local file that sets a merged field decides it. */
  lemma LastTierWins(home: string, files: map<string, Config>, bareDir: string, root: string, f: Field)
    requires bareDir != "" && LocalConfigPath(bareDir) in files
    requires Merged(f) && Sets(files[LocalConfigPath(bareDir)], f)
    ensures Get(Load(home, files, bareDir, root), f) == Get(files[LocalConfigPath(bareDir)], f)
  {
    var saved := files[LocalConfigPath(bareDir)];
    var g := LoadFile(files, GlobalConfigPath(home));
    var sh := if root != "" then LoadFile(files, SharedConfigPath(root)) else None;
    var front := (if g.Some? then [g.value] else []) + (if sh.Some? then [sh.value] else []);
    assert LoadedTiers(home, files, bareDir, root) == front + [saved];
    MergeAllAppend(DefaultConfig(), front, [saved]);
    assert MergeAll(MergeAll(DefaultConfig(), front), [saved]) == Merge(MergeAll(DefaultConfig(), front), saved) by {
      assert [saved][1..] == [];
    }
  }

  /** `config --edit`: create the target file with an empty configuration
      when it does not exist, then open it in $EDITOR (vi when unset). */
  function ConfigEdit(env: Env, editor: string, global: bool): (s: Step<string>)
    ensures TargetPath(env, global).result.Err? ==> s == TargetPath(env, global)
    ensures s.result.Ok? ==> TargetPath(env, global).result == s.result
    ensures s.result.Ok? ==> |s.trace| >= 1 && s.trace[|s.trace| - 1] == Exec("", [EditorName(editor), s.result.value])
    ensures TargetPath(env, global).result.Ok? && TargetPath(env, global).result.value in env.stat ==>
      s.trace == TargetPath(env, global).trace + [Exec("", [EditorName(editor), TargetPath(env, global).result.value])]
    ensures (TargetPath(env, global).result.Ok? ==>
      var path := TargetPath(env, global).result.value;
      && s.trace == TargetPath(env, global).trace + EditCalls(env, editor, path)
      && (s.result.Ok? <==> EditSucceeds(env, editor, path)))
  {
    var t := TargetPath(env, global);
    if t.result.Err? then t
    else
      var e := EditAt(env, editor, t.result.value);
      Step(e.result, t.trace + e.trace)
  }

  /** The calls of an edit of `path`: the creation of a missing file with an
      empty configuration, then, unless that failed, the editor. */
  function EditCalls(env: Env, editor: string, path: string): seq<Call>
  {
    var run := Exec("", [EditorName(editor), path]);
    if path in env.stat then [run]
    else [SaveConfig(path, Empty)] + (if env.reply(SaveConfig(path, Empty)).ok then [run] else [])
  }

  /** An edit succeeds when the file exists or is created, and the editor
      exits cleanly. */
  predicate EditSucceeds(env: Env, editor: string, path: string)
  {
    && (path in env.stat || env.reply(SaveConfig(path, Empty)).ok)
    && env.reply(Exec("", [EditorName(editor), path])).ok
  }

  /** The part of `config --edit` after the target is known: create the file
      when missing, then run the editor on it. */
  function EditAt(env: Env, editor: string, path: string): (s: Step<string>)
    ensures s.result.Ok? ==> s.result.value == path
    ensures |s.trace| >= 1
    ensures s.result.Ok? ==> s.trace[|s.trace| - 1] == Exec("", [EditorName(editor), path])
    ensures path in env.stat ==> s.trace == [Exec("", [EditorName(editor), path])]
    ensures (path !in env.stat ==>
      s.trace == [SaveConfig(path, Empty)] + (if env.reply(SaveConfig(path, Empty)).ok then [Exec("", [EditorName(editor), path])] else []))
    ensures path !in env.stat && !env.reply(SaveConfig(path, Empty)).ok ==> s.result == Err(Context("failed to create config", IoFailed(path)))
    ensures (s.result.Ok? <==> (path in env.stat || env.reply(SaveConfig(path, Empty)).ok) && env.reply(Exec("", [EditorName(editor), path])).ok)
    ensures ((path in env.stat || env.reply(SaveConfig(path, Empty)).ok) && s.result.Err? ==>
      s.result.error == ExecFailed("", [EditorName(editor), path]))
    ensures s.trace == EditCalls(env, editor, path)
    ensures s.result.Ok? <==> EditSucceeds(env, editor, path)
  {
    var argv := [EditorName(editor), path];
    if path !in env.stat && !env.reply(SaveConfig(path, Empty)).ok then
      Step(Err(Context("failed to create config", IoFailed(path))), [SaveConfig(path, Empty)])
    else
      var trace := (if path in env.stat then [] else [SaveConfig(path, Empty)]) + [Exec("", argv)];
      Step(if env.reply(Exec("", argv)).ok then Ok(path) else Err(ExecFailed("", argv)), trace)
  }

  /** $EDITOR, or vi when it is unset. */
  function EditorName(editor: string): (e: string)
    ensures e != ""
    ensures editor != "" ==> e == editor
  {
    if editor == "" then "vi" else editor
  }

  /** What `ww config` does with its flags and arguments. */
  datatype ConfigAction = ListAction | EditAction | GetAction(key: string) | SetAction(key: string, value: string)

  /** --list wins over --edit; without a key the values are listed; a value
      makes it a set, otherwise a get. */
  function Dispatch(list: bool, edit: bool, key: string, value: string): (a: ConfigAction)
    ensures a.EditAction? <==> !list && edit
    ensures a.SetAction? <==> !list && !edit && key != "" && value != ""
    ensures a.GetAction? <==> !list && !edit && key != "" && value == ""
    ensures a.GetAction? || a.SetAction? ==> a.key == key
    ensures a.SetAction? ==> a.value == value
  {
    if list then ListAction
    else if edit then EditAction
    else if key == "" then ListAction
    else if value != "" then SetAction(key, value)
    else GetAction(key)
  }
}

=== FILE: filepath.dfy ===
/** path/filepath.Clean on Unix: the shortest path naming the same file by
    purely lexical processing of its '/'-separated elements. */
module FilePath {
  import opened Outcomes
  import opened GoStrings

  /** An element Clean keeps: not empty, not ".", no separator, and no ".."
      inside a rooted path. */
  predicate Kept(e: string, rooted: bool)
  {
    e != "" && e != "." && '/' !in e && (rooted ==> e != "..")
  }

  /** The elements Clean leaves: each one kept, and in a relative path the
      ".." elements that could not be cancelled all come first. */
  predicate CleanElems(st: seq<string>, rooted: bool)
  {
    && (forall i :: 0 <= i < |st| ==> Kept(st[i], rooted))
    && (forall i, j :: 0 <= i < j < |st| && st[j] == ".." ==> st[i] == "..")
  }

  /** One element, read left to right: "" and "." vanish, ".." cancels the
      element before it (or vanishes at the root, or stays when there is
      nothing to cancel), any other name is kept. */
  function Push(st: seq<string>, e: string, rooted: bool): (r: seq<string>)
    requires CleanElems(st, rooted) && '/' !in e
    ensures CleanElems(r, rooted)
  {
    if e == "" || e == "." then st
    else if e == ".." then
      if |st| > 0 && st[|st| - 1] != ".." then st[..|st| - 1]
      else if rooted then st
      else st + [".."]
    else st + [e]
  }

  /** All elements, in order. */
  function Elems(es: seq<string>, rooted: bool): (st: seq<string>)
    requires forall i :: 0 <= i < |es| ==> '/' !in es[i]
    ensures CleanElems(st, rooted)
  {
    if |es| == 0 then [] else Push(Elems(es[..|es| - 1], rooted), es[|es| - 1], rooted)
  }

  /** A path Clean leaves unchanged: ".", "/", or the separator-joined
      clean elements, after a leading '/' for a rooted path. */
  predicate IsClean(r: string)
  {
    || r == "."
    || r == "/"
    || (HasPrefix(r, "/") && |r| > 1 && CleanElems(Split(r[1..], '/'), true))
    || (!HasPrefix(r, "/") && r != "" && CleanElems(Split(r, '/'), false))
  }

  /** filepath.Clean: "." for the empty path; a rooted path stays rooted. */
  function Clean(p: string): (r: string)
    ensures r != ""
    ensures HasPrefix(r, "/") <==> HasPrefix(p, "/")
    ensures IsClean(r)
    ensures IsClean(p) ==> r == p
  {
    if p == "" then
      assert "."[..1][0] != "/"[0];
      "."
    else
      var rooted := p[0] == '/';
      var st := Elems(Split(p, '/'), rooted);
      var out := Join(st, "/");
      CleanOutput(st, rooted);
      CleanOfClean(p);
      if rooted then "/" + out else if out == "" then "." else out
  }

  /** The output of Clean for the elements it keeps is clean. */
  lemma CleanOutput(st: seq<string>, rooted: bool)
    requires CleanElems(st, rooted)
    ensures (var out := Join(st, "/");
      && (st == [] <==> out == "")
      && (rooted && out != "" ==> IsClean("/" + out))
      && (!rooted && out != "" ==> IsClean(out) && !HasPrefix(out, "/")))
  {
    if st != [] {
      var out := Join(st, "/");
      JoinHead(st);
      SplitJoin(st, '/');
      if rooted {
        assert ("/" + out)[1..] == out;
      }
    }
  }

  /** A join of elements starts with the first element. */
  lemma JoinHead(st: seq<string>)
    requires |st| > 0 && st[0] != ""
    ensures Join(st, "/") != "" && Join(st, "/")[0] == st[0][0]
  {
  }

  /** A clean path is its own cleaning. */
  lemma CleanOfClean(p: string)
    requires p != ""
    ensures (var rooted := p[0] == '/';
      var out := Join(Elems(Split(p, '/'), rooted), "/");
      IsClean(p) ==> p == if rooted then "/" + out else if out == "" then "." else out)
  {
    var rooted := p[0] == '/';
    if !IsClean(p) {
    } else if p == "." {
      assert Split(p, '/') == ["."];
      assert Elems(["."], rooted) == Push([], ".", rooted);
    } else if p == "/" {
      SplitRooted("");
      assert Split(p, '/') == ["", ""];
      assert Elems(["", ""], true) == Push(Elems([""], true), "", true);
    } else if rooted {
      var b := p[1..];
      assert p == "/" + b;
      SplitRooted(b);
      ElemsAfterRoot(Split(b, '/'), true);
      ElemsOfClean(Split(b, '/'), true);
    } else {
      ElemsOfClean(Split(p, '/'), false);
    }
  }

  /** A rooted path splits into an empty first element and the rest. */
  lemma SplitRooted(b: string)
    ensures Split("/" + b, '/') == [""] + Split(b, '/')
  {
    var p := "/" + b;
    assert IndexOf(p, '/') == Some(0);
    assert p[1..] == b;
  }

  /** The empty element before the root adds nothing. */
  lemma {:induction false} ElemsAfterRoot(es: seq<string>, rooted: bool)
    requires forall i :: 0 <= i < |es| ==> '/' !in es[i]
    ensures (forall i :: 0 <= i < |[""] + es| ==> '/' !in ([""] + es)[i])
    ensures Elems([""] + es, rooted) == Elems(es, rooted)
    decreases |es|
  {
    var xs := [""] + es;
    if |es| > 0 {
      assert xs[..|xs| - 1] == [""] + es[..|es| - 1];
      ElemsAfterRoot(es[..|es| - 1], rooted);
    } else {
      assert xs[..0] == [];
    }
  }

  /** Clean elements come out of Elems unchanged. */
  lemma {:induction false} ElemsOfClean(st: seq<string>, rooted: bool)
    requires CleanElems(st, rooted)
    ensures Elems(st, rooted) == st
    decreases |st|
  {
    if |st| > 0 {
      var init := st[..|st| - 1];
      var e := st[|st| - 1];
      assert CleanElems(init, rooted);
      ElemsOfClean(init, rooted);
      if e == ".." {
        assert init == [] || init[|init| - 1] == "..";
      }
      assert init + [e] == st;
    }
  }

  /** Cleaning twice is cleaning once. */
  lemma CleanIdempotent(p: string)
    ensures Clean(Clean(p)) == Clean(p)
  {
  }

  /** The working directory with "/." after it is the working directory. */
  lemma CleanDotChild(dir: string)
    requires IsClean(dir) && HasPrefix(dir, "/")
    ensures Clean(dir + "/.") == dir
  {
    SplitDotChild(dir);
    ElemsOfDot(Split(dir, '/'), true);
    CleanBySplit(dir + "/.", dir);
  }

  lemma SplitDotChild(dir: string)
    ensures Split(dir + "/.", '/') == Split(dir, '/') + ["."]
  {
    assert dir + "/." == dir + ['/'] + ".";
    SplitConcat(dir, ".", '/');
    assert Split(".", '/') == ["."];
  }

  /** A trailing "." element adds nothing. */
  lemma ElemsOfDot(es: seq<string>, rooted: bool)
    requires forall i :: 0 <= i < |es| ==> '/' !in es[i]
    ensures (forall i :: 0 <= i < |es + ["."]| ==> '/' !in (es + ["."])[i])
    ensures Elems(es + ["."], rooted) == Elems(es, rooted)
  {
    assert (es + ["."])[..|es|] == es;
  }

  /** Two paths with the same root and the same kept elements clean alike. */
  lemma CleanBySplit(p: string, q: string)
    requires p != "" && q != "" && p[0] == q[0]
    requires Elems(Split(p, '/'), p[0] == '/') == Elems(Split(q, '/'), q[0] == '/')
    ensures Clean(p) == Clean(q)
  {
  }
}

=== FILE: git.dfy ===
/** internal/git/git.go: how willow reads the answers of the git binary. */
module Git {
  import opened Outcomes
  import opened GoStrings
  import opened Backend
  import opened FilePath

  /** Git.Run: one call; on success the output with surrounding white space
      trimmed, on failure an error carrying the arguments and raw output
      (a caller that drops the error sees ""). */
  function Run(env: Env, dir: string, args: seq<string>): (s: Step<string>)
    ensures s.trace == [GitCmd(dir, args)]
    ensures s.result.Ok? <==> env.reply(GitCmd(dir, args)).ok
    ensures s.result.Ok? ==> IsTrimmed(s.result.value) && |s.result.value| <= |env.reply(GitCmd(dir, args)).output|
    ensures s.result.Ok? && IsTrimmed(env.reply(GitCmd(dir, args)).output) ==> s.result.value == env.reply(GitCmd(dir, args)).output
    ensures s.result.Ok? ==> s.result.value == TrimSpace(env.reply(GitCmd(dir, args)).output)
    ensures s.result.Err? ==> s.result.error == GitFailed(args, env.reply(GitCmd(dir, args)).output)
    ensures s.result.ValueOr("") == "" <==> s.result.Err? || AllSpace(env.reply(GitCmd(dir, args)).output)
  {
    var reply := env.reply(GitCmd(dir, args));
    Step(if reply.ok then Ok(TrimSpace(reply.output)) else Err(GitFailed(args, reply.output)), [GitCmd(dir, args)])
  }

  /** filepath.Abs: an absolute path cleaned, a relative one joined to the
      working directory (filepath.Join cleans the result too). */
  function Abs(env: Env, p: string): (r: string)
    ensures r != "" && IsClean(r)
    ensures HasPrefix(p, "/") && IsClean(p) ==> r == p
    ensures HasPrefix(p, "/") ==> r == Clean(p)
    ensures !HasPrefix(p, "/") ==> r == Clean(env.cwd + "/" + p)
    ensures HasPrefix(p, "/") || HasPrefix(env.cwd, "/") ==> HasPrefix(r, "/")
  {
    if HasPrefix(p, "/") then Clean(p) else Clean(env.cwd + "/" + p)
  }

  /** Inside the bare repository git names the common directory ".", which
      Abs turns into the working directory itself. */
  lemma AbsOfDot(env: Env)
    requires IsClean(env.cwd) && HasPrefix(env.cwd, "/")
    ensures Abs(env, ".") == env.cwd
  {
    assert !HasPrefix(".", "/") by {
      assert "."[..1][0] != "/"[0];
    }
    assert env.cwd + "/" + "." == env.cwd + "/.";
    CleanDotChild(env.cwd);
  }

  /** Git.BareRepoDir: the absolute common git directory; any git failure
      becomes "not inside a git repository". */
  function BareRepoDir(env: Env, dir: string): (s: Step<string>)
    ensures s.trace == [GitCmd(dir, ["rev-parse", "--git-common-dir"])]
    ensures s.result.Err? <==> !env.reply(GitCmd(dir, ["rev-parse", "--git-common-dir"])).ok
    ensures s.result.Err? ==> s.result.error == NotInRepository
    ensures s.result.Ok? ==> s.result.value != ""
    ensures s.result.Ok? && HasPrefix(env.cwd, "/") ==> HasPrefix(s.result.value, "/")
    ensures s.result.Ok? ==> s.result.value == Abs(env, TrimSpace(env.reply(GitCmd(dir, ["rev-parse", "--git-common-dir"])).output))
  {
    var r := Run(env, dir, ["rev-parse", "--git-common-dir"]);
    Step(if r.result.Ok? then Ok(Abs(env, r.result.value)) else Err(NotInRepository), r.trace)
  }

  /** Git.WorktreeRoot: the top of the current worktree; any git failure
      becomes "not inside a git worktree". */
  function WorktreeRoot(env: Env, dir: string): (s: Step<string>)
    ensures s.trace == [GitCmd(dir, ["rev-parse", "--show-toplevel"])]
    ensures s.result.Err? <==> !env.reply(GitCmd(dir, ["rev-parse", "--show-toplevel"])).ok
    ensures s.result.Err? ==> s.result.error == NotInWorktree
    ensures s.result.Ok? ==> s.result.value == TrimSpace(env.reply(GitCmd(dir, ["rev-parse", "--show-toplevel"])).output)
  {
    var r := Run(env, dir, ["rev-parse", "--show-toplevel"]);
    Step(if r.result.Ok? then r.result else Err(NotInWorktree), r.trace)
  }

  /** Git.DefaultBranch: the symbolic ref of HEAD with one leading
      "refs/heads/" removed; other refs come back unchanged, and a git
      failure is passed on. */
  function DefaultBranch(env: Env, dir: string): (s: Step<string>)
    ensures s.trace == [GitCmd(dir, ["symbolic-ref", "HEAD"])]
    ensures (var ref := Run(env, dir, ["symbolic-ref", "HEAD"]).result;
      && (ref.Err? ==> s.result == ref)
      && (ref.Ok? && HasPrefix(ref.value, "refs/heads/") ==> s.result.Ok? && "refs/heads/" + s.result.value == ref.value)
      && (ref.Ok? && !HasPrefix(ref.value, "refs/heads/") ==> s.result == ref))
  {
    var r := Run(env, dir, ["symbolic-ref", "HEAD"]);
    Step(if r.result.Ok? then Ok(TrimPrefix(r.result.value, "refs/heads/")) else r.result, r.trace)
  }

  /** Git.IsDirty: dirty exactly when `status --porcelain` prints anything
      besides white space. */
  function IsDirty(env: Env, dir: string): (s: Step<bool>)
    ensures s.trace == [GitCmd(dir, ["status", "--porcelain"])]
    ensures s.result.Err? <==> !env.reply(GitCmd(dir, ["status", "--porcelain"])).ok
    ensures s.result.Ok? ==> (s.result.value <==> !AllSpace(env.reply(GitCmd(dir, ["status", "--porcelain"])).output))
  {
    var r := Run(env, dir, ["status", "--porcelain"]);
    Step(if r.result.Ok? then Ok(r.result.value != "") else Err(r.result.error), r.trace)
  }

  /** The count of commits not yet pushed to the upstream branch. */
  const UnpushedArgs: seq<string> := ["rev-list", "--count", "@{upstream}..HEAD"]

  /** Git.HasUnpushedCommits: never fails; with no upstream (the count query
      fails) the answer is yes, otherwise yes unless the count is "0". */
  function HasUnpushedCommits(env: Env, dir: string): (s: Step<bool>)
    ensures s.trace == [GitCmd(dir, UnpushedArgs)]
    ensures s.result.Ok?
    ensures !env.reply(GitCmd(dir, UnpushedArgs)).ok ==> s.result.value
    ensures env.reply(GitCmd(dir, UnpushedArgs)).ok ==>
      (s.result.value <==> TrimSpace(env.reply(GitCmd(dir, UnpushedArgs)).output) != "0")
  {
    var r := Run(env, dir, UnpushedArgs);
    Step(if r.result.Ok? then Ok(TrimSpace(r.result.value) != "0") else Ok(true), r.trace)
  }
}

=== FILE: gostrings.dfy ===
/** The pieces of Go's `strings` and `path` packages that willow relies on,
    over Dafny strings (sequences of Unicode scalar values). */
module GoStrings {
  import opened Outcomes

  /** unicode.IsSpace: the Latin-1 spaces plus the other White_Space code points. */
  predicate IsSpace(c: char)
  {
    || c == ' ' || c == '\t' || c == '\n' || c == '\r' || c == '\U{000B}' || c == '\U{000C}'
    || c == '\U{0085}' || c == '\U{00A0}' || c == '\U{1680}'
    || ('\U{2000}' <= c <= '\U{200A}')
    || c == '\U{2028}' || c == '\U{2029}' || c == '\U{202F}' || c == '\U{205F}' || c == '\U{3000}'
  }

  predicate AllSpace(s: string)
  {
    forall i :: 0 <= i < |s| ==> IsSpace(s[i])
  }

  /** Every character of `s` at a position in [lo, hi) is white space. */
  predicate SpaceBetween(s: string, lo: int, hi: int)
  {
    forall i :: lo <= i < hi && 0 <= i < |s| ==> IsSpace(s[i])
  }

  /** A string that strings.TrimSpace leaves as it is. */
  predicate IsTrimmed(s: string)
  {
    s == [] || (!IsSpace(s[0]) && !IsSpace(s[|s| - 1]))
  }

  /** Drops the leading white space: what is left is a suffix of `s`, and
      everything cut off was white space. */
  function TrimLeft(s: string): (r: string)
    ensures |r| <= |s| && r == s[|s| - |r|..]
    ensures SpaceBetween(s, 0, |s| - |r|)
    ensures r == [] || !IsSpace(r[0])
  {
    if |s| > 0 && IsSpace(s[0]) then TrimLeft(s[1..]) else s
  }

  /** Drops the trailing white space: what is left is a prefix of `s`, and
      everything cut off was white space. */
  function TrimRight(s: string): (r: string)
    ensures |r| <= |s| && r == s[..|r|]
    ensures SpaceBetween(s, |r|, |s|)
    ensures r == [] || !IsSpace(r[|r| - 1])
  {
    if |s| > 0 && IsSpace(s[|s| - 1]) then TrimRight(s[..|s| - 1]) else s
  }

  /** `r` is `s` with its surrounding white space removed: the slice of `s`
      that starts after the leading white space, with only white space
      before and after it. */
  predicate SpaceAround(s: string, r: string)
  {
    var k := |s| - |TrimLeft(s)|;
    && k + |r| <= |s| && r == s[k..k + |r|]
    && SpaceBetween(s, 0, k) && SpaceBetween(s, k + |r|, |s|)
  }

  /** strings.TrimSpace. */
  function TrimSpace(s: string): (r: string)
    ensures IsTrimmed(r)
    ensures |r| <= |s|
    ensures r == [] <==> AllSpace(s)
    ensures IsTrimmed(s) ==> r == s
  {
    TrimBothEmpty(s);
    TrimBothOfTrimmed(s);
    TrimRight(TrimLeft(s))
  }

  /** Trimming both ends leaves a slice of `s` with only white space around it. */
  lemma TrimBothSlice(s: string)
    ensures SpaceAround(s, TrimRight(TrimLeft(s)))
  {
    var l := TrimLeft(s);
    SliceOfSuffix(s, |s| - |l|, l, TrimRight(l));
  }

  /** A prefix `r` of the suffix `l` of `s` that starts at k is the slice
      s[k..k + |r|], and what follows it in `l` is what follows it in `s`. */
  lemma SliceOfSuffix(s: string, k: nat, l: string, r: string)
    requires k <= |s| && l == s[k..]
    requires |r| <= |l| && r == l[..|r|]
    requires SpaceBetween(l, |r|, |l|)
    ensures k + |r| <= |s| && r == s[k..k + |r|]
    ensures SpaceBetween(s, k + |r|, |s|)
  {
    forall i | k + |r| <= i < |s| ensures IsSpace(s[i]) {
      assert s[i] == l[i - k];
    }
  }

  /** Nothing is left exactly when everything was white space. */
  lemma TrimBothEmpty(s: string)
    ensures TrimRight(TrimLeft(s)) == [] <==> AllSpace(s)
  {
    var l := TrimLeft(s);
    var r := TrimRight(l);
    TrimBothSlice(s);
    assert r != [] ==> r[0] == l[0];
    AroundNothing(s, |s| - |l|, r);
  }

  /** With only white space around a slice that does not start with white
      space, the slice is empty exactly when the whole string is white space. */
  lemma AroundNothing(s: string, k: nat, r: string)
    requires k + |r| <= |s| && r == s[k..k + |r|]
    requires SpaceBetween(s, 0, k) && SpaceBetween(s, k + |r|, |s|)
    requires r == [] || !IsSpace(r[0])
    ensures r == [] <==> AllSpace(s)
  {
    if r != [] {
      assert s[k] == r[0];
    }
  }

  /** A trimmed string is its own trimming. */
  lemma TrimBothOfTrimmed(s: string)
    ensures IsTrimmed(s) ==> TrimRight(TrimLeft(s)) == s
  {
    if IsTrimmed(s) && s != [] {
      TrimLeftKeeps(s);
      TrimRightKeeps(s);
    }
  }

  lemma TrimLeftKeeps(s: string)
    requires s != [] && !IsSpace(s[0])
    ensures TrimLeft(s) == s
  {
  }

  lemma TrimRightKeeps(s: string)
    requires s != [] && !IsSpace(s[|s| - 1])
    ensures TrimRight(s) == s
  {
  }

  /** TrimSpace only removes characters. */
  /** TrimSpace removes white space from both ends and nothing else: its
      result is a slice of `s` with only white space before and after it. */
  lemma TrimSpaceAround(s: string)
    ensures SpaceAround(s, TrimSpace(s))
  {
    TrimBothSlice(s);
  }

  lemma TrimSpaceKeeps(s: string, x: char)
    requires x in TrimSpace(s)
    ensures x in s
  {
    var r := TrimSpace(s);
    TrimSpaceAround(s);
    var k := |s| - |TrimLeft(s)|;
    var j :| 0 <= j < |r| && r[j] == x;
    assert s[k + j] == r[j];
  }

  /** Padding a trimmed word with white space does not survive TrimSpace. */
  lemma {:induction false} TrimSpaceOfPadded(lead: string, w: string)
    requires AllSpace(lead) && IsTrimmed(w) && w != []
    ensures TrimSpace(lead + w) == w
  {
    if lead == [] {
      assert lead + w == w;
    } else {
      assert (lead + w)[1..] == lead[1..] + w;
      TrimSpaceOfPadded(lead[1..], w);
      assert TrimLeft(lead + w) == TrimLeft(lead[1..] + w);
    }
  }

  predicate HasPrefix(s: string, p: string)
  {
    |p| <= |s| && s[..|p|] == p
  }

  predicate HasSuffix(s: string, p: string)
  {
    |p| <= |s| && s[|s| - |p|..] == p
  }

  /** strings.TrimPrefix: removes `p` once, when `s` starts with it. */
  function TrimPrefix(s: string, p: string): (r: string)
    ensures HasPrefix(s, p) ==> p + r == s
    ensures !HasPrefix(s, p) ==> r == s
  {
    if HasPrefix(s, p) then s[|p|..] else s
  }

  /** strings.TrimSuffix: removes `p` once, when `s` ends with it. */
  function TrimSuffix(s: string, p: string): (r: string)
    ensures HasSuffix(s, p) ==> r + p == s
    ensures !HasSuffix(s, p) ==> r == s
  {
    if HasSuffix(s, p) then s[..|s| - |p|] else s
  }

  /** strings.Contains. */
  predicate Contains(s: string, sub: string)
    decreases |s|
  {
    HasPrefix(s, sub) || (|s| > 0 && Contains(s[1..], sub))
  }

  /** strings.Index for a one-character needle. */
  function IndexOf(s: string, c: char): (r: Option<nat>)
    ensures r.None? <==> c !in s
    ensures r.Some? ==> r.value < |s| && s[r.value] == c && c !in s[..r.value]
  {
    if |s| == 0 then None
    else if s[0] == c then Some(0)
    else
      match IndexOf(s[1..], c)
      case None => None
      case Some(i) =>
        assert s[..i + 1] == [s[0]] + s[1..][..i];
        Some(i + 1)
  }

  /** strings.LastIndex for a one-character needle. */
  function LastIndexOf(s: string, c: char): (r: Option<nat>)
    ensures r.None? <==> c !in s
    ensures r.Some? ==> r.value < |s| && s[r.value] == c && c !in s[r.value + 1..]
  {
    if |s| == 0 then None
    else if s[|s| - 1] == c then Some(|s| - 1)
    else
      var r := LastIndexOf(s[..|s| - 1], c);
      assert s == s[..|s| - 1] + [s[|s| - 1]];
      assert r.Some? ==> s[r.value + 1..] == s[..|s| - 1][r.value + 1..] + [s[|s| - 1]];
      r
  }

  /** The last `c` of `a + [c] + b` is the one after `a` when `b` has none. */
  lemma {:induction false} LastIndexBeforeSuffix(a: string, b: string, c: char)
    requires c !in b
    ensures LastIndexOf(a + [c] + b, c) == Some(|a|)
    decreases |b|
  {
    var s := a + [c] + b;
    if b != [] {
      assert s[..|s| - 1] == a + [c] + b[..|b| - 1];
      assert b[|b| - 1] in b;
      LastIndexBeforeSuffix(a, b[..|b| - 1], c);
    }
  }

  /** strings.Join. */
  function Join(xs: seq<string>, sep: string): string
  {
    if |xs| == 0 then ""
    else if |xs| == 1 then xs[0]
    else xs[0] + sep + Join(xs[1..], sep)
  }

  /** strings.Split with a one-character separator: the pieces contain no
      separator, and joining them back with it gives the input. */
  function Split(s: string, sep: char): (r: seq<string>)
    ensures |r| >= 1
    ensures (forall i :: 0 <= i < |r| ==> sep !in r[i])
    ensures Join(r, [sep]) == s
    decreases |s|
  {
    match IndexOf(s, sep)
    case None => [s]
    case Some(i) =>
      var rest := Split(s[i + 1..], sep);
      var r := [s[..i]] + rest;
      assert r[1..] == rest;
      assert s == s[..i] + [sep] + s[i + 1..];
      r
  }

  /** Splitting undoes joining, for pieces free of the separator. */
  lemma {:induction false} SplitJoin(xs: seq<string>, sep: char)
    requires |xs| >= 1
    requires (forall i :: 0 <= i < |xs| ==> sep !in xs[i])
    ensures Split(Join(xs, [sep]), sep) == xs
  {
    if |xs| == 1 {
      assert IndexOf(xs[0], sep).None?;
    } else {
      var s := Join(xs, [sep]);
      var tail := Join(xs[1..], [sep]);
      assert s == xs[0] + [sep] + tail;
      assert IndexOf(xs[0], sep).None?;
      SplitConcatFirst(xs[0], tail, sep);
      SplitNone(xs[0], sep);
      SplitJoin(xs[1..], sep);
      assert xs == [xs[0]] + xs[1..];
    }
  }

  /** Splitting at a separator splits the two sides independently. */
  lemma {:induction false} SplitConcat(a: string, b: string, sep: char)
    ensures Split(a + [sep] + b, sep) == Split(a, sep) + Split(b, sep)
    decreases |a|
  {
    var ia := IndexOf(a, sep);
    if ia.None? {
      SplitConcatFirst(a, b, sep);
    } else {
      var i := ia.value;
      SplitConcat(a[i + 1..], b, sep);
      SplitConcatLater(a, b, sep, i);
    }
  }

  /** The separator joining the two sides is the first one. */
  lemma SplitConcatFirst(a: string, b: string, sep: char)
    requires IndexOf(a, sep).None?
    ensures Split(a + [sep] + b, sep) == Split(a, sep) + Split(b, sep)
  {
    var s := a + [sep] + b;
    IndexAfterPrefix(a, b, sep);
    assert s[..|a|] == a;
    assert s[|a| + 1..] == b;
    SplitAt(s, sep, |a|, a, b);
    SplitNone(a, sep);
  }

  /** The first separator lies inside the left side. */
  lemma SplitConcatLater(a: string, b: string, sep: char, i: nat)
    requires IndexOf(a, sep) == Some(i)
    requires Split(a[i + 1..] + [sep] + b, sep) == Split(a[i + 1..], sep) + Split(b, sep)
    ensures Split(a + [sep] + b, sep) == Split(a, sep) + Split(b, sep)
  {
    var s := a + [sep] + b;
    var t := a[i + 1..] + [sep] + b;
    SlicesOfConcat(a, b, sep, i);
    FirstIndex(s, sep, i);
    SplitAt(s, sep, i, a[..i], t);
    SplitAt(a, sep, i, a[..i], a[i + 1..]);
    ConsAssoc(a[..i], Split(a[i + 1..], sep), Split(b, sep), Split(s, sep), Split(a, sep));
  }

  /** Concatenation regrouped, over opaque operands. */
  lemma AppendAssoc<T>(h: seq<T>, y: seq<T>, z: seq<T>, whole: seq<T>, left: seq<T>)
    requires whole == h + (y + z) && left == h + y
    ensures whole == left + z
  {
  }

  lemma ConsAssoc(h: string, y: seq<string>, z: seq<string>, whole: seq<string>, left: seq<string>)
    requires whole == [h] + (y + z) && left == [h] + y
    ensures whole == left + z
  {
  }

  lemma SlicesOfConcat(a: string, b: string, sep: char, i: nat)
    requires i < |a|
    ensures (a + [sep] + b)[..i] == a[..i]
    ensures (a + [sep] + b)[i + 1..] == a[i + 1..] + [sep] + b
  {
    DropConcat(a, [sep] + b, i + 1);
    assert a + [sep] + b == a + ([sep] + b);
    assert a[i + 1..] + [sep] + b == a[i + 1..] + ([sep] + b);
  }

  lemma DropConcat(a: string, c: string, k: nat)
    requires k <= |a|
    ensures (a + c)[k..] == a[k..] + c
  {
  }

  /** Split takes the piece before the first separator, then splits the rest. */
  lemma SplitAt(s: string, sep: char, i: nat, head: string, tail: string)
    requires IndexOf(s, sep) == Some(i)
    requires head == s[..i] && tail == s[i + 1..]
    ensures Split(s, sep) == [head] + Split(tail, sep)
  {
  }

  lemma SplitNone(s: string, sep: char)
    requires IndexOf(s, sep).None?
    ensures Split(s, sep) == [s]
  {
  }

  /** The first occurrence is the one with none before it. */
  lemma {:induction false} FirstIndex(s: string, c: char, i: nat)
    requires i < |s| && s[i] == c && c !in s[..i]
    ensures IndexOf(s, c) == Some(i)
    decreases i
  {
    if i > 0 {
      assert s[0] == s[..i][0];
      assert s[1..][..i - 1] == s[..i][1..];
      FirstIndex(s[1..], c, i - 1);
    }
  }

  lemma {:induction false} IndexAfterPrefix(a: string, b: string, c: char)
    requires c !in a
    ensures IndexOf(a + [c] + b, c) == Some(|a|)
  {
    if a != [] {
      assert (a + [c] + b)[1..] == a[1..] + [c] + b;
      IndexAfterPrefix(a[1..], b, c);
    }
  }

  /** strings.ReplaceAll(s, string(c), ""): every `c` removed, the rest kept in order. */
  function RemoveAll(s: string, c: char): (r: string)
    ensures c !in r
    ensures |r| <= |s|
    ensures (forall x :: x != c ==> multiset(r)[x] == multiset(s)[x])
    ensures c !in s ==> r == s
  {
    if |s| == 0 then ""
    else
      assert s == [s[0]] + s[1..];
      (if s[0] == c then "" else [s[0]]) + RemoveAll(s[1..], c)
  }

  /** RemoveAll works piece by piece: the kept characters stay in their
      order, those of `a` before those of `b`. */
  lemma {:induction false} RemoveAllAppend(a: string, b: string, c: char)
    ensures RemoveAll(a + b, c) == RemoveAll(a, c) + RemoveAll(b, c)
    decreases |a|
  {
    if a == [] {
      assert a + b == b;
    } else {
      var h := if a[0] == c then "" else [a[0]];
      assert RemoveAll(a + b, c) == h + RemoveAll(a[1..] + b, c) by {
        assert (a + b)[0] == a[0];
        assert (a + b)[1..] == a[1..] + b;
      }
      RemoveAllAppend(a[1..], b, c);
      AppendAssoc(h, RemoveAll(a[1..], c), RemoveAll(b, c), RemoveAll(a + b, c), RemoveAll(a, c));
    }
  }

  /** On one character RemoveAll drops it exactly when it is `c`. */
  lemma RemoveAllOne(x: char, c: char)
    ensures RemoveAll([x], c) == if x == c then [] else [x]
  {
    assert [x][1..] == [];
  }

  /** Drops the trailing '/' characters of a path. */
  function StripSlashes(p: string): (r: string)
    ensures |r| <= |p| && r == p[..|r|]
    ensures r == [] || r[|r| - 1] != '/'
    ensures (forall i :: |r| <= i < |p| ==> p[i] == '/')
  {
    if |p| > 0 && p[|p| - 1] == '/' then StripSlashes(p[..|p| - 1]) else p
  }

  /** path.Base (and filepath.Base on Unix): the last element of a path,
      ignoring trailing slashes; "." for the empty path, "/" for a path of
      slashes only. */
  function Base(p: string): (r: string)
    ensures r != []
    ensures r == "/" || '/' !in r
    ensures p == [] ==> r == "."
    ensures p != [] && '/' !in p ==> r == p
    ensures p != [] && r != "/" ==> HasSuffix(StripSlashes(p), r)
    ensures p != [] && r == "/" <==> p != [] && StripSlashes(p) == []
    ensures (p != [] && r != "/" && |r| < |StripSlashes(p)| ==>
      StripSlashes(p)[|StripSlashes(p)| - |r| - 1] == '/')
  {
    if p == [] then "."
    else
      var q := StripSlashes(p);
      if q == [] then "/"
      else
        match LastIndexOf(q, '/')
        case None => q
        case Some(i) => q[i + 1..]
  }

  /** The last element of `dir/w` is `w`, for a slash-free, non-empty `w`. */
  lemma BaseOfChild(dir: string, w: string)
    requires w != [] && '/' !in w
    ensures Base(dir + "/" + w) == w
  {
    var d := dir + "/" + w;
    assert d[|d| - 1] == w[|w| - 1];
    assert StripSlashes(d) == d;
    assert d[|dir|] == '/';
    assert d[|dir| + 1..] == w;
  }

  /** A string keeps its substrings when something is appended to it. */
  lemma {:induction false} ContainsAppend(a: string, b: string, sub: string)
    requires Contains(a, sub)
    ensures Contains(a + b, sub)
    decreases |a|
  {
    if HasPrefix(a, sub) {
      assert (a + b)[..|sub|] == a[..|sub|];
    } else {
      assert (a + b)[1..] == a[1..] + b;
      ContainsAppend(a[1..], b, sub);
    }
  }

  /** strings.ToLower on ASCII letters. */
  function ToLower(s: string): (r: string)
    ensures |r| == |s|
    ensures (forall i :: 0 <= i < |s| ==> r[i] == LowerChar(s[i]))
  {
    if |s| == 0 then "" else [LowerChar(s[0])] + ToLower(s[1..])
  }

  function LowerChar(c: char): char
  {
    if 'A' <= c <= 'Z' then (c as int + 32) as char else c
  }

  /** Number of bytes in the UTF-8 encoding of one code point. */
  function Utf8Width(c: char): nat
  {
    if c as int < 0x80 then 1
    else if c as int < 0x800 then 2
    else if c as int < 0x10000 then 3
    else 4
  }

  /** Go's len() of a string: its length in UTF-8 bytes. */
  function ByteLen(s: string): (n: nat)
    ensures |s| <= n <= 4 * |s|
  {
    if |s| == 0 then 0 else Utf8Width(s[0]) + ByteLen(s[1..])
  }
}

=== FILE: hooklists.dfy ===
/** Hook lists as `init` and `config set` read them: comma-separated
    commands (splitCommands of internal/cli/init.go). */
module HookLists {
  import opened Outcomes
  import opened GoStrings
  import opened Config
  import opened Backend
  import Git

  /** What a stored hook command looks like after splitCommands. */
  predicate IsCommand(c: string)
  {
    c != "" && IsTrimmed(c) && ',' !in c
  }

  /** The trimmed, non-empty pieces, in order. */
  function KeptCommands(parts: seq<string>): (r: seq<string>)
    requires (forall i :: 0 <= i < |parts| ==> ',' !in parts[i])
    ensures (forall i :: 0 <= i < |r| ==> IsCommand(r[i]))
    ensures |r| <= |parts|
    decreases |parts|
  {
    if |parts| == 0 then [] else KeptOne(parts[0]) + KeptCommands(parts[1..])
  }

  /** One piece: trimmed, or dropped when nothing is left of it. */
  function KeptOne(p: string): (r: seq<string>)
    requires ',' !in p
    ensures |r| <= 1 && forall i :: 0 <= i < |r| ==> IsCommand(r[i])
  {
    var c := TrimSpace(p);
    assert ',' !in c by {
      if ',' in c { TrimSpaceKeeps(p, ','); }
    }
    if c == "" then [] else [c]
  }

  /** A single piece is kept, trimmed, unless it is blank. */
  lemma KeptCommandsOne(p: string)
    requires ',' !in p
    ensures KeptCommands([p]) == if AllSpace(p) then [] else [TrimSpace(p)]
  {
    assert [p][1..] == [];
  }

  /** Pieces are kept or dropped one by one, in order. */
  lemma {:induction false} KeptCommandsAppend(xs: seq<string>, ys: seq<string>)
    requires (forall i :: 0 <= i < |xs| ==> ',' !in xs[i])
    requires (forall i :: 0 <= i < |ys| ==> ',' !in ys[i])
    ensures (forall i :: 0 <= i < |xs + ys| ==> ',' !in (xs + ys)[i])
    ensures KeptCommands(xs + ys) == KeptCommands(xs) + KeptCommands(ys)
    decreases |xs|
  {
    if |xs| == 0 {
      assert xs + ys == ys;
    } else {
      var h := KeptOne(xs[0]);
      assert KeptCommands(xs + ys) == h + KeptCommands(xs[1..] + ys) by {
        assert (xs + ys)[0] == xs[0];
        assert (xs + ys)[1..] == xs[1..] + ys;
      }
      KeptCommandsAppend(xs[1..], ys);
      AppendAssoc(h, KeptCommands(xs[1..]), KeptCommands(ys), KeptCommands(xs + ys), KeptCommands(xs));
    }
  }

  /** Every piece is white space only. */
  predicate AllBlank(parts: seq<string>)
  {
    forall i :: 0 <= i < |parts| ==> AllSpace(parts[i])
  }

  /** Nothing is kept exactly when every piece is blank. */
  lemma {:induction false} KeptNothing(parts: seq<string>)
    requires (forall i :: 0 <= i < |parts| ==> ',' !in parts[i])
    ensures KeptCommands(parts) == [] <==> AllBlank(parts)
    decreases |parts|
  {
    if |parts| > 0 {
      KeptNothing(parts[1..]);
      assert forall i :: 1 <= i < |parts| ==> parts[1..][i - 1] == parts[i];
      if AllSpace(parts[0]) {
        assert KeptCommands(parts) == KeptCommands(parts[1..]);
      } else {
        assert KeptCommands(parts) != [];
      }
    }
  }

  /** splitCommands: split at commas, trim, drop the empty pieces; a nil list
      (None) when nothing is left. */
  function SplitCommands(s: string): (r: Option<seq<string>>)
    ensures (r.Some? ==> |r.value| >= 1 && forall i :: 0 <= i < |r.value| ==> IsCommand(r.value[i]))
    ensures r.None? <==> AllBlank(Split(s, ','))
    ensures r.Some? ==> r.value == KeptCommands(Split(s, ','))
  {
    var cmds := KeptCommands(Split(s, ','));
    KeptNothing(Split(s, ','));
    if |cmds| == 0 then None else Some(cmds)
  }

  /** A blank list (the empty answer included) gives nil. */
  lemma SplitCommandsOfBlank(s: string)
    requires AllSpace(s)
    ensures SplitCommands(s) == None
  {
    assert Split(s, ',') == [s];
    assert TrimSpace(s) == [];
    assert KeptCommands([s]) == [] by {
      assert [s][1..] == [];
    }
  }

  /** Each item preceded by a space. */
  function Spaced(xs: seq<string>): (r: seq<string>)
    ensures |r| == |xs|
    ensures (forall i :: 0 <= i < |xs| ==> r[i] == " " + xs[i])
  {
    if |xs| == 0 then [] else [" " + xs[0]] + Spaced(xs[1..])
  }

  lemma Regroup(x: string, t: string)
    ensures " " + x + "," + (" " + t) == " " + (x + ", " + t)
  {
  }

  lemma Regroup2(x: string, t: string)
    ensures x + "," + (" " + t) == x + ", " + t
  {
  }

  lemma {:induction false} JoinSpaced(xs: seq<string>)
    requires |xs| >= 1
    ensures Join(Spaced(xs), ",") == " " + Join(xs, ", ")
    decreases |xs|
  {
    if |xs| > 1 {
      var ys := Spaced(xs);
      assert ys[1..] == Spaced(xs[1..]);
      calc {
        Join(ys, ",");
        ys[0] + "," + Join(ys[1..], ",");
        { JoinSpaced(xs[1..]); }
        " " + xs[0] + "," + (" " + Join(xs[1..], ", "));
        { Regroup(xs[0], Join(xs[1..], ", ")); }
        " " + (xs[0] + ", " + Join(xs[1..], ", "));
      }
    }
  }

  /** Joining with ", " is joining the space-padded items with ",". */
  lemma JoinAsPadded(xs: seq<string>)
    requires |xs| >= 1
    ensures Join(xs, ", ") == Join([xs[0]] + Spaced(xs[1..]), ",")
  {
    var ys := [xs[0]] + Spaced(xs[1..]);
    if |xs| > 1 {
      assert ys[1..] == Spaced(xs[1..]);
      calc {
        Join(ys, ",");
        ys[0] + "," + Join(ys[1..], ",");
        xs[0] + "," + Join(Spaced(xs[1..]), ",");
        { JoinSpaced(xs[1..]); }
        xs[0] + "," + (" " + Join(xs[1..], ", "));
        { Regroup2(xs[0], Join(xs[1..], ", ")); }
        xs[0] + ", " + Join(xs[1..], ", ");
        Join(xs, ", ");
      }
    }
  }

  /** Trimming the padded items gives the items back. */
  lemma {:induction false} CommandsOfSpaced(xs: seq<string>)
    requires (forall i :: 0 <= i < |xs| ==> IsCommand(xs[i]))
    ensures (forall i :: 0 <= i < |xs| ==> ',' !in Spaced(xs)[i])
    ensures KeptCommands(Spaced(xs)) == xs
    decreases |xs|
  {
    if |xs| > 0 {
      CommandsOfSpaced(xs[1..]);
      CommandsOfSpacedStep(xs);
    }
  }

  /** The inductive step of CommandsOfSpaced. */
  lemma CommandsOfSpacedStep(xs: seq<string>)
    requires |xs| > 0 && IsCommand(xs[0])
    requires (forall i :: 0 <= i < |xs| - 1 ==> ',' !in Spaced(xs[1..])[i])
    requires KeptCommands(Spaced(xs[1..])) == xs[1..]
    ensures (forall i :: 0 <= i < |xs| ==> ',' !in Spaced(xs)[i])
    ensures KeptCommands(Spaced(xs)) == xs
  {
    CommandsOfPaddedCons(xs[0], Spaced(xs[1..]));
    assert Spaced(xs) == [" " + xs[0]] + Spaced(xs[1..]);
    assert [xs[0]] + xs[1..] == xs;
  }

  /** A padded command in front trims back to the command. */
  lemma CommandsOfPaddedCons(x: string, rest: seq<string>)
    requires IsCommand(x)
    requires (forall i :: 0 <= i < |rest| ==> ',' !in rest[i])
    ensures (forall i :: 0 <= i < |rest| + 1 ==> ',' !in ([" " + x] + rest)[i])
    ensures KeptCommands([" " + x] + rest) == [x] + KeptCommands(rest)
  {
    PaddedConsHasNoCommas(x, rest);
    TrimPadded(x);
    var ps := [" " + x] + rest;
    assert ps[1..] == rest;
    CommandsCons(ps, x);
  }

  lemma PaddedConsHasNoCommas(x: string, rest: seq<string>)
    requires IsCommand(x)
    requires (forall i :: 0 <= i < |rest| ==> ',' !in rest[i])
    ensures (forall i :: 0 <= i < |rest| + 1 ==> ',' !in ([" " + x] + rest)[i])
  {
  }

  lemma TrimPadded(x: string)
    requires IsCommand(x)
    ensures TrimSpace(" " + x) == x
  {
    TrimSpaceOfPadded(" ", x);
  }

  /** One step of Commands, when the first piece trims to a command. */
  lemma CommandsCons(parts: seq<string>, c: string)
    requires |parts| > 0
    requires (forall i :: 0 <= i < |parts| ==> ',' !in parts[i])
    requires TrimSpace(parts[0]) == c && c != ""
    ensures KeptCommands(parts) == [c] + KeptCommands(parts[1..])
  {
  }

  lemma PaddedHasNoCommas(xs: seq<string>)
    requires |xs| >= 1
    requires (forall i :: 0 <= i < |xs| ==> IsCommand(xs[i]))
    ensures (forall i :: 0 <= i < |xs| ==> ',' !in ([xs[0]] + Spaced(xs[1..]))[i])
  {
    var ys := [xs[0]] + Spaced(xs[1..]);
    forall i | 0 <= i < |ys| ensures ',' !in ys[i] {
      if i > 0 {
        assert ys[i] == " " + xs[i];
        assert ',' !in xs[i];
      }
    }
  }

  lemma CommandsOfPadded(xs: seq<string>)
    requires |xs| >= 1
    requires (forall i :: 0 <= i < |xs| ==> IsCommand(xs[i]))
    ensures (forall i :: 0 <= i < |xs| ==> ',' !in ([xs[0]] + Spaced(xs[1..]))[i])
    ensures KeptCommands([xs[0]] + Spaced(xs[1..])) == xs
  {
    PaddedHasNoCommas(xs);
    var ys := [xs[0]] + Spaced(xs[1..]);
    CommandsOfSpaced(xs[1..]);
    assert ys[1..] == Spaced(xs[1..]);
    var c := TrimSpace(ys[0]);
    assert c == xs[0];
    assert KeptCommands(ys) == [c] + KeptCommands(ys[1..]);
    assert xs == [xs[0]] + xs[1..];
  }

  /** Reading back what `config get` and `init` print: splitting a list
      joined with ", " gives the list again, provided every item is a
      stored command. */
  lemma SplitCommandsOfJoin(xs: seq<string>)
    requires |xs| >= 1
    requires (forall i :: 0 <= i < |xs| ==> IsCommand(xs[i]))
    ensures SplitCommands(Join(xs, ", ")) == Some(xs)
  {
    var ys := [xs[0]] + Spaced(xs[1..]);
    JoinAsPadded(xs);
    CommandsOfPadded(xs);
    SplitJoin(ys, ',');
    assert Split(Join(xs, ", "), ',') == ys;
  }
}

=== FILE: initcmd.dfy ===
/** internal/cli/init.go: prompting with a default and writing a fresh
    configuration file for one tier. */
module InitCmd {
  import opened Outcomes
  import opened GoStrings
  import opened Config
  import opened Backend
  import opened HookLists
  import Git

  /** prompt: the trimmed answer, or the default when input has ended or the
      answer is blank. */
  function Prompt(line: Option<string>, default: string): (r: string)
    ensures line.Some? && !AllSpace(line.value) ==> r == TrimSpace(line.value) && r != ""
    ensures line.None? || AllSpace(line.value) ==> r == default
    ensures r == "" ==> default == ""
  {
    if line.Some? && TrimSpace(line.value) != "" then TrimSpace(line.value) else default
  }

  /** A hook list as splitCommands leaves it: present, non-empty, and
      every command trimmed, non-empty and free of commas. */
  predicate StoredList(cmds: Option<seq<string>>)
  {
    cmds.Some? && cmds.value != [] && forall i :: 0 <= i < |cmds.value| ==> IsCommand(cmds.value[i])
  }

  /** How a stored hook list is offered as the default answer; accepting
      the default gives the list back. */
  function ListDefault(cmds: Option<seq<string>>): (r: string)
    ensures cmds.None? || cmds.value == [] ==> r == ""
    ensures StoredList(cmds) ==> r != "" && SplitCommands(r) == cmds
  {
    if cmds.Some? && |cmds.value| > 0 then
      JoinedDefault(cmds.value);
      Join(cmds.value, ", ")
    else ""
  }

  lemma JoinedDefault(xs: seq<string>)
    requires |xs| > 0
    ensures StoredList(Some(xs)) ==> Join(xs, ", ") != "" && SplitCommands(Join(xs, ", ")) == Some(xs)
  {
    if StoredList(Some(xs)) {
      SplitCommandsOfJoin(xs);
      if |xs| > 1 {
        assert |Join(xs, ", ")| >= 2;
      }
    }
  }

  /** The hook list an answer stands for: none for an empty answer. */
  function ListAnswer(s: string): (r: Option<seq<string>>)
    ensures s == "" ==> r.None?
    ensures (r.Some? ==> forall i :: 0 <= i < |r.value| ==> IsCommand(r.value[i]))
  {
    if s != "" then SplitCommands(s) else None
  }

  datatype InitFlags = InitFlags(global: bool, shared: bool)

  /** The file `init` writes and the bare directory it detects the default
      branch from ("" with --global). */
  datatype Target = Target(path: string, bareDir: string)

  function InitTarget(env: Env, flags: InitFlags): (s: Step<Target>)
    ensures flags.global ==> s == Step(Ok(Target(GlobalConfigPath(env.home), "")), [])
    ensures !flags.global ==> |s.trace| >= 1 && s.trace[0] == GitCmd("", ["rev-parse", "--git-common-dir"])
    ensures !flags.global && Git.BareRepoDir(env, "").result.Err? ==> s.result == Err(NotWillowRepoUseGlobal)
    ensures !flags.global && s.result.Ok? ==> s.result.value.bareDir == Git.BareRepoDir(env, "").result.value
    ensures !flags.global && !flags.shared && s.result.Ok? ==> s.result.value.path == LocalConfigPath(s.result.value.bareDir)
    ensures !flags.global && flags.shared && s.result.Ok? ==>
      Git.WorktreeRoot(env, "").result.Ok? && s.result.value.path == SharedConfigPath(Git.WorktreeRoot(env, "").result.value)
    ensures !flags.global && flags.shared && Git.BareRepoDir(env, "").result.Ok? && Git.WorktreeRoot(env, "").result.Err? ==>
      s.result == Err(Context("not inside a worktree", NotInWorktree))
  {
    if flags.global then Step(Ok(Target(GlobalConfigPath(env.home), "")), [])
    else
      var b := Git.BareRepoDir(env, "");
      if b.result.Err? then Step(Err(NotWillowRepoUseGlobal), b.trace)
      else if flags.shared then
        var w := Git.WorktreeRoot(env, "");
        if w.result.Err? then Step(Err(Context("not inside a worktree", w.result.error)), b.trace + w.trace)
        else Step(Ok(Target(SharedConfigPath(w.result.value), b.result.value)), b.trace + w.trace)
      else Step(Ok(Target(LocalConfigPath(b.result.value), b.result.value)), b.trace)
  }

  /** The configuration `init` builds from the answers: a fresh one, so the
      defaults section and any other field of the existing file are dropped. */
  function Answers(env: Env, existing: Config, detected: string): (c: Config)
    ensures c.postCheckoutHook == "" && c.defaults == Defaults(None, None)
    ensures (Line(env, 0).None? || AllSpace(Line(env, 0).value) ==>
      c.baseBranch == if existing.baseBranch != "" then existing.baseBranch else detected)
    ensures Line(env, 1).None? || AllSpace(Line(env, 1).value) ==> c.branchPrefix == existing.branchPrefix
    ensures Line(env, 0).Some? && !AllSpace(Line(env, 0).value) ==> c.baseBranch == TrimSpace(Line(env, 0).value)
    ensures Line(env, 1).Some? && !AllSpace(Line(env, 1).value) ==> c.branchPrefix == TrimSpace(Line(env, 1).value)
    ensures Line(env, 2).Some? && !AllSpace(Line(env, 2).value) ==> c.setup == SplitCommands(TrimSpace(Line(env, 2).value))
    ensures Line(env, 3).Some? && !AllSpace(Line(env, 3).value) ==> c.teardown == SplitCommands(TrimSpace(Line(env, 3).value))
    ensures (Line(env, 2).None? || AllSpace(Line(env, 2).value) ==>
      && (StoredList(existing.setup) ==> c.setup == existing.setup)
      && (existing.setup.None? || existing.setup.value == [] ==> c.setup.None?))
    ensures (Line(env, 3).None? || AllSpace(Line(env, 3).value) ==>
      && (StoredList(existing.teardown) ==> c.teardown == existing.teardown)
      && (existing.teardown.None? || existing.teardown.value == [] ==> c.teardown.None?))
  {
    var base := Prompt(Line(env, 0), if existing.baseBranch != "" then existing.baseBranch else detected);
    var prefix := Prompt(Line(env, 1), existing.branchPrefix);
    var setup := ListAnswer(Prompt(Line(env, 2), ListDefault(existing.setup)));
    var teardown := ListAnswer(Prompt(Line(env, 3), ListDefault(existing.teardown)));
    Empty.(baseBranch := base, branchPrefix := prefix, setup := setup, teardown := teardown)
  }

  /** The default branch offered for a target: detected from its bare
      directory, or "" (with no call) for the global file. A failed
      detection is not an error: the default is then "". */
  function Detect(env: Env, target: Target): (s: Step<string>)
    ensures target.bareDir == "" ==> s == Step(Ok(""), [])
    ensures target.bareDir != "" ==> s == Git.DefaultBranch(env, target.bareDir)
  {
    if target.bareDir != "" then Git.DefaultBranch(env, target.bareDir) else Step(Ok(""), [])
  }

  /** The configuration init saves for a target. */
  function Filled(env: Env, target: Target): Config
  {
    Answers(env, LoadFile(env.files, target.path).GetOr(Empty), Detect(env, target).result.ValueOr(""))
  }

  /** `ww init`: choose the file, pre-fill from it when it loads, detect the
      default branch of the repository, ask four questions and save. */
  function Init(env: Env, flags: InitFlags): (s: Step<Target>)
    ensures InitTarget(env, flags).result.Err? ==> s == InitTarget(env, flags)
    ensures (InitTarget(env, flags).result.Ok? ==>
      var target := InitTarget(env, flags).result.value;
      var save := SaveConfig(target.path, Filled(env, target));
      && s.trace == InitTarget(env, flags).trace + Detect(env, target).trace + [save]
      && (s.result.Ok? <==> env.reply(save).ok)
      && (s.result.Ok? ==> s.result.value == target)
      && (s.result.Err? ==> s.result.error == Context("failed to save config", IoFailed(target.path))))
  {
    var t := InitTarget(env, flags);
    if t.result.Err? then t
    else
      var target := t.result.value;
      var d := Detect(env, target);
      var save := SaveConfig(target.path, Filled(env, target));
      var trace := t.trace + d.trace + [save];
      if env.reply(save).ok then Step(Ok(target), trace)
      else Step(Err(Context("failed to save config", IoFailed(target.path))), trace)
  }

  /** With --global, init asks git nothing: it writes the global file. */
  lemma GlobalInitSkipsGit(env: Env)
    ensures (var s := Init(env, InitFlags(true, false));
      && (forall i :: 0 <= i < |s.trace| ==> !s.trace[i].GitCmd?)
      && s.trace == [SaveConfig(GlobalConfigPath(env.home), Filled(env, Target(GlobalConfigPath(env.home), "")))])
  {
  }

  /** Re-running `init` and accepting every default keeps the base branch,
      the prefix and both hook lists of the file it rewrites. */
  lemma AcceptingDefaultsKeeps(env: Env, existing: Config, detected: string)
    requires (forall i :: 0 <= i < 4 ==> Line(env, i).None? || AllSpace(Line(env, i).value))
    requires existing.baseBranch != ""
    requires (existing.setup.Some? ==> |existing.setup.value| > 0 && forall i :: 0 <= i < |existing.setup.value| ==> IsCommand(existing.setup.value[i]))
    requires (existing.teardown.Some? ==> |existing.teardown.value| > 0 && forall i :: 0 <= i < |existing.teardown.value| ==> IsCommand(existing.teardown.value[i]))
    ensures (var c := Answers(env, existing, detected);
      c.baseBranch == existing.baseBranch && c.branchPrefix == existing.branchPrefix &&
      c.setup == existing.setup && c.teardown == existing.teardown)
  {
    assert Line(env, 2).None? || AllSpace(Line(env, 2).value);
    assert Line(env, 3).None? || AllSpace(Line(env, 3).value);
    if existing.setup.Some? {
      SplitCommandsOfJoin(existing.setup.value);
    }
    if existing.teardown.Some? {
      SplitCommandsOfJoin(existing.teardown.value);
    }
  }
}

=== FILE: lscmd.dfy ===
/** internal/cli/ls.go: `ww ls [repo]` — the worktrees of one repo as a
    table, or every willow repo with its worktree count. */
module LsCmd {
  import opened Outcomes
  import opened GoStrings
  import opened Strconv
  import opened Config
  import opened Worktrees
  import opened Backend
  import Git

  // time.Duration constants, in nanoseconds.
  const Minute: int := 60_000_000_000
  const Hour: int := 60 * Minute
  const Day: int := 24 * Hour
  const Week: int := 7 * Day

  /** formatAge on an integer duration: "now" under a minute (negative
      durations included), then whole minutes, hours, days or weeks, each
      the largest unit that fits, truncated. */
  function FormatAge(d: int): (r: string)
    ensures d < Minute <==> r == "now"
    ensures (Minute <= d < Hour ==> exists k :: 1 <= k < 60 && k * Minute <= d < (k + 1) * Minute && r == Itoa(k) + "m")
    ensures (Hour <= d < Day ==> exists k :: 1 <= k < 24 && k * Hour <= d < (k + 1) * Hour && r == Itoa(k) + "h")
    ensures (Day <= d < Week ==> exists k :: 1 <= k < 7 && k * Day <= d < (k + 1) * Day && r == Itoa(k) + "d")
    ensures (Week <= d ==> exists k :: 1 <= k && k * Week <= d < (k + 1) * Week && r == Itoa(k) + "w")
  {
    if d < Minute then "now"
    else if d < Hour then Unit(d, Minute, 60, "m")
    else if d < Day then Unit(d, Hour, 24, "h")
    else if d < Week then Unit(d, Day, 7, "d")
    else Unit(d, Week, d + 1, "w")
  }

  /** The whole number of units in d, followed by the unit's letter. */
  function Unit(d: int, unit: int, n: int, suffix: string): (r: string)
    requires 0 < unit <= d < n * unit && suffix != []
    ensures |r| >= 1 && r[0] != 'n'
    ensures (exists k :: 1 <= k < n && k * unit <= d < (k + 1) * unit && r == Itoa(k) + suffix)
  {
    var k := d / unit;
    WholeUnits(d, unit, n);
    var r := Itoa(k) + suffix;
    assert IsDigit(r[0]);
    r
  }

  /** Truncating division by a unit, for a duration of at least one unit. */
  lemma WholeUnits(d: int, unit: int, n: int)
    requires 0 < unit <= d < n * unit
    ensures 1 <= d / unit < n
    ensures (d / unit) * unit <= d < (d / unit + 1) * unit
  {
    var q := d / unit;
    var m := d % unit;
    assert d == q * unit + m && 0 <= m < unit;
  }

  /** The width of a column: the header's length or the longest entry,
      whichever is larger, measured in bytes as Go's len does. */
  method ColumnWidth(header: string, xs: seq<string>) returns (w: nat)
    ensures w >= ByteLen(header)
    ensures (forall i :: 0 <= i < |xs| ==> ByteLen(xs[i]) <= w)
    ensures (w == ByteLen(header) || exists i :: 0 <= i < |xs| && w == ByteLen(xs[i]))
  {
    w := ByteLen(header);
    var i := 0;
    while i < |xs|
      invariant 0 <= i <= |xs|
      invariant w >= ByteLen(header)
      invariant forall j :: 0 <= j < i ==> ByteLen(xs[j]) <= w
      invariant w == ByteLen(header) || exists j :: 0 <= j < i && w == ByteLen(xs[j])
    {
      if ByteLen(xs[i]) > w {
        w := ByteLen(xs[i]);
      }
      i := i + 1;
    }
  }

  function Branches(wts: seq<Worktree>): (r: seq<string>)
    ensures (|r| == |wts| && forall i :: 0 <= i < |wts| ==> r[i] == wts[i].branch)
  {
    seq(|wts|, i requires 0 <= i < |wts| => wts[i].branch)
  }

  function Paths(wts: seq<Worktree>): (r: seq<string>)
    ensures (|r| == |wts| && forall i :: 0 <= i < |wts| ==> r[i] == wts[i].path)
  {
    seq(|wts|, i requires 0 <= i < |wts| => wts[i].path)
  }

  /** What printTable lays out: the two column widths and the rows, in
      listing order; no table at all for an empty list. */
  datatype Table = EmptyTable | Table(branchW: nat, pathW: nat, rows: seq<Worktree>)

  method PrintTable(wts: seq<Worktree>) returns (t: Table)
    ensures wts == [] <==> t.EmptyTable?
    ensures t.Table? ==> t.rows == wts
    ensures (t.Table? ==> t.branchW >= 6 && forall i :: 0 <= i < |wts| ==> ByteLen(wts[i].branch) <= t.branchW)
    ensures (t.Table? ==> t.pathW >= 4 && forall i :: 0 <= i < |wts| ==> ByteLen(wts[i].path) <= t.pathW)
    ensures (t.Table? ==> t.branchW == 6 || exists i :: 0 <= i < |wts| && t.branchW == ByteLen(wts[i].branch))
    ensures (t.Table? ==> t.pathW == 4 || exists i :: 0 <= i < |wts| && t.pathW == ByteLen(wts[i].path))
  {
    if |wts| == 0 {
      return EmptyTable;
    }
    var branchW := ColumnWidth("BRANCH", Branches(wts));
    var pathW := ColumnWidth("PATH", Paths(wts));
    t := Table(branchW, pathW, wts);
  }

  /** The output modes of listWorktrees. */
  datatype Mode = PathOnly | Json | Plain

  datatype View =
    | PathLines(paths: seq<string>)              // --path-only
    | Encoded(worktrees: seq<Worktree>)          // --json
    | Printed(table: Table)
    | RepoTable(nameW: nat, rows: seq<(string, nat)>)
    | NoRepos                                    // "No willow-managed repos."

  /** listWorktrees: the checkouts of a bare directory, bare entry removed
      and order kept, in the requested form. */
  method ListView(env: Env, bareDir: string, mode: Mode) returns (r: Result<View>)
    ensures ListedView(env, bareDir, mode, r)
  {
    var listed := ListWorktrees(env, bareDir);
    if listed.Err? {
      return Err(listed.error);
    }
    var wts := NonBare(listed.value);
    match mode
    case PathOnly => r := Ok(PathLines(Paths(wts)));
    case Json => r := Ok(Encoded(wts));
    case Plain =>
      var t := PrintTable(wts);
      r := Ok(Printed(t));
  }

  /** What listing one repo shows: the error when its worktrees do not
      list, otherwise its checkouts (the bare entry dropped) in the mode's
      format. */
  predicate ListedView(env: Env, bareDir: string, mode: Mode, r: Result<View>)
  {
    && (r.Err? <==> ListWorktrees(env, bareDir).Err?)
    && (r.Err? ==> r.error == Context("failed to list worktrees", ListFailed))
    && (r.Ok? ==> var wts := NonBare(ListWorktrees(env, bareDir).value);
      && (mode == PathOnly ==> r.value == PathLines(Paths(wts)))
      && (mode == Json ==> r.value == Encoded(wts))
      && (mode == Plain ==> r.value.Printed? && LaidOut(wts, r.value.table)))
  }

  /** printTable's layout of `wts`: no table for no worktrees, otherwise the
      worktrees in order, each column as wide as its header or its longest
      cell, whichever is larger. */
  predicate LaidOut(wts: seq<Worktree>, t: Table)
  {
    && (wts == [] <==> t.EmptyTable?)
    && (t.Table? ==>
      && t.rows == wts
      && t.branchW >= 6 && (forall i :: 0 <= i < |wts| ==> ByteLen(wts[i].branch) <= t.branchW)
      && t.pathW >= 4 && (forall i :: 0 <= i < |wts| ==> ByteLen(wts[i].path) <= t.pathW)
      && (t.branchW == 6 || exists i :: 0 <= i < |wts| && t.branchW == ByteLen(wts[i].branch))
      && (t.pathW == 4 || exists i :: 0 <= i < |wts| && t.pathW == ByteLen(wts[i].path)))
  }

  /** The repos whose directory resolves and whose worktrees list, each with
      its number of checkouts; the others are skipped silently. */
  function RepoCounts(env: Env, repos: seq<string>): (rows: seq<(string, nat)>)
    ensures |rows| <= |repos|
    ensures (forall row :: row in rows ==>
      && row.0 in repos
      && ResolveRepo(env.home, env.stat, row.0).Ok?
      && ListWorktrees(env, ResolveRepo(env.home, env.stat, row.0).value).Ok?
      && row.1 == |NonBare(ListWorktrees(env, ResolveRepo(env.home, env.stat, row.0).value).value)|)
    ensures (forall name :: (name in repos && ResolveRepo(env.home, env.stat, name).Ok?
      && ListWorktrees(env, ResolveRepo(env.home, env.stat, name).value).Ok?) ==> exists n :: (name, n) in rows)
  {
    if |repos| == 0 then []
    else
      var name := repos[|repos| - 1];
      var rest := RepoCounts(env, repos[..|repos| - 1]);
      assert forall x :: x in repos[..|repos| - 1] ==> x in repos;
      assert forall x :: x in repos ==> x in repos[..|repos| - 1] || x == name;
      var dir := ResolveRepo(env.home, env.stat, name);
      if dir.Err? then rest
      else
        var listed := ListWorktrees(env, dir.value);
        if listed.Err? then rest
        else
          var r := rest + [(name, |NonBare(listed.value)|)];
          assert (name, |NonBare(listed.value)|) in r;
          r
  }

  /** What listing all repos shows: the error when the repos directory does
      not read, "no repos" when it is empty, otherwise a table of every repo
      with its count of checkouts, in a column as wide as "REPO" or the
      longest name, whichever is larger. */
  predicate ListedRepos(env: Env, r: Result<View>)
  {
    && (ListRepos(env.home, env.repos).Err? ==> r == Err(Context("failed to list repos", ListRepos(env.home, env.repos).error)))
    && (ListRepos(env.home, env.repos) == Ok([]) ==> r == Ok(NoRepos))
    && (ListRepos(env.home, env.repos).Ok? && ListRepos(env.home, env.repos).value != [] ==>
      var repos := ListRepos(env.home, env.repos).value;
      && r.Ok? && r.value.RepoTable?
      && r.value.rows == RepoCounts(env, repos)
      && r.value.nameW >= 4
      && (forall i :: 0 <= i < |repos| ==> ByteLen(repos[i]) <= r.value.nameW)
      && (r.value.nameW == 4 || exists i :: 0 <= i < |repos| && r.value.nameW == ByteLen(repos[i])))
  }

  /** printRepoList: every willow repo with its count of checkouts, in a
      column as wide as the longest name (at least "REPO"). */
  method RepoList(env: Env) returns (r: Result<View>)
    ensures ListedRepos(env, r)
  {
    var listed := ListRepos(env.home, env.repos);
    if listed.Err? {
      return Err(Context("failed to list repos", listed.error));
    }
    var repos := listed.value;
    if |repos| == 0 {
      return Ok(NoRepos);
    }
    var nameW := ColumnWidth("REPO", repos);
    var rows := CountRows(env, repos);
    r := Ok(RepoTable(nameW, rows));
  }

  /** The loop of printRepoList over the repo names. */
  method CountRows(env: Env, repos: seq<string>) returns (rows: seq<(string, nat)>)
    ensures rows == RepoCounts(env, repos)
  {
    rows := [];
    var i := 0;
    while i < |repos|
      invariant 0 <= i <= |repos|
      invariant rows == RepoCounts(env, repos[..i])
    {
      var prefix := repos[..i + 1];
      assert prefix[..|prefix| - 1] == repos[..i];
      assert prefix[|prefix| - 1] == repos[i];
      var dir := ResolveRepo(env.home, env.stat, repos[i]);
      if dir.Ok? {
        var wts := ListWorktrees(env, dir.value);
        if wts.Ok? {
          var count := CountCheckouts(wts.value);
          rows := rows + [(repos[i], count)];
        }
      }
      i := i + 1;
    }
    assert repos[..i] == repos;
  }

  /** Where ls looks. */
  datatype Source = RepoDir(bareDir: string) | AllRepos

  /** The dispatch of ls: an explicit repo name wins (and must resolve), then
      the willow repo of the working directory, and otherwise all repos. */
  function Dispatch(env: Env, repoArg: string): (s: Step<Source>)
    ensures (repoArg != "" ==> s.trace == [] && s.result == (match ResolveRepo(env.home, env.stat, repoArg)
      case Ok(d) => Ok(RepoDir(d))
      case Err(e) => Err(e)))
    ensures repoArg == "" ==> s.trace == Git.BareRepoDir(env, "").trace
    ensures (repoArg == "" ==> var b := Git.BareRepoDir(env, "").result;
      if b.Ok? && IsWillowRepo(env.home, env.links, b.value) then s.result == Ok(RepoDir(b.value))
      else s.result == Ok(AllRepos))
  {
    if repoArg != "" then
      match ResolveRepo(env.home, env.stat, repoArg)
      case Ok(d) => Step(Ok(RepoDir(d)), [])
      case Err(e) => Step(Err(e), [])
    else
      var b := Git.BareRepoDir(env, "");
      if b.result.Ok? && IsWillowRepo(env.home, env.links, b.result.value) then Step(Ok(RepoDir(b.result.value)), b.trace)
      else Step(Ok(AllRepos), b.trace)
  }

  /** `ww ls [repo]`. */
  method Ls(env: Env, repoArg: string, mode: Mode) returns (s: Step<View>)
    ensures s.trace == Dispatch(env, repoArg).trace
    ensures Dispatch(env, repoArg).result.Err? ==> s.result == Err(Dispatch(env, repoArg).result.error)
    ensures Dispatch(env, repoArg).result == Ok(AllRepos) ==> ListedRepos(env, s.result)
    ensures (Dispatch(env, repoArg).result.Ok? && Dispatch(env, repoArg).result.value.RepoDir? ==>
      ListedView(env, Dispatch(env, repoArg).result.value.bareDir, mode, s.result))
  {
    var d := Dispatch(env, repoArg);
    if d.result.Err? {
      return Step(Err(d.result.error), d.trace);
    }
    match d.result.value
    case RepoDir(bareDir) =>
      var v := ListView(env, bareDir, mode);
      s := Step(v, d.trace);
    case AllRepos =>
      var v := RepoList(env);
      s := Step(v, d.trace);
  }
}

=== FILE: matcher.dfy ===
/** internal/cli/pwd.go: resolving what the user typed to one worktree, the
    numbered picker, and the pwd command built on them. */
module Matcher {
  import opened Outcomes
  import opened GoStrings
  import opened Strconv
  import opened Worktrees
  import opened Backend
  import Repo

  /** The second-stage match: the branch contains the target, or the path
      ends in "/<target>" (the directory name). */
  predicate IsCandidate(w: Worktree, target: string)
  {
    Contains(w.branch, target) || HasSuffix(w.path, "/" + target)
  }

  /** Position of the first entry whose branch is exactly the target. */
  function FirstExact(wts: seq<Worktree>, target: string): (r: Option<nat>)
    ensures r.Some? ==> r.value < |wts| && wts[r.value].branch == target
    ensures (r.Some? ==> forall j :: 0 <= j < r.value ==> wts[j].branch != target)
    ensures (r.None? ==> forall j :: 0 <= j < |wts| ==> wts[j].branch != target)
    decreases |wts|
  {
    if |wts| == 0 then None
    else if wts[0].branch == target then Some(0)
    else
      match FirstExact(wts[1..], target)
      case None => None
      case Some(i) => Some(i + 1)
  }

  /** The second-stage candidates, in input order. */
  function Candidates(wts: seq<Worktree>, target: string): (r: seq<Worktree>)
    ensures (forall w :: w in r <==> w in wts && IsCandidate(w, target))
    ensures |r| <= |wts|
    decreases |wts|
  {
    if |wts| == 0 then []
    else (if IsCandidate(wts[0], target) then [wts[0]] else []) + Candidates(wts[1..], target)
  }

  /** Candidates distributes over concatenation: they come out in input order. */
  lemma {:induction false} CandidatesAppend(a: seq<Worktree>, b: seq<Worktree>, target: string)
    ensures Candidates(a + b, target) == Candidates(a, target) + Candidates(b, target)
    decreases |a|
  {
    if |a| == 0 {
      assert a + b == b;
    } else {
      assert (a + b)[0] == a[0];
      assert (a + b)[1..] == a[1..] + b;
      CandidatesAppend(a[1..], b, target);
    }
  }

  /** The (branch, path) pairs the ambiguity message lists. */
  function Described(wts: seq<Worktree>): (r: seq<(string, string)>)
    ensures |r| == |wts|
    ensures (forall i :: 0 <= i < |wts| ==> r[i] == (wts[i].branch, wts[i].path))
  {
    if |wts| == 0 then [] else [(wts[0].branch, wts[0].path)] + Described(wts[1..])
  }

  /** findWorktree. An exact branch match wins, the first one if several;
      otherwise no candidate is "not found", one candidate is the answer,
      and more are "ambiguous" with every candidate listed in order. */
  function FindWorktree(wts: seq<Worktree>, target: string): (r: Result<Worktree>)
    ensures FirstExact(wts, target).Some? ==> r == Ok(wts[FirstExact(wts, target).value])
    ensures (FirstExact(wts, target).None? ==>
      var c := Candidates(wts, target);
      && (|c| == 0 ==> r == Err(NoWorktreeMatch(target)))
      && (|c| == 1 ==> r == Ok(c[0]))
      && (|c| >= 2 ==> r == Err(AmbiguousMatch(target, Described(c)))))
    ensures r.Ok? ==> r.value in wts
    ensures r.Ok? ==> r.value.branch == target || IsCandidate(r.value, target)
  {
    match FirstExact(wts, target)
    case Some(i) => Ok(wts[i])
    case None =>
      var c := Candidates(wts, target);
      if |c| == 0 then Err(NoWorktreeMatch(target))
      else if |c| == 1 then Ok(c[0])
      else Err(AmbiguousMatch(target, Described(c)))
  }

  /** The match depends on the entries only through exact and candidate
      membership: an entry that neither matches exactly nor is a candidate
      can be added anywhere without changing the answer. */
  lemma FindWorktreeIgnoresUnrelated(a: seq<Worktree>, w: Worktree, b: seq<Worktree>, target: string)
    requires w.branch != target && !IsCandidate(w, target)
    ensures FindWorktree(a + [w] + b, target) == FindWorktree(a + b, target)
  {
    CandidatesAppend(a + [w], b, target);
    CandidatesAppend(a, [w], target);
    CandidatesAppend(a, b, target);
    assert Candidates([w], target) == [];
    assert Candidates(a + [w], target) == Candidates(a, target);
    FirstExactIgnoresUnrelated(a, w, b, target);
  }

  lemma FirstExactIgnoresUnrelated(a: seq<Worktree>, w: Worktree, b: seq<Worktree>, target: string)
    requires w.branch != target
    ensures FirstExact(a + [w] + b, target).None? ==> FirstExact(a + b, target).None?
    ensures (FirstExact(a + [w] + b, target).Some? ==>
      FirstExact(a + b, target).Some? && (a + [w] + b)[FirstExact(a + [w] + b, target).value] == (a + b)[FirstExact(a + b, target).value])
  {
    match FirstExact(a + [w] + b, target)
    case None => NoExactWithout(a, w, b, target);
    case Some(i) =>
      if i < |a| {
        ExactBefore(a, w, b, target, i);
      } else {
        ExactAfter(a, w, b, target, i);
      }
  }

  /** Positions of a + b inside a + [w] + b. */
  lemma Shifted(a: seq<Worktree>, w: Worktree, b: seq<Worktree>, j: nat)
    requires j < |a| + |b|
    ensures j < |a| ==> (a + b)[j] == (a + [w] + b)[j]
    ensures j >= |a| ==> (a + b)[j] == (a + [w] + b)[j + 1]
  {
  }

  lemma NoExactWithout(a: seq<Worktree>, w: Worktree, b: seq<Worktree>, target: string)
    requires (forall j :: 0 <= j < |a + [w] + b| ==> (a + [w] + b)[j].branch != target)
    ensures FirstExact(a + b, target).None?
  {
    forall j | 0 <= j < |a + b| ensures (a + b)[j].branch != target {
      Shifted(a, w, b, j);
    }
  }

  lemma ExactBefore(a: seq<Worktree>, w: Worktree, b: seq<Worktree>, target: string, i: nat)
    requires i < |a| && (a + [w] + b)[i].branch == target
    requires (forall j :: 0 <= j < i ==> (a + [w] + b)[j].branch != target)
    ensures FirstExact(a + b, target) == Some(i) && (a + [w] + b)[i] == (a + b)[i]
  {
    Shifted(a, w, b, i);
    forall j | 0 <= j < i ensures (a + b)[j].branch != target {
      Shifted(a, w, b, j);
    }
    FirstExactUnique(a + b, target, i);
  }

  lemma ExactAfter(a: seq<Worktree>, w: Worktree, b: seq<Worktree>, target: string, i: nat)
    requires |a| <= i < |a + [w] + b| && (a + [w] + b)[i].branch == target && w.branch != target
    requires (forall j :: 0 <= j < i ==> (a + [w] + b)[j].branch != target)
    ensures i > |a| && FirstExact(a + b, target) == Some(i - 1) && (a + [w] + b)[i] == (a + b)[i - 1]
  {
    assert (a + [w] + b)[|a|] == w;
    Shifted(a, w, b, i - 1);
    forall j | 0 <= j < i - 1 ensures (a + b)[j].branch != target {
      Shifted(a, w, b, j);
    }
    FirstExactUnique(a + b, target, i - 1);
  }

  /** The first exact match is the position i whose branch is the target
      with no earlier one. */
  lemma FirstExactUnique(wts: seq<Worktree>, target: string, i: nat)
    requires i < |wts| && wts[i].branch == target
    requires (forall j :: 0 <= j < i ==> wts[j].branch != target)
    ensures FirstExact(wts, target) == Some(i)
  {
    var r := FirstExact(wts, target);
    assert r.Some?;
    assert r.value >= i && r.value <= i;
  }

  /** pickWorktree: the entries are numbered from 1 and one line of input
      chooses; an empty list, end of input, and a line that is not a number
      in 1..n are errors, otherwise the chosen entry's path. */
  function PickWorktree(wts: seq<Worktree>, line: Option<string>): (r: Result<string>)
    ensures |wts| == 0 ==> r == Err(NoWorktrees)
    ensures |wts| > 0 && line.None? ==> r == Err(Aborted)
    ensures r.Ok? <==> |wts| > 0 && Choice(line).Some? && 1 <= Choice(line).value <= |wts|
    ensures r.Ok? ==> r.value == wts[Choice(line).value - 1].path
    ensures |wts| > 0 && line.Some? && r.Err? ==> r.error == InvalidSelection
  {
    if |wts| == 0 then Err(NoWorktrees)
    else if line.None? then Err(Aborted)
    else
      var k := Choice(line);
      if k.Some? && 1 <= k.value <= |wts| then Ok(wts[k.value - 1].path) else Err(InvalidSelection)
  }

  /** The number a line of input chooses: the line without its surrounding
      white space, read as a decimal integer. */
  function Choice(line: Option<string>): Option<int>
  {
    if line.None? then None else Atoi(TrimSpace(line.value))
  }

  /** Typing the number k, with any surrounding white space, picks the k-th entry. */
  lemma PickByNumber(wts: seq<Worktree>, k: int, lead: string)
    requires 1 <= k <= |wts| && k <= MaxInt64
    requires AllSpace(lead)
    ensures PickWorktree(wts, Some(lead + Itoa(k))) == Ok(wts[k - 1].path)
  {
    ChoiceOfPadded(k, lead);
  }

  /** A typed number, with any white space before it, chooses that number. */
  lemma ChoiceOfPadded(k: int, lead: string)
    requires 1 <= k <= MaxInt64
    requires AllSpace(lead)
    ensures Choice(Some(lead + Itoa(k))) == Some(k)
  {
    TrimPaddedNumber(k, lead);
    ItoaRoundTrip(k);
    ChoiceOfTrimmed(lead + Itoa(k), Itoa(k), k);
  }

  lemma ChoiceOfTrimmed(t: string, u: string, k: int)
    requires TrimSpace(t) == u && Atoi(u) == Some(k)
    ensures Choice(Some(t)) == Some(k)
  {
  }

  /** The padding around a typed number trims away. */
  lemma TrimPaddedNumber(k: int, lead: string)
    requires 1 <= k <= MaxInt64
    requires AllSpace(lead)
    ensures TrimSpace(lead + Itoa(k)) == Itoa(k)
  {
    ItoaIsTrimmed(k);
    TrimSpaceOfPadded(lead, Itoa(k));
  }

  lemma ItoaIsTrimmed(k: int)
    requires 1 <= k <= MaxInt64
    ensures IsTrimmed(Itoa(k)) && Itoa(k) != []
  {
    var s := Itoa(k);
    assert IsDigit(s[0]) && IsDigit(s[|s| - 1]);
  }

  /** The pwd command: in a willow repo, drop the bare entry, then pick
      interactively when no target is given, else match the target; the
      result is the path printed. */
  function Pwd(env: Env, target: string): (s: Step<string>)
    ensures s.trace == [GitCmd("", ["rev-parse", "--git-common-dir"])]
    ensures (s.result.Ok? ==>
      var repo := Repo.RequireWillowRepo(env).result;
      && repo.Ok? && repo.value in env.listings
      && exists w :: w in env.listings[repo.value] && !w.isBare && w.path == s.result.value)
    ensures (target != "" && s.result.Ok? ==>
      var m := FindWorktree(NonBare(env.listings[Repo.RequireWillowRepo(env).result.value]), target);
      m.Ok? && m.value.path == s.result.value)
    ensures (target == "" && s.result.Ok? ==>
      var pick := PickWorktree(NonBare(env.listings[Repo.RequireWillowRepo(env).result.value]), Line(env, 0));
      pick == s.result)
    ensures (var repo := Repo.RequireWillowRepo(env).result;
      repo.Err? ==> s.result == Err(repo.error))
    ensures (var repo := Repo.RequireWillowRepo(env).result;
      repo.Ok? ==>
      && (ListWorktrees(env, repo.value).Err? ==> s.result == Err(ListWorktrees(env, repo.value).error))
      && (ListWorktrees(env, repo.value).Ok? ==> s.result == Chosen(env, ListWorktrees(env, repo.value).value, target)))
  {
    var repo := Repo.RequireWillowRepo(env);
    if repo.result.Err? then Step(Err(repo.result.error), repo.trace)
    else
      var bareDir := repo.result.value;
      match ListWorktrees(env, bareDir)
      case Err(e) => Step(Err(e), repo.trace)
      case Ok(wts) => Step(Chosen(env, wts, target), repo.trace)
  }

  /** The path pwd prints from a listing: the picker's choice among the
      checkouts when no target is given, else the matcher's worktree. */
  function Chosen(env: Env, wts: seq<Worktree>, target: string): (r: Result<string>)
    ensures r.Ok? ==> exists w :: w in wts && !w.isBare && w.path == r.value
    ensures target != "" && r.Ok? ==> FindWorktree(NonBare(wts), target).Ok? && FindWorktree(NonBare(wts), target).value.path == r.value
    ensures target == "" ==> r == PickWorktree(NonBare(wts), Line(env, 0))
    ensures target != "" ==> (r.Ok? <==> FindWorktree(NonBare(wts), target).Ok?)
    ensures target != "" && r.Err? ==> r.error == FindWorktree(NonBare(wts), target).error
  {
    var filtered := NonBare(wts);
    if target == "" then
      var r := PickWorktree(filtered, Line(env, 0));
      assert r.Ok? ==> filtered[Choice(Line(env, 0)).value - 1] in filtered;
      r
    else
      match FindWorktree(filtered, target)
      case Err(e) => Err(e)
      case Ok(w) => Ok(w.path)
  }
}

=== FILE: newcmd.dfy ===
/** internal/cli/new.go: `ww new <branch>` — apply the branch prefix, pick
    the base branch, fetch it, add the worktree, configure push and run the
    setup hooks. */
module NewCmd {
  import opened Outcomes
  import opened GoStrings
  import opened Config
  import opened Backend
  import Git
  import Repo

  /** The calls `sh -c c`, in `dir`, for each command in order. */
  function ShellCalls(dir: string, commands: seq<string>): (calls: seq<Call>)
    ensures |calls| == |commands|
    ensures (forall i :: 0 <= i < |commands| ==> calls[i] == Shell(dir, commands[i]))
  {
    if |commands| == 0 then [] else [Shell(dir, commands[0])] + ShellCalls(dir, commands[1..])
  }

  /** runHooks: the commands run one after another in `dir`; the first one
      that fails stops the run, and the error names it. */
  function RunHooks(env: Env, commands: seq<string>, dir: string): (s: Step<()>)
    ensures |s.trace| <= |commands|
    ensures (forall i :: 0 <= i < |s.trace| ==> s.trace[i] == Shell(dir, commands[i]))
    ensures (forall i :: 0 <= i < |s.trace| - 1 ==> env.reply(Shell(dir, commands[i])).ok)
    ensures (s.result.Ok? <==> |s.trace| == |commands| && forall i :: 0 <= i < |commands| ==> env.reply(Shell(dir, commands[i])).ok)
    ensures s.result.Err? ==>
      && |s.trace| >= 1
      && !env.reply(Shell(dir, commands[|s.trace| - 1])).ok
      && s.result.error == HookFailed(commands[|s.trace| - 1])
    decreases |commands|
  {
    if |commands| == 0 then Step(Ok(()), [])
    else if !env.reply(Shell(dir, commands[0])).ok then Step(Err(HookFailed(commands[0])), [Shell(dir, commands[0])])
    else
      var rest := RunHooks(env, commands[1..], dir);
      assert forall i :: 1 <= i < |commands| ==> commands[i] == commands[1..][i - 1];
      Step(rest.result, [Shell(dir, commands[0])] + rest.trace)
  }

  /** The configured branch prefix, put in front of the branch unless it is
      already there (or there is none). */
  function ApplyPrefix(prefix: string, branch: string): (r: string)
    ensures prefix == "" ==> r == branch
    ensures prefix != "" ==> HasPrefix(r, prefix + "/")
    ensures HasPrefix(branch, prefix + "/") ==> r == branch
    ensures r == branch || r == prefix + "/" + branch
  {
    if prefix != "" && !HasPrefix(branch, prefix + "/") then prefix + "/" + branch else branch
  }

  /** Applying the prefix a second time changes nothing. */
  lemma ApplyPrefixIdempotent(prefix: string, branch: string)
    ensures ApplyPrefix(prefix, ApplyPrefix(prefix, branch)) == ApplyPrefix(prefix, branch)
  {
    if prefix != "" && !HasPrefix(branch, prefix + "/") {
      assert (prefix + "/" + branch)[..|prefix + "/"|] == prefix + "/";
    }
  }

  /** The directory of a new worktree: the branch with every '/' removed,
      under the repository's folder of the worktrees directory. */
  function WorktreePath(home: string, repoName: string, branch: string): (r: string)
    ensures HasPrefix(r, WorktreesDir(home) + "/" + repoName + "/")
    ensures '/' !in r[|WorktreesDir(home) + "/" + repoName + "/"|..]
  {
    WorktreesDir(home) + "/" + repoName + "/" + RemoveAll(branch, '/')
  }

  /** The last element of the worktree path is the branch without its slashes. */
  lemma WorktreePathBase(home: string, repoName: string, branch: string)
    requires RemoveAll(branch, '/') != ""
    ensures Base(WorktreePath(home, repoName, branch)) == RemoveAll(branch, '/')
    ensures '/' !in Base(WorktreePath(home, repoName, branch))
  {
    var d := RemoveAll(branch, '/');
    var p := WorktreePath(home, repoName, branch);
    var prefix := WorktreesDir(home) + "/" + repoName + "/";
    assert p == prefix + d;
    assert p[|p| - 1] == d[|d| - 1];
    assert StripSlashes(p) == p;
    assert p[|prefix| - 1] == '/';
    assert p[|prefix|..] == d;
    var i := LastIndexOf(p, '/');
    assert i.Some? && i.value == |prefix| - 1 by {
      assert '/' !in p[|prefix|..];
    }
  }

  datatype NewFlags = NewFlags(base: string, existing: bool, noFetch: bool, cdOnly: bool)

  /** The decisions taken before anything is changed. */
  datatype Plan = Plan(bareDir: string, config: Config, branch: string, base: string, path: string)

  /** The base branch: --base, else the configured one, else the default
      branch git reports for the repository. */
  function ResolveBase(env: Env, bareDir: string, flagBase: string, configBase: string): (s: Step<string>)
    ensures flagBase != "" ==> s == Step(Ok(flagBase), [])
    ensures flagBase == "" && configBase != "" ==> s == Step(Ok(configBase), [])
    ensures flagBase == "" && configBase == "" ==>
      && s.trace == [GitCmd(bareDir, ["symbolic-ref", "HEAD"])]
      && (Git.DefaultBranch(env, bareDir).result.Ok? ==> s.result == Git.DefaultBranch(env, bareDir).result)
      && (Git.DefaultBranch(env, bareDir).result.Err? ==>
            s.result == Err(Context("failed to detect default branch (use --base to specify)", Git.DefaultBranch(env, bareDir).result.error)))
  {
    if flagBase != "" then Step(Ok(flagBase), [])
    else if configBase != "" then Step(Ok(configBase), [])
    else
      var d := Git.DefaultBranch(env, bareDir);
      if d.result.Err? then Step(Err(Context("failed to detect default branch (use --base to specify)", d.result.error)), d.trace)
      else d
  }

  /** Everything `new` settles before its first change: the repository, the
      merged configuration, the branch, the base and the path. */
  function Prepare(env: Env, branchArg: string, flags: NewFlags): (s: Step<Plan>)
    ensures branchArg == "" ==> s == Step(Err(Usage("branch name is required")), [])
    ensures branchArg != "" && Git.BareRepoDir(env, "").result.Err? ==>
      s == Step(Err(NotInRepository), Git.BareRepoDir(env, "").trace)
    ensures (s.result.Ok? ==>
      var p := s.result.value;
      && branchArg != ""
      && Git.BareRepoDir(env, "").result == Ok(p.bareDir)
      && p.config == Load(env.home, env.files, p.bareDir, Git.WorktreeRoot(env, "").result.ValueOr(""))
      && p.branch == ApplyPrefix(p.config.branchPrefix, branchArg)
      && ResolveBase(env, p.bareDir, flags.base, p.config.baseBranch).result == Ok(p.base)
      && p.path == WorktreePath(env.home, Repo.RepoNameFromDir(p.bareDir), p.branch))
  {
    if branchArg == "" then Step(Err(Usage("branch name is required")), [])
    else
      var b := Git.BareRepoDir(env, "");
      if b.result.Err? then Step(Err(b.result.error), b.trace)
      else
        var bareDir := b.result.value;
        var w := Git.WorktreeRoot(env, "");
        var cfg := Load(env.home, env.files, bareDir, w.result.ValueOr(""));
        var branch := ApplyPrefix(cfg.branchPrefix, branchArg);
        var base := ResolveBase(env, bareDir, flags.base, cfg.baseBranch);
        var trace := b.trace + w.trace + base.trace;
        if base.result.Err? then Step(Err(base.result.error), trace)
        else
          Step(Ok(Plan(bareDir, cfg, branch, base.result.value, WorktreePath(env.home, Repo.RepoNameFromDir(bareDir), branch))), trace)
  }

  /** `fetch origin <base>`, run in the bare repository. */
  function FetchCall(p: Plan): Call
  {
    GitCmd(p.bareDir, ["fetch", "origin", p.base])
  }

  /** `worktree add`: of the existing branch with --existing, otherwise of a
      new branch started at `origin/<base>`. */
  function CreateCall(p: Plan, existing: bool): (c: Call)
    ensures c.GitCmd? && c.dir == p.bareDir && |c.args| >= 4 && c.args[..3] == ["worktree", "add", p.path]
    ensures existing <==> |c.args| == 4
  {
    GitCmd(p.bareDir, if existing then ["worktree", "add", p.path, p.branch]
                      else ["worktree", "add", p.path, "-b", p.branch, "origin/" + p.base])
  }

  /** `config --local push.autoSetupRemote true`, run in the new worktree. */
  function AutoSetupCall(p: Plan): Call
  {
    GitCmd(p.path, ["config", "--local", "push.autoSetupRemote", "true"])
  }

  /** The fetch decision: the configured default, unless --no-fetch. */
  predicate Fetches(p: Plan, flags: NewFlags)
  {
    p.config.defaults.fetch == Some(true) && !flags.noFetch
  }

  /** Whether the setup hooks run: there are some, and --cd is not given. */
  predicate RunsHooks(p: Plan, flags: NewFlags)
  {
    p.config.setup.Some? && |p.config.setup.value| > 0 && !flags.cdOnly
  }

  /** The changes `new` makes, in order: fetch, add the worktree, configure
      push, run the setup hooks. The first failure stops the command and
      nothing made before it is undone. */
  function Execute(env: Env, p: Plan, flags: NewFlags): (s: Step<string>)
    ensures Fetches(p, flags) ==> |s.trace| >= 1 && s.trace[0] == FetchCall(p)
    ensures Fetches(p, flags) && !env.reply(FetchCall(p)).ok ==>
      s == Step(Err(Context("failed to fetch origin/" + p.base, GitFailed(FetchCall(p).args, env.reply(FetchCall(p)).output))), [FetchCall(p)])
    ensures !Fetches(p, flags) ==> s == AddWorktree(env, p, flags)
    ensures Fetches(p, flags) && env.reply(FetchCall(p)).ok ==>
      s == Step(AddWorktree(env, p, flags).result, [FetchCall(p)] + AddWorktree(env, p, flags).trace)
    ensures s.result.Ok? ==> s.result.value == p.path
  {
    if Fetches(p, flags) then
      if !env.reply(FetchCall(p)).ok then
        Step(Err(Context("failed to fetch origin/" + p.base, GitFailed(FetchCall(p).args, env.reply(FetchCall(p)).output))), [FetchCall(p)])
      else
        var a := AddWorktree(env, p, flags);
        Step(a.result, [FetchCall(p)] + a.trace)
    else AddWorktree(env, p, flags)
  }

  /** After the fetch: add the worktree, then configure it. */
  function AddWorktree(env: Env, p: Plan, flags: NewFlags): (s: Step<string>)
    ensures |s.trace| >= 1 && s.trace[0] == CreateCall(p, flags.existing)
    ensures !env.reply(CreateCall(p, flags.existing)).ok ==>
      s.trace == [CreateCall(p, flags.existing)] && s.result.Err?
    ensures s.result.Ok? ==> s.result.value == p.path && env.reply(CreateCall(p, flags.existing)).ok
    ensures env.reply(CreateCall(p, flags.existing)).ok ==> s.trace[1..] == Configure(env, p, flags).trace
    ensures env.reply(CreateCall(p, flags.existing)).ok ==> s.result == Configure(env, p, flags).result
  {
    var c := CreateCall(p, flags.existing);
    if !env.reply(c).ok then
      Step(Err(Context("failed to create worktree", GitFailed(c.args, env.reply(c).output))), [c])
    else
      var k := Configure(env, p, flags);
      assert ([c] + k.trace)[1..] == k.trace;
      Step(k.result, [c] + k.trace)
  }

  /** After the worktree exists: push.autoSetupRemote when configured, then
      the setup hooks unless --cd or there are none. */
  function Configure(env: Env, p: Plan, flags: NewFlags): (s: Step<string>)
    ensures p.config.defaults.autoSetupRemote == Some(true) ==> |s.trace| >= 1 && s.trace[0] == AutoSetupCall(p)
    ensures p.config.defaults.autoSetupRemote == Some(true) && !env.reply(AutoSetupCall(p)).ok ==>
      s.trace == [AutoSetupCall(p)] && s.result.Err?
    ensures (p.config.defaults.autoSetupRemote != Some(true) ==> forall i :: 0 <= i < |s.trace| ==> s.trace[i].Shell?)
    ensures (!RunsHooks(p, flags) ==> forall i :: 0 <= i < |s.trace| ==> !s.trace[i].Shell?)
    ensures s.result.Ok? ==> s.result.value == p.path
    ensures s.result.Ok? && RunsHooks(p, flags) ==>
      |p.config.setup.value| <= |s.trace| && s.trace[|s.trace| - |p.config.setup.value|..] == ShellCalls(p.path, p.config.setup.value)
    ensures s.result.Err? && (p.config.defaults.autoSetupRemote != Some(true) || env.reply(AutoSetupCall(p)).ok) ==>
      RunsHooks(p, flags) && RunHooks(env, p.config.setup.value, p.path).result.Err? &&
      s.result == Err(RunHooks(env, p.config.setup.value, p.path).result.error)
  {
    var auto := if p.config.defaults.autoSetupRemote == Some(true) then [AutoSetupCall(p)] else [];
    if auto != [] && !env.reply(AutoSetupCall(p)).ok then
      Step(Err(Context("failed to configure push.autoSetupRemote",
        GitFailed(AutoSetupCall(p).args, env.reply(AutoSetupCall(p)).output))), auto)
    else if RunsHooks(p, flags) then HooksAfter(env, auto, p.config.setup.value, p.path)
    else Step(Ok(p.path), auto)
  }

  /** The setup hooks run in `dir` after the calls `before`; success
      returns `dir`. */
  function HooksAfter(env: Env, before: seq<Call>, commands: seq<string>, dir: string): (s: Step<string>)
    ensures |before| <= |s.trace| && s.trace[..|before|] == before
    ensures forall i :: |before| <= i < |s.trace| ==> s.trace[i].Shell?
    ensures s.result.Ok? ==> s.result.value == dir
    ensures s.result.Ok? ==> |commands| <= |s.trace| && s.trace[|s.trace| - |commands|..] == ShellCalls(dir, commands)
    ensures s.result.Err? ==> RunHooks(env, commands, dir).result.Err? && s.result == Err(RunHooks(env, commands, dir).result.error)
  {
    var hooks := RunHooks(env, commands, dir);
    assert hooks.result.Ok? ==> hooks.trace == ShellCalls(dir, commands);
    assert (before + hooks.trace)[|before|..] == hooks.trace;
    Step(if hooks.result.Ok? then Ok(dir) else Err(hooks.result.error), before + hooks.trace)
  }

  /** `ww new`: settle the plan, then carry it out. */
  function New(env: Env, branchArg: string, flags: NewFlags): (s: Step<string>)
    ensures branchArg == "" ==> s == Step(Err(Usage("branch name is required")), [])
    ensures Prepare(env, branchArg, flags).result.Err? ==> s == Step(Err(Prepare(env, branchArg, flags).result.error), Prepare(env, branchArg, flags).trace)
    ensures (Prepare(env, branchArg, flags).result.Ok? ==>
      var p := Prepare(env, branchArg, flags);
      var e := Execute(env, p.result.value, flags);
      s == Step(e.result, p.trace + e.trace))
    ensures (s.result.Ok? ==>
      var p := Prepare(env, branchArg, flags).result.value;
      s.result.value == WorktreePath(env.home, Repo.RepoNameFromDir(p.bareDir), ApplyPrefix(p.config.branchPrefix, branchArg)))
  {
    var p := Prepare(env, branchArg, flags);
    if p.result.Err? then Step(Err(p.result.error), p.trace)
    else
      var e := Execute(env, p.result.value, flags);
      Step(e.result, p.trace + e.trace)
  }
}

=== FILE: outcomes.dfy ===
/** Option, Result and the error kinds every willow command can report.

    The Go code returns `(value, error)` pairs whose errors are built with
    `fmt.Errorf`; here each distinct message becomes one constructor of
    `Error`, and `Context` stands for the `"...: %w"` wrapping. */
module Outcomes {

  datatype Option<+T> = None | Some(value: T)
  {
    function GetOr(default: T): T
    {
      match this
      case Some(v) => v
      case None => default
    }
  }

  datatype Error =
    | Usage(message: string)                        // a required argument is missing
    | NotInRepository                               // git.BareRepoDir: "not inside a git repository"
    | NotInWorktree                                 // git.WorktreeRoot: "not inside a git worktree"
    | NotWillowRepo                                 // errNotWillowRepo
    | NotWillowRepoUseGlobal                        // "... (use --global for global config)"
    | GitFailed(args: seq<string>, output: string)  // git.Run on a non-zero exit
    | IoFailed(path: string)                        // MkdirAll / WriteFile failure
    | ExecFailed(dir: string, argv: seq<string>)    // execIn: the command exited non-zero
    | HookFailed(command: string)                   // runHooks: "hook failed: <command>"
    | Context(message: string, cause: Error)        // fmt.Errorf("<message>: %w", cause)
    | ListFailed                                    // worktree.List failed
    | NoWorktreeMatch(target: string)               // "no worktree found matching ..."
    | AmbiguousMatch(target: string, candidates: seq<(string, string)>)
    | NoWorktrees                                   // pickWorktree on an empty list
    | Aborted                                       // end of input at the picker
    | InvalidSelection
    | UnknownKey(key: string)
    | InvalidValue(key: string, value: string)
    | RepoExists(name: string, path: string)
    | RepoNotFound(name: string)
    | RunFailed(failed: seq<string>, total: nat)    // run --all: "command failed in k/n worktrees"

  datatype Result<+T> = Ok(value: T) | Err(error: Error)
  {
    /** The value a Go caller sees when it discards the error (`v, _ := f()`). */
    function ValueOr(zero: T): T
    {
      match this
      case Ok(v) => v
      case Err(_) => zero
    }
  }
}

=== FILE: prunecmd.dfy ===
/** internal/cli/prune.go: `ww prune` — preview the stale worktree entries
    of the current repo, then prune them after confirmation. */
module PruneCmd {
  import opened Outcomes
  import opened GoStrings
  import opened Backend
  import Git
  import Repo
  import RmCmd

  datatype PruneFlags = PruneFlags(dryRun: bool, yes: bool)

  const PreviewArgs: seq<string> := ["worktree", "prune", "--dry-run", "-v"]
  const PruneArgs: seq<string> := ["worktree", "prune", "-v"]

  /** What the preview printed, when it ran: nothing to prune when it is blank. */
  predicate HasStale(env: Env, bareDir: string)
  {
    !AllSpace(env.reply(GitCmd(bareDir, PreviewArgs)).output)
  }

  /** The preview and the decision: Ok(true) means prune. Nothing to prune
      when the preview printed only white space; a dry run stops after the
      preview; otherwise prune with --yes or a confirmed prompt. */
  function Decide(env: Env, bareDir: string, flags: PruneFlags): (s: Step<bool>)
    ensures s.trace == [GitCmd(bareDir, PreviewArgs)]
    ensures s.result.Err? <==> !env.reply(GitCmd(bareDir, PreviewArgs)).ok
    ensures s.result.Err? ==>
      s.result.error == Context("failed to check stale worktrees", GitFailed(PreviewArgs, env.reply(GitCmd(bareDir, PreviewArgs)).output))
    ensures s.result == Ok(true) <==>
      env.reply(GitCmd(bareDir, PreviewArgs)).ok && HasStale(env, bareDir) && !flags.dryRun && (flags.yes || RmCmd.Confirm(Line(env, 0)))
  {
    var preview := Git.Run(env, bareDir, PreviewArgs);
    if preview.result.Err? then Step(Err(Context("failed to check stale worktrees", preview.result.error)), preview.trace)
    else if preview.result.value == "" then Step(Ok(false), preview.trace)       // "Nothing to prune."
    else if flags.dryRun then Step(Ok(false), preview.trace)
    else if !flags.yes && !RmCmd.Confirm(Line(env, 0)) then Step(Ok(false), preview.trace)   // "Aborted."
    else Step(Ok(true), preview.trace)
  }

  /** `ww prune`: Ok(true) when the stale entries were pruned, Ok(false)
      when there was nothing to do, it was a dry run, or the user declined. */
  function Prune(env: Env, flags: PruneFlags): (s: Step<bool>)
    ensures (var r := Repo.RequireWillowRepo(env);
      r.result.Err? ==> s == Step(Err(NotWillowRepo), r.trace))
    ensures (var r := Repo.RequireWillowRepo(env);
      var d := Decide(env, r.result.ValueOr(""), flags);
      var prune := GitCmd(r.result.ValueOr(""), PruneArgs);
      r.result.Ok? ==>
      && s.trace == (if d.result == Ok(true) then r.trace + d.trace + [prune] else r.trace + d.trace)
      && (d.result != Ok(true) ==> s.result == d.result)
      && (d.result == Ok(true) ==>
            && (s.result == Ok(true) <==> env.reply(prune).ok)
            && (s.result.Err? ==> s.result.error == Context("failed to prune worktrees", GitFailed(PruneArgs, env.reply(prune).output)))))
  {
    var r := Repo.RequireWillowRepo(env);
    if r.result.Err? then Step(Err(r.result.error), r.trace)
    else
      var d := Decide(env, r.result.value, flags);
      if d.result.Err? || !d.result.value then Step(d.result, r.trace + d.trace)
      else
        var prune := Git.Run(env, r.result.value, PruneArgs);
        if prune.result.Err? then Step(Err(Context("failed to prune worktrees", prune.result.error)), r.trace + d.trace + prune.trace)
        else Step(Ok(true), r.trace + d.trace + prune.trace)
  }

  /** Pruning happens exactly when the preview found stale entries, it was
      not a dry run, and the user agreed (or passed --yes). */
  lemma PrunesOnlyWhenAgreed(env: Env, flags: PruneFlags)
    ensures (var r := Repo.RequireWillowRepo(env);
      GitCmd(r.result.ValueOr(""), PruneArgs) in Prune(env, flags).trace <==>
        r.result.Ok? && Decide(env, r.result.value, flags).result == Ok(true))
  {
    var r := Repo.RequireWillowRepo(env);
    var bareDir := r.result.ValueOr("");
    var d := Decide(env, bareDir, flags);
    var s := Prune(env, flags);
    var prune := GitCmd(bareDir, PruneArgs);
    PruneHead(bareDir);
    var rev := GitCmd("", ["rev-parse", "--git-common-dir"]);
    if r.result.Err? {
      assert s.trace == [rev];
    } else {
      LastCallDecides(s.trace, rev, GitCmd(bareDir, PreviewArgs), prune, d.result == Ok(true));
    }
  }

  /** Neither the repo lookup nor the preview is the prune call. */
  lemma PruneHead(bareDir: string)
    ensures GitCmd("", ["rev-parse", "--git-common-dir"]) != GitCmd(bareDir, PruneArgs)
    ensures GitCmd(bareDir, PreviewArgs) != GitCmd(bareDir, PruneArgs)
  {
    assert |PreviewArgs| == 4;
    assert |PruneArgs| == 3;
  }

  /** A call appended after two calls that differ from it is in the trace
      exactly when it was appended. */
  lemma LastCallDecides(trace: seq<Call>, a: Call, b: Call, c: Call, appended: bool)
    requires (trace == if appended then [a] + [b] + [c] else [a] + [b])
    requires c != a && c != b
    ensures c in trace <==> appended
  {
    if appended {
      assert trace[2] == c;
    } else {
      assert trace == [a, b];
    }
  }

  /** A dry run never prunes, whatever the preview shows. */
  lemma DryRunPrunesNothing(env: Env, flags: PruneFlags)
    requires flags.dryRun
    ensures GitCmd(Repo.RequireWillowRepo(env).result.ValueOr(""), PruneArgs) !in Prune(env, flags).trace
  {
    PrunesOnlyWhenAgreed(env, flags);
  }
}

=== FILE: repo.dfy ===
/** internal/cli/repo.go and the repository guard of internal/cli/app.go. */
module Repo {
  import opened Outcomes
  import opened GoStrings
  import opened Config
  import opened Backend
  import Git

  /** resolveBareRepo: Git.BareRepoDir with its own "run 'ww clone' first"
      message, which this model does not distinguish from NotInRepository. */
  function ResolveBareRepo(env: Env): (s: Step<string>)
    ensures s.trace == [GitCmd("", ["rev-parse", "--git-common-dir"])]
    ensures s.result.Err? <==> !env.reply(GitCmd("", ["rev-parse", "--git-common-dir"])).ok
    ensures s.result.Err? ==> s.result.error == NotInRepository
  {
    Git.BareRepoDir(env, "")
  }

  /** repoNameFromDir (declared identically in new.go and repo.go): the last
      path element with one trailing ".git" removed. */
  function RepoNameFromDir(bareDir: string): (name: string)
    ensures name == "/" || '/' !in name
    ensures name + ".git" == Base(bareDir) || name == Base(bareDir)
    ensures HasSuffix(Base(bareDir), ".git") ==> name + ".git" == Base(bareDir)
    ensures !HasSuffix(Base(bareDir), ".git") ==> name == Base(bareDir)
  {
    TrimSuffix(Base(bareDir), ".git")
  }

  /** The bare directory clone creates for `name` gives `name` back. */
  lemma RepoNameOfBareDir(home: string, name: string)
    requires name != "" && '/' !in name
    ensures RepoNameFromDir(ReposDir(home) + "/" + name + ".git") == name
  {
    var d := ReposDir(home) + "/" + name + ".git";
    var q := StripSlashes(d);
    assert d[|d| - 1] == 't';
    assert q == d;
    var i := LastIndexOf(d, '/');
    assert d[|d| - |name| - 5] == '/';
    assert i.Some? && i.value == |d| - |name| - 5 by {
      assert d[|d| - |name| - 4..] == name + ".git";
      assert '/' !in d[|d| - |name| - 4..];
    }
    assert Base(d) == name + ".git";
  }

  /** detectDefaultBranch repeats Git.DefaultBranch line for line: the ref
      of HEAD without its "refs/heads/" prefix, or the git error. */
  function DetectDefaultBranch(env: Env, bareDir: string): (s: Step<string>)
    ensures s.trace == [GitCmd(bareDir, ["symbolic-ref", "HEAD"])]
    ensures s.result.Err? <==> !env.reply(GitCmd(bareDir, ["symbolic-ref", "HEAD"])).ok
    ensures s.result.Err? ==> s.result.error == GitFailed(["symbolic-ref", "HEAD"], env.reply(GitCmd(bareDir, ["symbolic-ref", "HEAD"])).output)
    ensures s.result.Ok? ==> !HasPrefix(TrimSpace(env.reply(GitCmd(bareDir, ["symbolic-ref", "HEAD"])).output), "refs/heads/") ==>
      s.result.value == TrimSpace(env.reply(GitCmd(bareDir, ["symbolic-ref", "HEAD"])).output)
    ensures s.result.Ok? ==> HasPrefix(TrimSpace(env.reply(GitCmd(bareDir, ["symbolic-ref", "HEAD"])).output), "refs/heads/") ==>
      "refs/heads/" + s.result.value == TrimSpace(env.reply(GitCmd(bareDir, ["symbolic-ref", "HEAD"])).output)
  {
    Git.DefaultBranch(env, bareDir)
  }

  /** requireWillowRepo: the bare directory of the working directory, which
      must lie under the repos directory; both failures read "not inside a
      willow-managed repo". */
  function RequireWillowRepo(env: Env): (s: Step<string>)
    ensures s.trace == [GitCmd("", ["rev-parse", "--git-common-dir"])]
    ensures s.result.Err? ==> s.result.error == NotWillowRepo
    ensures s.result.Ok? <==> Git.BareRepoDir(env, "").result.Ok? && IsWillowRepo(env.home, env.links, Git.BareRepoDir(env, "").result.value)
    ensures s.result.Ok? ==> s.result == Git.BareRepoDir(env, "").result
  {
    var b := Git.BareRepoDir(env, "");
    if b.result.Ok? && IsWillowRepo(env.home, env.links, b.result.value) then b
    else Step(Err(NotWillowRepo), b.trace)
  }
}

=== FILE: rmcmd.dfy ===
/** internal/cli/rm.go: `ww rm <target>` — find the worktree, check it,
    ask, run the teardown hooks, remove it and delete its branch. */
module RmCmd {
  import opened Outcomes
  import opened GoStrings
  import opened Config
  import opened Worktrees
  import opened Backend
  import Git
  import Repo
  import Matcher
  import NewCmd

  /** confirm: yes for "y" or "yes" in any letter case, surrounding white
      space ignored; no at end of input. */
  function Confirm(line: Option<string>): (b: bool)
    ensures line.None? ==> !b
    ensures line.Some? ==> (b <==> IsYes(TrimSpace(line.value)))
  {
    if line.Some? then
      var answer := ToLower(TrimSpace(line.value));
      YesInAnyCase(TrimSpace(line.value));
      answer == "y" || answer == "yes"
    else false
  }

  lemma YesInAnyCase(a: string)
    ensures (ToLower(a) == "y" || ToLower(a) == "yes") <==> IsYes(a)
  {
    var l := ToLower(a);
    if |a| == 1 {
      assert l == "y" <==> l[0] == 'y';
    } else if |a| == 3 {
      assert l == "yes" <==> l[0] == 'y' && l[1] == 'e' && l[2] == 's';
    }
  }

  /** "y" or "yes" in any mix of letter case. */
  predicate IsYes(a: string)
  {
    || (|a| == 1 && LowerChar(a[0]) == 'y')
    || (|a| == 3 && LowerChar(a[0]) == 'y' && LowerChar(a[1]) == 'e' && LowerChar(a[2]) == 's')
  }

  datatype RmFlags = RmFlags(force: bool, yes: bool, keepBranch: bool)

  function RemoveCall(bareDir: string, path: string): Call
  {
    GitCmd(bareDir, ["worktree", "remove", "--force", path])
  }

  function DeleteBranchCall(bareDir: string, branch: string): Call
  {
    GitCmd(bareDir, ["branch", "-D", branch])
  }

  /** A call that changes something: a hook, a removal, a branch deletion. */
  predicate Destructive(c: Call)
  {
    || c.Shell?
    || (c.GitCmd? && |c.args| >= 1 && (c == RemoveCall(c.dir, c.args[|c.args| - 1]) || c == DeleteBranchCall(c.dir, c.args[|c.args| - 1])))
  }

  /** A trace without hooks, removals or deletions. */
  predicate Harmless(trace: seq<Call>)
  {
    forall i :: 0 <= i < |trace| ==> !Destructive(trace[i])
  }

  lemma HarmlessConcat(a: seq<Call>, b: seq<Call>)
    requires Harmless(a) && Harmless(b)
    ensures Harmless(a + b)
  {
    forall i | 0 <= i < |a + b| ensures !Destructive((a + b)[i]) {
      if i < |a| { assert (a + b)[i] == a[i]; }
      else { assert (a + b)[i] == b[i - |a|]; }
    }
  }

  /** The queries rm makes before deciding change nothing. */
  lemma QueriesAreHarmless(dir: string)
    ensures !Destructive(GitCmd(dir, ["rev-parse", "--git-common-dir"]))
    ensures !Destructive(GitCmd(dir, ["rev-parse", "--show-toplevel"]))
    ensures !Destructive(GitCmd(dir, ["status", "--porcelain"]))
    ensures !Destructive(GitCmd(dir, Git.UnpushedArgs))
  {
  }

  /** Both traces Check can leave are harmless. */
  lemma ChecksAreHarmless(env: Env, dir: string)
    ensures Harmless(Git.IsDirty(env, dir).trace)
    ensures Harmless(Git.IsDirty(env, dir).trace + Git.HasUnpushedCommits(env, dir).trace)
  {
    QueriesAreHarmless(dir);
    var a := Git.IsDirty(env, dir).trace;
    var b := Git.HasUnpushedCommits(env, dir).trace;
    assert a == [GitCmd(dir, ["status", "--porcelain"])];
    assert b == [GitCmd(dir, Git.UnpushedArgs)];
    HarmlessConcat(a, b);
  }

  /** The worktree to remove: found by findWorktree in the whole listing of
      the current willow repo, bare entry included. */
  function Locate(env: Env, target: string): (s: Step<(string, Worktree)>)
    ensures target == "" ==> s == Step(Err(Usage("branch or worktree name is required")), [])
    ensures target != "" ==> s.trace == Repo.RequireWillowRepo(env).trace
    ensures target != "" && Repo.RequireWillowRepo(env).result.Err? ==> s.result == Err(NotWillowRepo)
    ensures (target != "" && Repo.RequireWillowRepo(env).result.Ok? ==>
      var bareDir := Repo.RequireWillowRepo(env).result.value;
      && (ListWorktrees(env, bareDir).Err? ==> s.result == Err(ListWorktrees(env, bareDir).error))
      && (ListWorktrees(env, bareDir).Ok? && Matcher.FindWorktree(ListWorktrees(env, bareDir).value, target).Err? ==>
            s.result == Err(Matcher.FindWorktree(ListWorktrees(env, bareDir).value, target).error))
      && (ListWorktrees(env, bareDir).Ok? && Matcher.FindWorktree(ListWorktrees(env, bareDir).value, target).Ok? ==>
            s.result == Ok((bareDir, Matcher.FindWorktree(ListWorktrees(env, bareDir).value, target).value))))
    ensures Harmless(s.trace)
  {
    if target == "" then Step(Err(Usage("branch or worktree name is required")), [])
    else
      var r := Repo.RequireWillowRepo(env);
      QueriesAreHarmless("");
      if r.result.Err? then Step(Err(r.result.error), r.trace)
      else
        match ListWorktrees(env, r.result.value)
        case Err(e) => Step(Err(e), r.trace)
        case Ok(wts) =>
          match Matcher.FindWorktree(wts, target)
          case Err(e) => Step(Err(e), r.trace)
          case Ok(wt) => Step(Ok((r.result.value, wt)), r.trace)
  }

  /** The safety checks: without --force, ask whether the worktree is dirty
      and whether it has unpushed commits (only to warn), then ask for
      confirmation unless --yes. Ok(false) is a declined confirmation.
      `answer` is the line read at the prompt, None at end of input. */
  function Check(env: Env, wt: Worktree, flags: RmFlags, answer: Option<string>): (s: Step<bool>)
    ensures flags.force ==> s == Step(Ok(true), [])
    ensures !flags.force && Git.IsDirty(env, wt.path).result.Err? ==>
      s == Step(Err(Git.IsDirty(env, wt.path).result.error), Git.IsDirty(env, wt.path).trace)
    ensures !flags.force && Git.IsDirty(env, wt.path).result.Ok? ==>
      && s.trace == Git.IsDirty(env, wt.path).trace + Git.HasUnpushedCommits(env, wt.path).trace
      && s.result == Ok(flags.yes || Confirm(answer))
    ensures Harmless(s.trace)
  {
    if flags.force then Step(Ok(true), [])
    else
      var dirty := Git.IsDirty(env, wt.path);
      ChecksAreHarmless(env, wt.path);
      if dirty.result.Err? then Step(Err(dirty.result.error), dirty.trace)
      else
        var unpushed := Git.HasUnpushedCommits(env, wt.path);
        var trace := dirty.trace + unpushed.trace;
        // The prompt reads "Remove anyway?" after a dirty or unpushed
        // warning and "Remove worktree <branch>?" otherwise.
        if !flags.yes then Step(Ok(Confirm(answer)), trace)
        else Step(Ok(true), trace)
  }

  /** The teardown hooks of the merged configuration, run in the worktree;
      nothing when the list is absent or empty. */
  function Teardown(env: Env, bareDir: string, wt: Worktree): (s: Step<()>)
    ensures |s.trace| >= 1 && s.trace[0] == GitCmd("", ["rev-parse", "--show-toplevel"])
    ensures (forall i :: 1 <= i < |s.trace| ==> s.trace[i].Shell? && s.trace[i].dir == wt.path)
    ensures (var teardown := Load(env.home, env.files, bareDir, Git.WorktreeRoot(env, "").result.ValueOr("")).teardown;
      && (teardown.None? || teardown.value == [] ==> s == Step(Ok(()), [GitCmd("", ["rev-parse", "--show-toplevel"])]))
      && (teardown.Some? && teardown.value != [] ==> s.result == NewCmd.RunHooks(env, teardown.value, wt.path).result)
      && (teardown.Some? && teardown.value != [] ==>
            s.trace == [GitCmd("", ["rev-parse", "--show-toplevel"])] + NewCmd.RunHooks(env, teardown.value, wt.path).trace))
  {
    var w := Git.WorktreeRoot(env, "");
    var hooks := TeardownHooks(env, Load(env.home, env.files, bareDir, w.result.ValueOr("")).teardown, wt.path);
    Step(hooks.result, w.trace + hooks.trace)
  }

  /** The hook part of the teardown: only shell commands, and none at all
      for an absent or empty list. */
  function TeardownHooks(env: Env, teardown: Option<seq<string>>, dir: string): (s: Step<()>)
    ensures (forall i :: 0 <= i < |s.trace| ==> s.trace[i].Shell? && s.trace[i].dir == dir)
    ensures teardown.None? || teardown.value == [] ==> s == Step(Ok(()), [])
    ensures teardown.Some? && teardown.value != [] ==> s.result == NewCmd.RunHooks(env, teardown.value, dir).result
    ensures (teardown.Some? && teardown.value != [] ==>
      s.trace == NewCmd.RunHooks(env, teardown.value, dir).trace && |s.trace| <= |teardown.value|
      && forall i :: 0 <= i < |s.trace| ==> s.trace[i] == Shell(dir, teardown.value[i]))
  {
    if teardown.Some? && |teardown.value| > 0 then NewCmd.RunHooks(env, teardown.value, dir)
    else Step(Ok(()), [])
  }

  /** Teardown hooks in the worktree, then the forced removal, then (unless
      --keep-branch) the branch deletion, whose failure is only a warning. */
  function Remove(env: Env, bareDir: string, wt: Worktree, flags: RmFlags): (s: Step<bool>)
    ensures (var t := Teardown(env, bareDir, wt);
      t.result.Err? ==> s == Step(Err(t.result.error), t.trace))
    ensures (var t := Teardown(env, bareDir, wt);
      var rm := RemoveCall(bareDir, wt.path);
      t.result.Ok? ==>
      s.trace == t.trace + [rm] + (if env.reply(rm).ok && !flags.keepBranch then [DeleteBranchCall(bareDir, wt.branch)] else []))
    ensures s.result.Ok? <==> Teardown(env, bareDir, wt).result.Ok? && env.reply(RemoveCall(bareDir, wt.path)).ok
    ensures s.result.Ok? ==> s.result.value
  {
    var t := Teardown(env, bareDir, wt);
    if t.result.Err? then Step(Err(t.result.error), t.trace)
    else
      var rm := RemoveCall(bareDir, wt.path);
      if !env.reply(rm).ok then
        Step(Err(Context("failed to remove worktree", GitFailed(rm.args, env.reply(rm).output))), t.trace + [rm])
      else
        var del := if flags.keepBranch then [] else [DeleteBranchCall(bareDir, wt.branch)];
        Step(Ok(true), t.trace + [rm] + del)
  }

  /** A failing teardown hook stops rm before the removal. */
  lemma TeardownFailureKeepsWorktree(env: Env, bareDir: string, wt: Worktree, flags: RmFlags)
    requires Teardown(env, bareDir, wt).result.Err?
    ensures RemoveCall(bareDir, wt.path) !in Remove(env, bareDir, wt, flags).trace
  {
    var t := Teardown(env, bareDir, wt);
    forall i | 0 <= i < |t.trace| ensures t.trace[i] != RemoveCall(bareDir, wt.path) {
      if i == 0 {
        assert |t.trace[0].args| == 2;
      }
    }
  }

  /** `ww rm`. Ok(true): removed; Ok(false): the user declined. `answer` is
      the line typed at the confirmation prompt (rm asks at most once). */
  function Rm(env: Env, target: string, flags: RmFlags, answer: Option<string>): (s: Step<bool>)
    ensures target == "" ==> s == Step(Err(Usage("branch or worktree name is required")), [])
    ensures Locate(env, target).result.Err? ==> s == Step(Err(Locate(env, target).result.error), Locate(env, target).trace)
    ensures (Locate(env, target).result.Ok? ==>
      var l := Locate(env, target);
      var c := Check(env, l.result.value.1, flags, answer);
      var r := Remove(env, l.result.value.0, l.result.value.1, flags);
      && (c.result.Err? ==> s == Step(Err(c.result.error), l.trace + c.trace))
      && (c.result == Ok(false) ==> s == Step(Ok(false), l.trace + c.trace))
      && (c.result == Ok(true) ==> s == Step(r.result, l.trace + c.trace + r.trace)))
  {
    var l := Locate(env, target);
    if l.result.Err? then Step(Err(l.result.error), l.trace)
    else
      var (bareDir, wt) := l.result.value;
      var c := Check(env, wt, flags, answer);
      if c.result.Err? then Step(Err(c.result.error), l.trace + c.trace)
      else if !c.result.value then Step(Ok(false), l.trace + c.trace)
      else
        var r := Remove(env, bareDir, wt, flags);
        Step(r.result, l.trace + c.trace + r.trace)
  }

  /** Declining the prompt changes nothing: no hook, removal or deletion. */
  lemma DeclineChangesNothing(env: Env, target: string, flags: RmFlags, answer: Option<string>)
    requires !flags.force && !flags.yes && !Confirm(answer)
    ensures Harmless(Rm(env, target, flags, answer).trace)
  {
    var l := Locate(env, target);
    if l.result.Ok? {
      var c := Check(env, l.result.value.1, flags, answer);
      HarmlessConcat(l.trace, c.trace);
    }
  }

  /** With --force nothing is asked: the answer typed does not matter. */
  lemma ForceIgnoresInput(env: Env, target: string, flags: RmFlags, a: Option<string>, b: Option<string>)
    requires flags.force
    ensures Rm(env, target, flags, a) == Rm(env, target, flags, b)
  {
  }
}

=== FILE: runcmd.dfy ===
/** internal/cli/run.go: `ww run <branch> -- <command...>` and
    `ww run --all -- <command...>`. */
module RunCmd {
  import opened Outcomes
  import opened Worktrees
  import opened Backend
  import Repo
  import Matcher
  import GoStrings

  /** What the argument scan finds: --all, the target, the command. */
  datatype RunArgs = RunArgs(all: bool, target: string, command: seq<string>)

  /** Position of the first "--", or |args| when there is none. */
  function Separator(args: seq<string>): (k: nat)
    ensures k <= |args|
    ensures "--" !in args[..k]
    ensures k < |args| ==> args[k] == "--"
  {
    if |args| == 0 || args[0] == "--" then 0
    else
      var k := 1 + Separator(args[1..]);
      assert args[..k] == [args[0]] + args[1..][..k - 1];
      k
  }

  /** args[j] is the last argument before position k that is not "--all". */
  predicate LastTargetAt(args: seq<string>, k: nat, j: nat)
    requires k <= |args|
  {
    j < k && args[j] != "--all" && forall m :: j < m < k ==> args[m] == "--all"
  }

  /** The argument loop of run, started with the given --all and target:
      every argument before the first "--" is either --all or a new target,
      and whatever follows that "--" is the command. */
  function Scan(args: seq<string>, all: bool, target: string): (r: RunArgs)
    ensures (var k := Separator(args);
      && r.command == (if k < |args| then args[k + 1..] else [])
      && (r.all <==> all || "--all" in args[..k]))
    decreases |args|
  {
    if |args| == 0 then RunArgs(all, target, [])
    else if args[0] == "--" then RunArgs(all, target, args[1..])
    else
      var r := Scan(args[1..], if args[0] == "--all" then true else all, if args[0] == "--all" then target else args[0]);
      SeparatorAfterFirst(args);
      r
  }

  /** An argument other than "--" shifts the separator by one. */
  lemma SeparatorAfterFirst(args: seq<string>)
    requires |args| > 0 && args[0] != "--"
    ensures Separator(args) == Separator(args[1..]) + 1
    ensures ("--all" in args[..Separator(args)]) <==> args[0] == "--all" || "--all" in args[1..][..Separator(args[1..])]
    ensures Separator(args) < |args| ==> args[Separator(args) + 1..] == args[1..][Separator(args[1..]) + 1..]
  {
    var rest := args[1..];
    var j := Separator(rest);
    assert Separator(args) == j + 1;
    var before := args[..j + 1];
    assert before == [args[0]] + rest[..j];
    assert "--all" in before <==> before[0] == "--all" || "--all" in rest[..j];
    if j < |rest| {
      assert args[j + 2..] == rest[j + 1..];
    }
  }

  /** The target Scan ends with is the last argument before the first "--"
      that is not --all, or the starting target when there is none. */
  lemma {:induction false} ScanTarget(args: seq<string>, all: bool, target: string)
    ensures ((forall j :: 0 <= j < Separator(args) ==> args[j] == "--all") ==> Scan(args, all, target).target == target)
    ensures (forall j: nat :: LastTargetAt(args, Separator(args), j) ==> Scan(args, all, target).target == args[j])
    decreases |args|
  {
    if |args| > 0 && args[0] != "--" {
      var nextAll := if args[0] == "--all" then true else all;
      var nextTarget := if args[0] == "--all" then target else args[0];
      ScanTarget(args[1..], nextAll, nextTarget);
      var r := Scan(args, all, target);
      assert r == Scan(args[1..], nextAll, nextTarget);
      var k := Separator(args);
      assert k == 1 + Separator(args[1..]);
      if forall j :: 0 <= j < k ==> args[j] == "--all" {
        assert forall j :: 0 <= j < k - 1 ==> args[1..][j] == "--all" by {
          forall j | 0 <= j < k - 1 ensures args[1..][j] == "--all" { assert args[j + 1] == "--all"; }
        }
      }
      forall j: nat | LastTargetAt(args, k, j) ensures r.target == args[j] {
        if j > 0 {
          assert LastTargetAt(args[1..], k - 1, j - 1);
        } else {
          assert forall m :: 0 <= m < k - 1 ==> args[1..][m] == "--all" by {
            forall m | 0 <= m < k - 1 ensures args[1..][m] == "--all" { assert args[m + 1] == "--all"; }
          }
        }
      }
    }
  }

  /** The argument parse of run: --all anywhere before "--", the last other
      argument there as the target, and everything after "--" as the command. */
  function ParseRunArgs(args: seq<string>): (r: RunArgs)
    ensures (var k := Separator(args);
      && r.command == (if k < |args| then args[k + 1..] else [])
      && (r.all <==> "--all" in args[..k])
      && ((forall j :: 0 <= j < k ==> args[j] == "--all") ==> r.target == ""))
    ensures (forall j: nat :: LastTargetAt(args, Separator(args), j) ==> r.target == args[j])
  {
    ScanTarget(args, false, "");
    Scan(args, false, "")
  }

  /** When no "--" comes before the last argument there is no command. */
  lemma NoSeparatorNoCommand(args: seq<string>)
    requires |args| == 0 || "--" !in args[..|args| - 1]
    ensures ParseRunArgs(args).command == []
  {
  }

  /** execIn: the command run in dir; its exit status is the outcome. */
  function ExecIn(env: Env, dir: string, command: seq<string>): (s: Step<()>)
    ensures s.trace == [Exec(dir, command)]
    ensures s.result.Ok? <==> env.reply(Exec(dir, command)).ok
    ensures s.result.Err? ==> s.result.error == ExecFailed(dir, command)
  {
    if env.reply(Exec(dir, command)).ok then Step(Ok(()), [Exec(dir, command)])
    else Step(Err(ExecFailed(dir, command)), [Exec(dir, command)])
  }

  /** The branches of the worktrees where the command failed, in order. */
  function Failures(env: Env, wts: seq<Worktree>, command: seq<string>): (r: seq<string>)
    ensures |r| <= |wts|
  {
    if |wts| == 0 then []
    else (if env.reply(Exec(wts[0].path, command)).ok then [] else [wts[0].branch]) + Failures(env, wts[1..], command)
  }

  /** A branch is reported exactly when the command failed in a worktree of
      that branch. */
  lemma {:induction false} FailuresMembers(env: Env, wts: seq<Worktree>, command: seq<string>, b: string)
    ensures (b in Failures(env, wts, command) <==> exists i :: 0 <= i < |wts| && wts[i].branch == b && !env.reply(Exec(wts[i].path, command)).ok)
    decreases |wts|
  {
    if |wts| > 0 {
      var rest := Failures(env, wts[1..], command);
      FailuresMembers(env, wts[1..], command, b);
      if b in rest {
        var i :| 0 <= i < |wts[1..]| && wts[1..][i].branch == b && !env.reply(Exec(wts[1..][i].path, command)).ok;
        assert wts[i + 1] == wts[1..][i];
      }
      if exists i :: 0 <= i < |wts| && wts[i].branch == b && !env.reply(Exec(wts[i].path, command)).ok {
        var i :| 0 <= i < |wts| && wts[i].branch == b && !env.reply(Exec(wts[i].path, command)).ok;
        if i > 0 { assert wts[1..][i - 1] == wts[i]; }
      }
    }
  }

  /** The calls of run --all: the command once in every worktree, in order. */
  function ExecCalls(wts: seq<Worktree>, command: seq<string>): (r: seq<Call>)
    ensures |r| == |wts|
    ensures (forall i :: 0 <= i < |wts| ==> r[i] == Exec(wts[i].path, command))
  {
    seq(|wts|, i requires 0 <= i < |wts| => Exec(wts[i].path, command))
  }

  /** run --all: the command runs in every worktree, in order, whatever
      happened in the previous ones; the failures are reported together. */
  method RunAll(env: Env, wts: seq<Worktree>, command: seq<string>) returns (s: Step<Unit>)
    ensures s.trace == ExecCalls(wts, command)
    ensures (s.result.Ok? <==> forall i :: 0 <= i < |wts| ==> env.reply(Exec(wts[i].path, command)).ok)
    ensures s.result.Err? ==> s.result.error == RunFailed(Failures(env, wts, command), |wts|)
  {
    var failed: seq<string> := [];
    var trace: seq<Call> := [];
    var i := 0;
    while i < |wts|
      invariant 0 <= i <= |wts|
      invariant trace == ExecCalls(wts[..i], command)
      invariant failed == Failures(env, wts[..i], command)
    {
      var e := ExecIn(env, wts[i].path, command);
      ExecCallsSnoc(wts, i, command);
      FailuresSnoc(env, wts, i, command);
      trace := trace + e.trace;
      if e.result.Err? {
        failed := failed + [wts[i].branch];
      }
      i := i + 1;
    }
    assert wts[..i] == wts;
    FailuresEmpty(env, wts, command);
    if |failed| > 0 {
      s := Step(Err(RunFailed(failed, |wts|)), trace);
    } else {
      s := Step(Ok(()), trace);
    }
  }

  /** One more worktree visited: one more call at the end of the trace. */
  lemma ExecCallsSnoc(wts: seq<Worktree>, i: nat, command: seq<string>)
    requires i < |wts|
    ensures ExecCalls(wts[..i + 1], command) == ExecCalls(wts[..i], command) + [Exec(wts[i].path, command)]
  {
    var a := ExecCalls(wts[..i + 1], command);
    var b := ExecCalls(wts[..i], command) + [Exec(wts[i].path, command)];
    assert |a| == |b|;
    forall k | 0 <= k < |a| ensures a[k] == b[k] {
      assert wts[..i + 1][k] == wts[k];
    }
  }

  /** Failures distributes over concatenation. */
  lemma {:induction false} FailuresAppend(env: Env, xs: seq<Worktree>, ys: seq<Worktree>, command: seq<string>)
    ensures Failures(env, xs + ys, command) == Failures(env, xs, command) + Failures(env, ys, command)
    decreases |xs|
  {
    if |xs| > 0 {
      var h := if env.reply(Exec(xs[0].path, command)).ok then [] else [xs[0].branch];
      assert Failures(env, xs + ys, command) == h + Failures(env, xs[1..] + ys, command) by {
        assert (xs + ys)[0] == xs[0];
        assert (xs + ys)[1..] == xs[1..] + ys;
      }
      FailuresAppend(env, xs[1..], ys, command);
      GoStrings.AppendAssoc(h, Failures(env, xs[1..], command), Failures(env, ys, command),
        Failures(env, xs + ys, command), Failures(env, xs, command));
    } else {
      assert xs + ys == ys;
    }
  }

  /** One more worktree visited: its failure, if any, at the end. */
  lemma FailuresSnoc(env: Env, wts: seq<Worktree>, i: nat, command: seq<string>)
    requires i < |wts|
    ensures (Failures(env, wts[..i + 1], command)
      == Failures(env, wts[..i], command) + (if env.reply(Exec(wts[i].path, command)).ok then [] else [wts[i].branch]))
  {
    assert wts[..i + 1] == wts[..i] + [wts[i]];
    FailuresAppend(env, wts[..i], [wts[i]], command);
    assert Failures(env, [wts[i]], command) == (if env.reply(Exec(wts[i].path, command)).ok then [] else [wts[i].branch]) + Failures(env, [], command);
  }

  /** `ww run`: Ok(()) when the command succeeded everywhere it ran. The
      worktrees are the checkouts of the current willow repo; the bare entry
      is never a candidate. */
  method Run(env: Env, args: seq<string>) returns (s: Step<Unit>)
    ensures |args| == 0 ==> s == Step(Err(Usage("usage: ww run <branch> -- <command...>")), [])
    ensures |args| > 0 && Repo.RequireWillowRepo(env).result.Err? ==> s == Step(Err(NotWillowRepo), Repo.RequireWillowRepo(env).trace)
    ensures (|args| > 0 && Repo.RequireWillowRepo(env).result.Ok? ==>
      var r := Repo.RequireWillowRepo(env);
      var listed := ListWorktrees(env, r.result.value);
      var p := ParseRunArgs(args);
      && (listed.Err? ==> s == Step(Err(listed.error), r.trace))
      && (listed.Ok? && p.command == [] ==> s == Step(Err(Usage("no command specified after --")), r.trace))
      && (listed.Ok? && p.command != [] && p.all ==>
            && s.trace == r.trace + ExecCalls(NonBare(listed.value), p.command)
            && (s.result.Ok? <==> Failures(env, NonBare(listed.value), p.command) == [])
            && (s.result.Err? ==> s.result.error == RunFailed(Failures(env, NonBare(listed.value), p.command), |NonBare(listed.value)|)))
      && (listed.Ok? && p.command != [] && !p.all && p.target == "" ==>
            s == Step(Err(Usage("branch name is required")), r.trace))
      && (listed.Ok? && p.command != [] && !p.all && p.target != "" ==>
            var found := Matcher.FindWorktree(NonBare(listed.value), p.target);
            && (found.Err? ==> s == Step(Err(found.error), r.trace))
            && (found.Ok? ==> s == Step(ExecIn(env, found.value.path, p.command).result, r.trace + [Exec(found.value.path, p.command)]))))
  {
    if |args| == 0 {
      return Step(Err(Usage("usage: ww run <branch> -- <command...>")), []);
    }
    var r := Repo.RequireWillowRepo(env);
    if r.result.Err? {
      return Step(Err(r.result.error), r.trace);
    }
    var listed := ListWorktrees(env, r.result.value);
    if listed.Err? {
      return Step(Err(listed.error), r.trace);
    }
    var filtered := NonBare(listed.value);
    var p := ParseRunArgs(args);
    if p.command == [] {
      return Step(Err(Usage("no command specified after --")), r.trace);
    }
    if p.all {
      var all := RunAll(env, filtered, p.command);
      FailuresEmpty(env, filtered, p.command);
      return Step(all.result, r.trace + all.trace);
    }
    if p.target == "" {
      return Step(Err(Usage("branch name is required")), r.trace);
    }
    match Matcher.FindWorktree(filtered, p.target)
    case Err(e) =>
      s := Step(Err(e), r.trace);
    case Ok(wt) =>
      var e := ExecIn(env, wt.path, p.command);
      s := Step(e.result, r.trace + e.trace);
  }

  /** No failures exactly when the command succeeded in every worktree. */
  lemma FailuresEmpty(env: Env, wts: seq<Worktree>, command: seq<string>)
    ensures (Failures(env, wts, command) == [] <==> forall i :: 0 <= i < |wts| ==> env.reply(Exec(wts[i].path, command)).ok)
  {
    if Failures(env, wts, command) != [] {
      FailuresMembers(env, wts, command, Failures(env, wts, command)[0]);
    } else {
      forall i | 0 <= i < |wts| ensures env.reply(Exec(wts[i].path, command)).ok {
        FailuresMembers(env, wts, command, wts[i].branch);
      }
    }
  }

  /** Every branch is reported exactly when the command failed everywhere. */
  lemma {:induction false} FailuresEverywhere(env: Env, wts: seq<Worktree>, command: seq<string>)
    ensures (|Failures(env, wts, command)| == |wts| <==> forall i :: 0 <= i < |wts| ==> !env.reply(Exec(wts[i].path, command)).ok)
    decreases |wts|
  {
    if |wts| > 0 {
      FailuresEverywhere(env, wts[1..], command);
      assert forall i :: 1 <= i < |wts| ==> wts[i] == wts[1..][i - 1];
    }
  }

  /** run --all never stops early: a failure in one worktree does not keep
      the command from running in the others. */
  lemma RunAllVisitsEvery(wts: seq<Worktree>, command: seq<string>, w: Worktree)
    requires w in wts
    ensures Exec(w.path, command) in ExecCalls(wts, command)
  {
    var i :| 0 <= i < |wts| && wts[i] == w;
    assert ExecCalls(wts, command)[i] == Exec(w.path, command);
  }

  /** A single-worktree run picks its worktree among the checkouts, never
      the bare entry. */
  lemma RunOneTarget(wts: seq<Worktree>, target: string, wt: Worktree)
    requires Matcher.FindWorktree(NonBare(wts), target) == Ok(wt)
    ensures !wt.isBare && wt in wts
  {
  }
}

=== FILE: strconv.dfy ===
/** Decimal rendering and parsing of integers: `strconv.Itoa` / `fmt`'s `%d`
    and `strconv.Atoi` on a 64-bit platform. */
module Strconv {
  import opened Outcomes

  const MinInt64: int := -0x8000_0000_0000_0000
  const MaxInt64: int := 0x7FFF_FFFF_FFFF_FFFF

  predicate IsDigit(c: char)
  {
    '0' <= c <= '9'
  }

  predicate AllDigits(s: string)
  {
    forall i :: 0 <= i < |s| ==> IsDigit(s[i])
  }

  function DigitChar(d: nat): (c: char)
    requires d < 10
    ensures IsDigit(c) && c as int - '0' as int == d
  {
    ('0' as int + d) as char
  }

  /** The number a string of decimal digits denotes, most significant first. */
  function DigitsValue(s: string): nat
    requires AllDigits(s)
  {
    if |s| == 0 then 0
    else DigitsValue(s[..|s| - 1]) * 10 + (s[|s| - 1] as int - '0' as int)
  }

  /** The shortest decimal spelling of `n`: digits only, no leading zero,
      and it denotes `n`. */
  function NatDigits(n: nat): (r: string)
    ensures |r| >= 1 && AllDigits(r)
    ensures r[0] != '0' || r == "0"
    ensures DigitsValue(r) == n
  {
    if n < 10 then [DigitChar(n)]
    else
      var r := NatDigits(n / 10) + [DigitChar(n % 10)];
      assert r[..|r| - 1] == NatDigits(n / 10);
      r
  }

  /** strconv.Itoa: a '-' in front of the digits of a negative number, and
      no leading zero. */
  function Itoa(n: int): (r: string)
    ensures |r| >= 1
    ensures n >= 0 ==> AllDigits(r) && DigitsValue(r) == n
    ensures n < 0 ==> r[0] == '-' && AllDigits(r[1..]) && DigitsValue(r[1..]) == -n
    ensures n >= 0 ==> r[0] != '0' || r == "0"
    ensures n < 0 ==> |r| >= 2 && r[1] != '0'
  {
    if n < 0 then "-" + NatDigits(-n) else NatDigits(n)
  }

  /** strconv.Atoi on a 64-bit platform: an optional sign followed by at least
      one decimal digit, whose value fits in an int64; anything else fails. */
  function Atoi(s: string): (r: Option<int>)
    ensures r.Some? ==> MinInt64 <= r.value <= MaxInt64
    ensures r.Some? ==> |s| >= 1 && (IsDigit(s[0]) || s[0] == '+' || s[0] == '-')
    ensures AllDigits(s) && |s| >= 1 && DigitsValue(s) <= MaxInt64 ==> r == Some(DigitsValue(s))
  {
    var signed := |s| > 0 && (s[0] == '-' || s[0] == '+');
    var body := if signed then s[1..] else s;
    if |body| == 0 || !AllDigits(body) then None
    else
      var v: int := if signed && s[0] == '-' then -(DigitsValue(body) as int) else DigitsValue(body);
      if MinInt64 <= v <= MaxInt64 then Some(v) else None
  }

  /** Atoi reads back what Itoa writes, over the whole int64 range. */
  lemma ItoaRoundTrip(n: int)
    requires MinInt64 <= n <= MaxInt64
    ensures Atoi(Itoa(n)) == Some(n)
  {
    var r := Itoa(n);
    if n < 0 {
      assert r[1..] == NatDigits(-n);
    }
  }

  /** Itoa never spells two numbers the same way. */
  lemma ItoaInjective(m: int, n: int)
    requires MinInt64 <= m <= MaxInt64 && MinInt64 <= n <= MaxInt64
    requires Itoa(m) == Itoa(n)
    ensures m == n
  {
    ItoaRoundTrip(m);
    ItoaRoundTrip(n);
  }
}

=== FILE: worktrees.dfy ===
/** The worktree record the commands consume, and the bare-entry filter
    that pwd, run and ls apply to every listing.

    internal/worktree/worktree.go declares only Branch, Path and Repo, but
    every caller reads IsBare; the record here carries it. */
module Worktrees {

  datatype Worktree = Worktree(branch: string, path: string, repo: string, isBare: bool)

  /** The non-bare entries of a listing, in listing order. */
  function NonBare(wts: seq<Worktree>): (r: seq<Worktree>)
    ensures (forall w :: w in r <==> w in wts && !w.isBare)
    ensures |r| <= |wts|
    decreases |wts|
  {
    if |wts| == 0 then []
    else (if wts[0].isBare then [] else [wts[0]]) + NonBare(wts[1..])
  }

  /** Filtering distributes over concatenation, so it keeps the relative
      order of the entries it keeps. */
  lemma {:induction false} NonBareAppend(a: seq<Worktree>, b: seq<Worktree>)
    ensures NonBare(a + b) == NonBare(a) + NonBare(b)
    decreases |a|
  {
    if |a| == 0 {
      assert a + b == b;
    } else {
      assert (a + b)[0] == a[0];
      assert (a + b)[1..] == a[1..] + b;
      NonBareAppend(a[1..], b);
    }
  }

  /** A listing without bare entries passes the filter unchanged. */
  lemma {:induction false} NonBareOfCheckouts(wts: seq<Worktree>)
    requires (forall i :: 0 <= i < |wts| ==> !wts[i].isBare)
    ensures NonBare(wts) == wts
    decreases |wts|
  {
    if |wts| > 0 {
      NonBareOfCheckouts(wts[1..]);
    }
  }

  /** The number of non-bare entries, counted entry by entry as ls does. */
  method CountCheckouts(wts: seq<Worktree>) returns (count: nat)
    ensures count == |NonBare(wts)|
  {
    count := 0;
    var i := 0;
    while i < |wts|
      invariant 0 <= i <= |wts|
      invariant count == |NonBare(wts[..i])|
    {
      NonBareAppend(wts[..i], [wts[i]]);
      assert wts[..i + 1] == wts[..i] + [wts[i]];
      if !wts[i].isBare {
        count := count + 1;
      }
      i := i + 1;
    }
    assert wts[..i] == wts;
  }
}
